=== FILE: README.md ===
# Second-hand market: a Dafny model of the listing, chat, wish-list and account core

This project models the core of a second-hand marketplace in Dafny. The backend
(NestJS over Prisma) and the Next.js front end are written in TypeScript. The
marketplace offers:

- listings: create, browse, filter, paginate, popular and recent lists, view
  counting, and a soft delete;
- buyer–seller chat rooms, served both over REST and over a socket gateway;
- a wish list of favourites;
- accounts with registration, sign-in and token validation.

The front-end logic that decides something is modelled too:

- decoding and expiry of the access token;
- the image picker;
- the search page's URL, query and pager;
- the chat list's filter and badge;
- the shared validation and display helpers.

Every store is an immutable value:

- rows sit in a `map` from a counter-allocated id;
- the message and favourite logs are sequences in insertion order.

Every endpoint is a pure function from the store and the request to `Result<(store, response)>`.

- The exceptions the services throw become `Error` values: `NotFound`, `Forbidden`, `Conflict`, `BadRequest`, `Unauthorized`.
- A refusal by the global validation pipe (`backend/src/app.module.ts`) is `BadRequest`.

Module map:

| module | models |
|---|---|
| `Common` | ids, `Option`, `Result`, the error taxonomy |
| `Text` | `split`, `join`, `replace`, ASCII `toLowerCase`, `includes` |
| `Paging` | `skip`/`take` pagination, `Math.ceil` page counts, newest-first pages read oldest-first |
| `Sorting` | a stable descending sort by a lexicographic rank (the `orderBy` clauses) |
| `Tables` | id-ordered selection from a keyed table (`findMany` with a `where`) |
| `ChatStore` | `backend/src/chat/chat.service.ts` |
| `ChatApi` | `backend/src/chat/chat.controller.ts` |
| `ChatGateway` | `backend/src/chat/chat.gateway.ts`: sockets, rooms, presence, events |
| `Products` | `backend/src/products/products.service.ts` and its DTOs |
| `Favorites` | `backend/src/favorites/favorites.service.ts` and its controller |
| `Accounts` | `auth.service.ts`, `users.service.ts`, the registration DTO |
| `SharedUtils` | `shared/src/utils/index.ts` |
| `JwtClient` | `frontend/src/utils/jwt.ts` |
| `ImageUpload` | `frontend/src/components/common/ImageUpload.tsx` |
| `SearchPage` | `frontend/src/app/search/page.tsx` |
| `ChatListPage` | `frontend/src/app/chat/page.tsx` |

Some things the original obtains from outside the model are parameters instead:

- password hashing and comparison;
- token signing and verification;
- `atob`/`JSON.parse`;
- `Number(...)` on form text;
- the upload request;
- the clock.

## Model

| member | source | states |
|---|---|---|
| Text.LowerIdempotent | frontend/src/app/chat/page.tsx:120-124 | lowering twice is lowering once, so the lowered query and lowered fields compare consistently |
| Text.LowerAppend | frontend/src/app/chat/page.tsx:120-124 | lower-casing is per character, so it distributes over concatenation |
| Text.ContainsPrefixOf | frontend/src/app/chat/page.tsx:122-124 | a string that includes `a + b` includes `a` |
| Text.ReplaceFirstAbsent | backend/src/chat/chat.gateway.ts:40 | `replace` with a pattern that does not occur leaves the string unchanged |
| Text.ReplaceFirstStripsPrefix | backend/src/chat/chat.gateway.ts:40 | replacing a leading `Bearer ` with nothing strips exactly that prefix |
| Text.ReplaceAllChar | frontend/src/utils/jwt.ts:25 | the global replace keeps the length; the replaced character no longer occurs; every other character keeps its position |
| Text.Split | frontend/src/utils/jwt.ts:18 | the parts contain no separator, and there is one more part than there are separators |
| Text.JoinSplit | frontend/src/utils/jwt.ts:18 | joining the parts of `split` with the separator gives back the original string |
| Text.SplitJoin | frontend/src/utils/jwt.ts:18-24 | splitting the join of separator-free parts gives back those parts |
| Text.SplitWhole | frontend/src/utils/jwt.ts:18-19 | a string with no separator splits into the single part holding it |
| Text.SplitAfterPart | frontend/src/utils/jwt.ts:18 | a separator-free part followed by the separator is split off first, and the rest is split on its own |
| Paging.CeilDiv | backend/src/products/products.service.ts:127 | the result is the least number of pages of `d` rows that holds `n` rows |
| Paging.BeforeLastPage | backend/src/products/products.service.ts:129-130 | with `totalPages = ceil(total / limit)`, `hasNext` holds exactly when rows remain after the page |
| Paging.JsCeilDiv | backend/src/chat/chat.service.ts:259 | `Math.ceil(n / d)` for any whole divisor: the least page count for d > 0; `Infinity` for a positive count over zero and `NaN` for zero over zero; for d < 0 the whole number `q <= 0` with `q * d <= n < (q - 1) * d` |
| Paging.Meta | backend/src/chat/chat.service.ts:259-270 | the pagination block for any page and limit: page, limit, total, `totalPages = Math.ceil(total / limit)`; for a positive limit `hasNext` iff rows remain after the page, for a zero limit iff there are rows at all; `hasPrev` iff page > 1 |
| Paging.Window | backend/src/products/products.service.ts:95-120 | a page holds at most `limit` rows, namely the slice that starts after `(page - 1) * limit` rows |
| Paging.SkipTakeAny | backend/src/chat/chat.service.ts:236-252 | Prisma's `skip`/`take` for any whole numbers: refused exactly for a negative skip; a non-negative take gives the slice after `skip` rows; a negative take gives the `-take` rows before the last `skip`, in order |
| Paging.Taken | backend/src/products/products.service.ts:355-360 | what `take` without `skip` returns: for a non-negative limit a prefix of the ordering, for a negative one a suffix, at most the limit's size, and all of it only when it is shorter |
| Paging.TakeWithoutSkip | backend/src/products/products.service.ts:355-360 | a query with skip 0 is never refused, returns a `Taken` slice of the ordering, and only rows of the ordering |
| Paging.SkipTakeAnyIsWindow | backend/src/favorites/favorites.service.ts:103-131 | for a positive page and limit the query returns the page's window |
| Paging.PageRows | backend/src/favorites/favorites.service.ts:103-131 | with a non-negative skip: the window for a positive limit (and then the page is at least 1), nothing for a zero limit, the rows before the last `skip` for a negative limit; never more rows than the limit's size, all taken from the list |
| Paging.PagesCoverAll | backend/src/products/products.service.ts:95-135 | walking pages 1 to `totalPages` yields every row exactly once and in order |
| Paging.PastTheEndIsEmpty | backend/src/products/products.service.ts:95-120 | a page past the last one is empty |
| Paging.ReversedSkipTake | backend/src/chat/chat.service.ts:250-262 | reversing, skipping, taking and reversing back is the contiguous slice ending `skip` rows before the end |
| Paging.NewestFirstPageIsSlice | backend/src/chat/chat.service.ts:236-262 | a newest-first page read oldest-first is the chronological slice ending `(page - 1) * limit` rows before the newest |
| Paging.ReverseSlice | backend/src/chat/chat.service.ts:250-262 | a slice of the reversed list, reversed back, is the mirrored slice of the list |
| Paging.NewestFirstQuery | backend/src/chat/chat.service.ts:236-262 | refused exactly for a negative skip; otherwise, oldest first: for a positive limit the slice ending `(page - 1) * limit` before the newest, for a zero limit nothing, for a negative limit the rows from the `skip`-th oldest on |
| Paging.ChronologicalPagesCoverAll | backend/src/chat/chat.service.ts:236-270 | reading pages from the last back to page 1 gives the whole log in chronological order |
| Sorting.Insert | backend/src/chat/chat.service.ts:142-144 | inserting into a descending list keeps it descending and adds exactly one occurrence of the element |
| Sorting.SortDescending | backend/src/products/products.service.ts:91-92 | the result is ordered by rank, highest first, and is a permutation of the input (same multiset) |
| Sorting.SortKeepsMembers | backend/src/products/products.service.ts:91-92 | an element is in the sorted list exactly when it is in the input |
| Sorting.PermutationKeepsMembers | backend/src/products/products.service.ts:91-92 | lists with the same multiset have the same members |
| Sorting.PermutationKeepsDistinct | backend/src/products/products.service.ts:91-92 | a permutation of a duplicate-free list is duplicate-free |
| Tables.KeysWhere | backend/src/products/products.service.ts:56-88 | the result is ascending, and a key occurs in it exactly when it is stored below the bound and its row satisfies the filter |
| Tables.RowsAt | backend/src/products/products.service.ts:97-120 | the rows under the given keys, position by position |
| Tables.RowsWhere | backend/src/products/products.service.ts:56-120 | every selected row is stored and satisfies the filter, and every such row under a key below the bound is selected |
| ChatStore.KindFromWire | backend/src/chat/chat.service.ts:275-306 | exactly the four stored type names TEXT, IMAGE, FILE and SYSTEM are inserted, each as the type it names; anything else is refused by the insert |
| ChatStore.KindRoundTrip | backend/src/chat/chat.service.ts:275-306 | every message type's stored name reads back as that type |
| ChatStore.LastMessage | backend/src/chat/chat.service.ts:120-129 | none iff the log is empty; otherwise the last entry appended to the log |
| ChatStore.CountUnread | backend/src/chat/chat.service.ts:131-140 | never more than the length of the log |
| ChatStore.NoUnreadIffCountZero | backend/src/chat/chat.service.ts:131-140 | the unread count is zero exactly when no message in the log is unread for the user |
| ChatStore.Authorize | backend/src/chat/chat.service.ts:156-206 | NotFound iff the room is missing; Forbidden iff the user is neither seller nor buyer; success otherwise |
| ChatStore.FirstWithTriple | backend/src/chat/chat.service.ts:11-16 | the found room matches the filter, where an undefined seller or listing filter matches any room, and no room with a lower id from `from` on matches; none iff no room matches |
| ChatStore.Matches | backend/src/chat/chat.service.ts:11-16 | the lookup's filter: the buyer must be the caller, and the seller and listing must agree only when the request gives them |
| ChatStore.Insertable | backend/src/chat/chat.service.ts:50-89 | the room insert needs both the seller and the listing id, and every key must name an existing user or listing row |
| ChatStore.FindOrCreate | backend/src/chat/chat.service.ts:9-91 | a matching room is returned with the store unchanged; otherwise the create fails (the insert is refused) exactly when the seller or listing is missing or a seller, buyer or listing key names no row, and else adds one new empty room under the next id and nothing else |
| ChatStore.FindOrCreateTwice | backend/src/chat/chat.service.ts:9-91 | after a successful call, a second call with the same request returns the same room and leaves the store as the first call left it |
| ChatStore.FindOrCreateKeepsTriplesUnique | backend/src/chat/chat.service.ts:9-91 | if no two rooms share a triple before a successful call, none do after it |
| ChatStore.UnknownReferenceIsRejected | backend/src/chat/chat.service.ts:50-56 | with no matching room, a seller or listing id that names no row makes the call fail with the insert refused |
| ChatStore.MissingSellerDropsFilter | backend/src/chat/chat.service.ts:11-16 | without a seller, the call succeeds exactly when the caller already has a room for the listing with any seller, and then returns it with the store unchanged |
| ChatStore.Participating | backend/src/chat/chat.service.ts:96-101 | a room id is listed exactly when it is stored below the bound and the user is its seller or buyer, ascending |
| ChatStore.RoomsByRecency | backend/src/chat/chat.service.ts:94-144 | exactly the user's rooms, each once, ordered by `updatedAt` descending |
| ChatStore.ViewsFor | backend/src/chat/chat.service.ts:147-152 | one view per room, in the same order, decorated for that user |
| ChatStore.ListedRoomsAreStored | backend/src/chat/chat.service.ts:94-152 | every listed room is stored, has the user as a participant, and shows the other participant, the newest message and the unread count |
| ChatStore.ListedRoomsAreComplete | backend/src/chat/chat.service.ts:96-101 | every stored room of the user appears in the list |
| ChatStore.ListedRoomsAreOrdered | backend/src/chat/chat.service.ts:142-144 | consecutive listed rooms have non-increasing `updatedAt` |
| ChatStore.GetChatRooms | backend/src/chat/chat.service.ts:94-153 | the list is the recency-ordered views of the user's rooms, and the store is unchanged |
| ChatStore.GetChatRoom | backend/src/chat/chat.service.ts:156-217 | NotFound for a missing room, Forbidden for a non-participant; otherwise the room with the participant on the other side |
| ChatStore.GetMessages | backend/src/chat/chat.service.ts:221-272 | the participant check comes first; then refused exactly when `(page - 1) * limit` is negative; otherwise, oldest first, the slice ending `(page - 1) * limit` before the newest for a positive limit, nothing for a zero limit, the rows from the `skip`-th oldest on for a negative limit, with the page metadata over the whole log |
| ChatStore.MessagePagesCoverLog | backend/src/chat/chat.service.ts:236-270 | the message pages, read from the last back to the first, give the whole log oldest first |
| ChatStore.HundredTwentyMessagesPageTwo | backend/src/chat/chat.service.ts:236-262 | with 120 messages and 50 per page, page 2 holds messages 21 to 70 and there are 3 pages |
| ChatStore.SendMessage | backend/src/chat/chat.service.ts:275-316 | the participant check, then an unknown type or a missing content refused by the insert; on success exactly one unread message with the given content is appended to that room, its `updatedAt` is the send time, and nothing else changes |
| ChatStore.SendMessageEffects | backend/src/chat/chat.service.ts:291-313 | after a send the message is the room's newest, the other participant's unread count grows by one, and the sender's count stays the same |
| ChatStore.SendMessageKeepsValid | backend/src/chat/chat.service.ts:275-316 | sending keeps the store well formed |
| ChatStore.MarkedFor | backend/src/chat/chat.service.ts:334-343 | same length and senders; a message becomes read iff it was unread and not sent by the user; others keep their flag |
| ChatStore.MarkRead | backend/src/chat/chat.service.ts:319-344 | the participant check, then only that room's log changes, by `MarkedFor` |
| ChatStore.MarkReadClearsUnread | backend/src/chat/chat.service.ts:334-343 | after marking, the user's unread count in the room is zero |
| ChatStore.MarkReadIsOneWay | backend/src/chat/chat.service.ts:334-343 | read flags only go from false to true, and the other participant's unread count is untouched |
| ChatStore.MarkReadIdempotent | backend/src/chat/chat.service.ts:319-344 | marking twice gives the same store as marking once |
| ChatStore.DeleteRoom | backend/src/chat/chat.service.ts:347-367 | the participant check, then the room and its log are removed and nothing else changes |
| ChatStore.DeletedRoomIsGone | backend/src/chat/chat.service.ts:347-367 | after a delete every user gets NotFound for the room; it is gone from both lists; asking for the same triple again succeeds exactly when its keys name rows, and then yields a fresh, empty room under a new id |
| ChatApi.CreateRoom | backend/src/chat/chat.controller.ts:83-92 | the caller is the buyer; a matching room is returned with the store unchanged; otherwise success exactly when the body's seller and listing are given and every key names a row; a returned room is stored, has the caller as buyer and the given seller and listing, and the store stays well formed |
| ChatApi.SelfChatIsAllowed | backend/src/chat/chat.controller.ts:83-92 | a seller can open a room with themself for an existing listing and then passes the participant check |
| ChatApi.GetMessages | backend/src/chat/chat.controller.ts:233-245 | the participant check comes first; page 1 and 50 per page stand in only for absent or empty parameters; the query then fails exactly when `(page - 1) * limit` is negative; a page holds no more messages than the limit's size |
| ChatApi.ZeroPageIsRefused | backend/src/chat/chat.controller.ts:242 | `?page=0` with a positive limit is passed on as 0, and the negative skip is refused |
| ChatApi.ZeroLimitGivesNoRows | backend/src/chat/chat.controller.ts:243 | `?limit=0` is passed on as 0: no messages, `totalPages` is `Infinity` (or `NaN` for an empty room), and `hasNext` iff the room has messages |
| ChatApi.NegativeLimitReadsOldest | backend/src/chat/chat.controller.ts:242-243 | on page 1 a negative limit `-k` returns the `k` oldest messages and no next page |
| ChatApi.DefaultPageIsNewestFifty | backend/src/chat/chat.controller.ts:242-243 | without query parameters the newest 50 messages come back, oldest first |
| ChatApi.WireKind | backend/src/chat/chat.controller.ts:301 | an absent or empty type becomes TEXT; any other is passed on |
| ChatApi.SendMessage | backend/src/chat/chat.controller.ts:292-303 | succeeds exactly for a participant who gives a content and an empty, TEXT, IMAGE, FILE or SYSTEM type; after the participant check any other failure is the insert's refusal; an empty type is stored as TEXT; the stored message is the caller's, unread, with the given content |
| ChatApi.SystemMessageIsAttributedToSender | backend/src/chat/chat.controller.ts:295-301 | the unchecked body lets a participant store a SYSTEM message, and it is attributed to them |
| ChatApi.MissingContentIsRefused | backend/src/chat/chat.service.ts:291-297 | a participant whose body has no `content` gets the insert's refusal, whatever the type |
| ChatApi.MarkRead | backend/src/chat/chat.controller.ts:305-328 | succeeds with the acknowledgement exactly when the service's update succeeds |
| ChatApi.DeleteRoom | backend/src/chat/chat.controller.ts:350-352 | succeeds exactly for a participant, removing only that room; otherwise the participant check's error |
| ChatGateway.Peers | backend/src/chat/chat.gateway.ts:103-106 | a socket is a peer exactly when it is subscribed to the room and is not the emitter |
| ChatGateway.Members | backend/src/chat/chat.gateway.ts:252-254 | a socket is a member exactly when it is subscribed to the room |
| ChatGateway.TokenOf | backend/src/chat/chat.gateway.ts:40 | the auth token when non-empty; no token when it is empty and there is no header |
| ChatGateway.BearerHeaderYieldsToken | backend/src/chat/chat.gateway.ts:40 | with no auth token, a `Bearer <t>` header yields `t` |
| ChatGateway.Connect | backend/src/chat/chat.gateway.ts:37-72 | rejected without a token, with an unverifiable token or with no subject; otherwise the socket becomes the user's presence and joins exactly the user's rooms |
| ChatGateway.ConnectSubscribesOwnRooms | backend/src/chat/chat.gateway.ts:62-65 | a fresh socket is subscribed to exactly the rooms its user takes part in |
| ChatGateway.Disconnect | backend/src/chat/chat.gateway.ts:74-79 | the socket is gone and its user's presence entry is removed, whichever socket it pointed at |
| ChatGateway.StaleDisconnectEvictsNewerSocket | backend/src/chat/chat.gateway.ts:74-79 | closing the older of two sockets leaves the user absent while the newer socket stays connected |
| ChatGateway.JoinRoom | backend/src/chat/chat.gateway.ts:81-114 | a refused check emits an error and changes nothing; otherwise the socket subscribes, the room is marked read for the user and its peers are told |
| ChatGateway.LeaveRoom | backend/src/chat/chat.gateway.ts:116-123 | only that subscription is dropped, with no check |
| ChatGateway.SendMessage | backend/src/chat/chat.gateway.ts:125-172 | a refused send (including a payload without content) is an error acknowledgement that changes nothing; otherwise the message is persisted first, then broadcast to the peers, then the other participant's presence socket, if any, gets the room-updated notice |
| ChatGateway.Typing | backend/src/chat/chat.gateway.ts:174-185 | relayed to the room's peers, and nothing else changes |
| ChatGateway.MarkAsRead | backend/src/chat/chat.gateway.ts:187-209 | the store's `MarkRead`, then its peers are told; a refusal changes nothing |
| ChatGateway.RelayProductStatus | backend/src/chat/chat.gateway.ts:211-241 | the payload goes verbatim to the room's peers, with no check of the sender |
| ChatGateway.NotifyUser | backend/src/chat/chat.gateway.ts:244-249 | one event to the user's presence socket if present, none otherwise |
| ChatGateway.NotifyRoom | backend/src/chat/chat.gateway.ts:252-254 | one event to every socket subscribed to the room |
| ChatGateway.FailuresChangeNothing | backend/src/chat/chat.gateway.ts:110-113 | a refused join, send or mark-read leaves the gateway and store as they were |
| ChatGateway.MissingContentIsAcknowledgedAsFailure | backend/src/chat/chat.gateway.ts:125-172 | a participant's `sendMessage` without content is answered with the insert's refusal, and nothing is stored or emitted |
| ChatGateway.EmitterIsNotEchoed | backend/src/chat/chat.gateway.ts:103-185 | the broadcasts of a send, a join and a typing notice never reach the emitting socket |
| ChatGateway.PersistedBeforeBroadcast | backend/src/chat/chat.gateway.ts:138-151 | a delivered message is already the newest entry of the room's log |
| ChatGateway.RoomUpdatedReachesOtherParticipant | backend/src/chat/chat.gateway.ts:156-165 | the room-updated notice goes to the other participant exactly when they are present |
| ChatGateway.MessagesStayInTheRoom | backend/src/chat/chat.gateway.ts:148-151 | when sockets are subscribed only to their users' rooms, a message reaches only participants' sockets |
| ChatGateway.TypingReachesRoomFromOutside | backend/src/chat/chat.gateway.ts:174-185 | a connected socket that is not in the room can still reach its sockets with `typing` |
| ChatGateway.HandlersKeepInv | backend/src/chat/chat.gateway.ts:81-254 | every handler and room push keeps the gateway invariant: a valid store, and presence entries that point at a connected socket of that user |
| ChatGateway.PrivateCarriesOver | backend/src/chat/chat.gateway.ts:62-65 | store changes that keep rooms' participants, and socket changes that only drop things, keep subscriptions private |
| ChatGateway.HandlersKeepPrivate | backend/src/chat/chat.gateway.ts:81-209 | joining, leaving, disconnecting, sending and marking keep sockets subscribed only to their users' rooms |
| ChatGateway.ConnectKeepsPrivate | backend/src/chat/chat.gateway.ts:59-65 | a connection subscribes only to the user's own rooms, so privacy is kept |
| ChatGateway.RestChangesKeepPrivate | backend/src/chat/chat.controller.ts:83-92 | a successful room creation or deletion through the REST endpoints keeps every socket subscribed only to rooms its user takes part in |
| Products.CategoryNamed | backend/src/products/dto/create-product.dto.ts:70-71 | a category is named exactly by one of the eight enum names |
| Products.ConditionNamed | backend/src/products/dto/create-product.dto.ts:79-80 | a condition is named exactly by one of the five enum names |
| Products.StatusNamed | backend/src/products/dto/update-product.dto.ts:15-17 | a status is named exactly by AVAILABLE, RESERVED, SOLD or DELETED |
| Products.ValidCreateBody | backend/src/products/dto/create-product.dto.ts:12-115 | the creation DTO's constraints: title 2–100 characters, description 10–2000, price 100–99,999,999, each image URL at most 500, a non-negative main index, enum category and condition, location at most 100, latitude within ±90 and longitude within ±180 |
| Products.InsertRefused | backend/src/products/products.service.ts:13-18 | the spread body makes the insert fail exactly when it carries a key the table lacks or a wrong-typed value, or a status that is not an enum name |
| Products.Create | backend/src/products/products.service.ts:13-37 | BadRequest iff the body breaks a DTO constraint, else the insert's refusal iff `InsertRefused`; otherwise one new listing of the caller is added and nothing else changes; its status, view count, like count and creation time are the body's when it gives them (AVAILABLE, 0, 0 and now otherwise) |
| Products.PlainBodyCreatesFreshListing | backend/src/products/products.service.ts:13-18 | a body with only DTO fields creates an AVAILABLE listing of the caller with no views or likes, created now |
| Products.BodyPresetsColumns | backend/src/products/products.service.ts:13-18 | a body carrying `sellerId`, `status: SOLD` and `viewCount: 999` creates a SOLD listing with 999 views, still owned by the caller |
| Products.CreateBoundaries | backend/src/products/dto/create-product.dto.ts:12-115 | a 1-character title, a 99-won price, a 501-character URL and a latitude of 91 are refused; eleven images and an out-of-range main index are accepted |
| Products.InvertedPriceRangeIsAccepted | backend/src/products/dto/product-query.dto.ts:52-68 | `minPrice > maxPrice` passes validation; the store then refuses the query, as it refuses every price bound |
| Products.PriceBoundIsRefused | backend/src/products/products.service.ts:78-82 | a valid query with a minimum or maximum price fails with the store's refusal: the pipe does not transform, so the bound reaches the numeric `price` column as query text |
| Products.AnySortColumnIsValid | backend/src/products/dto/product-query.dto.ts:85-97 | any string passes as the sort column and order |
| Products.ValidQuery | backend/src/products/dto/product-query.dto.ts:12-123 | the query DTO's constraints: enum category, condition and status, non-negative prices in either order, page at least 1, limit 1–100; the sort fields need only be strings |
| Products.Matches | backend/src/products/products.service.ts:56-85 | the listing `where` of a query the store accepts: the status, then each given filter: search text in title or description ignoring case, category, condition and location text; price bounds never get this far |
| Products.SortColumn | backend/src/products/products.service.ts:91-92 | the four known columns read the listing's field; any other column has no value |
| Products.DescendingRankIsOrderedBy | backend/src/products/products.service.ts:91-92 | a list sorted by the derived rank is ordered by the column, ascending or descending as asked |
| Products.Select | backend/src/products/products.service.ts:56-88 | a listing is selected exactly when it is stored and satisfies the filter; the result is in id order |
| Products.PermutedSelection | backend/src/products/products.service.ts:91-92 | a rearrangement of the selection still holds each matching listing exactly once |
| Products.SelectIsDistinct | backend/src/products/products.service.ts:56-88 | no listing is selected twice |
| Products.SelectSorted | backend/src/products/products.service.ts:56-92 | the selection sorted by rank holds exactly the matching listings, each once, ordered by the rank |
| Products.FindAll | backend/src/products/products.service.ts:40-137 | BadRequest for a bad query; the store's refusal for an unknown ordering or any price bound; otherwise the page of the sorted matches, with metadata over all matches; the catalogue is unchanged |
| Products.FindAllReturnsOnlyMatches | backend/src/products/products.service.ts:56-88 | an answered query has no price bound, and each listed item has the asked status (AVAILABLE by default), search text, category, condition and location |
| Products.FindAllPagesCoverMatches | backend/src/products/products.service.ts:95-135 | for an answered query (so one without a price bound), walking pages 1 to `totalPages` visits every matching listing exactly once, in the asked order |
| Products.FindByUser | backend/src/products/products.service.ts:247-331 | the seller's listings, filtered by status only when one is given, sorted and paged like `findAll` |
| Products.FindByUserShowsEveryStatus | backend/src/products/products.service.ts:260-277 | without a status filter a sold or deleted listing of the seller is listed |
| Products.Top | backend/src/products/products.service.ts:355-360 | the `take` of the rank-sorted matches: for a non-negative limit its highest-ranked prefix, for a negative one its lowest-ranked suffix in the same order; every row is stored and matches, and the list is highest rank first |
| Products.TakenKeepsOrder | backend/src/products/products.service.ts:355-360 | a `take` of a rank-sorted list is still rank-sorted and holds only its rows |
| Products.MissingFromTaken | backend/src/products/products.service.ts:355-360 | a row of the ordering left out of a `take` means the take is full, and every taken row ranks at least as high (for a positive limit) or at most as high (for a negative one) |
| Products.TopIsASlice | backend/src/products/products.service.ts:355-360 | a matching listing missing from `Top` is missing only because the list is full, and is outranked by every listed one for a non-negative limit, outranks them for a negative one |
| Products.FindPopular | backend/src/products/products.service.ts:333-362 | the `take` of the available listings ordered by likes, then views, then recency; 10 only when the limit is absent, and the raw number otherwise, a negative one reading from the bottom |
| Products.PopularIsATopSlice | backend/src/products/products.controller.ts:281-282 | an available listing left out is left out only when the list is full, and ranks no higher than any listed one for a non-negative limit and no lower for a negative one |
| Products.FindRecent | backend/src/products/products.service.ts:365-392 | the `take` of the available listings newest first; 10 only when the limit is absent, and the raw number otherwise, a negative one giving the oldest |
| Products.RecentIsATopSlice | backend/src/products/products.controller.ts:301-302 | an available listing left out of the recent list is left out only when the list is full, and is no newer than any listed one for a non-negative limit and no older for a negative one |
| Products.EmptyLimitIsZero | backend/src/products/products.controller.ts:281-302 | `?limit=0` gives empty popular and recent lists, while no limit gives up to ten recent listings |
| Products.FindOne | backend/src/products/products.service.ts:139-177 | NotFound iff missing; any status is shown; a viewer id other than the seller's adds exactly one view, which the reply shows |
| Products.FindOneRoute | backend/src/products/products.controller.ts:387-454 | the unguarded route calls the service without a viewer: NotFound iff missing, otherwise the stored listing with the catalogue unchanged |
| Products.RouteNeverCountsViews | backend/src/products/products.controller.ts:451-454 | over HTTP a stored listing's view count reads back unchanged and the catalogue is left as it was |
| Products.ViewCountingSkipsSeller | backend/src/products/products.service.ts:168-174 | the seller's and anonymous views leave the catalogue unchanged; anyone else's add one |
| Products.ValidUpdateBody | backend/src/products/dto/update-product.dto.ts:7-17 | each field the body gives meets its creation constraint, and a given status is an enum name |
| Products.Patch | backend/src/products/products.service.ts:198-202 | each field the body gives is written, each it omits is kept, including seller, counters and creation time; the id is kept |
| Products.EmptyBodyPatchesNothing | backend/src/products/products.service.ts:198-202 | a body that gives no field leaves the listing as it was |
| Products.PatchIsIdempotent | backend/src/products/products.service.ts:198-202 | writing the same body twice gives the listing writing it once gives |
| Products.UpdateRefused | backend/src/products/products.service.ts:198-202 | the update fails in the store exactly for a key the table lacks, a wrong-typed value, or a seller id that names no account |
| Products.Update | backend/src/products/products.service.ts:180-219 | BadRequest for a bad body, NotFound, Forbidden for a non-seller, BadRequest for a sold listing unless the body keeps SOLD, then the store's refusal iff `UpdateRefused`; otherwise the listing returned and stored is exactly the old one patched by the body, with the seller, counters and creation time the body gives |
| Products.SoldStaysSold | backend/src/products/products.service.ts:194-196 | no successful update moves a listing out of SOLD |
| Products.SoldListingTitleCanChange | backend/src/products/products.service.ts:194-196 | a sold listing's title can still change when the body repeats SOLD |
| Products.UpdateCanHandOverListing | backend/src/products/products.service.ts:180-219 | a seller whose body names another account as `sellerId` hands the listing over, and is then refused as a non-seller for a later update or removal |
| Products.Remove | backend/src/products/products.service.ts:222-245 | NotFound, Forbidden for a non-seller; otherwise only the status becomes DELETED |
| Products.RemoveIsSoft | backend/src/products/products.service.ts:235-238 | a removed listing is still found, a second removal changes nothing, and the default listing no longer shows it |
| Favorites.Without | backend/src/favorites/favorites.service.ts:175-182 | keeps exactly the entries the filter does not hold for, in order |
| Favorites.CountWhere | backend/src/favorites/favorites.service.ts:168-170 | never more than the size of the table |
| Favorites.WithoutRemovesCount | backend/src/favorites/favorites.service.ts:184-187 | a delete removes exactly as many entries as match |
| Favorites.StoredPairCountsOnce | backend/src/favorites/favorites.service.ts:25-32 | under the unique (user, product) index a stored pair is matched by exactly one entry |
| Favorites.Add | backend/src/favorites/favorites.service.ts:9-70 | NotFound for an unknown listing, Conflict for one's own, Conflict for a stored pair; otherwise exactly the new pair is appended |
| Favorites.Remove | backend/src/favorites/favorites.service.ts:73-99 | NotFound unless the pair is stored; otherwise exactly that pair is removed |
| Favorites.RemoveUndoesAdd | backend/src/favorites/favorites.service.ts:39-94 | removing a pair just added restores the table |
| Favorites.NothingToDropKeepsAll | backend/src/favorites/favorites.service.ts:175-182 | when nothing matches, a delete leaves the table as it was |
| Favorites.IsFavorite | backend/src/favorites/favorites.service.ts:153-164 | true exactly when the pair is stored |
| Favorites.StatusFollowsAddAndRemove | backend/src/favorites/favorites.service.ts:153-164 | after a successful add the status is true; after a successful remove it is false |
| Favorites.FavoriteCount | backend/src/favorites/favorites.service.ts:167-171 | the number of stored entries for the listing |
| Favorites.CountOfProductZero | backend/src/favorites/favorites.service.ts:167-171 | the count is zero exactly when no entry is for that listing |
| Favorites.CountFollowsAddAndRemove | backend/src/favorites/favorites.service.ts:39-94 | a successful add counts one more for the listing, a successful removal one fewer |
| Favorites.RemoveCountsOneLess | backend/src/favorites/favorites.service.ts:87-94 | removing a stored pair lowers the listing's count by exactly one |
| Favorites.RemoveMany | backend/src/favorites/favorites.service.ts:174-188 | removes exactly the caller's entries whose listing is in the list, or all the caller's entries when the body has no list, and reports how many went |
| Favorites.RemoveManySparesOthers | backend/src/favorites/favorites.service.ts:175-182 | another user's entries are untouched by a bulk removal |
| Favorites.MissingListDropsAll | backend/src/favorites/favorites.controller.ts:217-221 | a body without `productIds` removes every one of the caller's marks, keeps everyone else's, and reports the caller's count |
| Favorites.UserList | backend/src/favorites/favorites.service.ts:106-128 | exactly the user's entries, newest first |
| Favorites.NewestFirstIsPairwise | backend/src/favorites/favorites.service.ts:106-128 | in a newest-first list no entry is older than any entry after it |
| Favorites.ProductsOf | backend/src/favorites/favorites.service.ts:140 | one listing per entry, in the same order |
| Favorites.GetFavorites | backend/src/favorites/favorites.controller.ts:152-161 | page 1 and 10 per page stand in only for absent or empty parameters; the query fails exactly when `(page - 1) * limit` is negative; otherwise the page's rows of the user's marks, newest first, with metadata over all their marks |
| Favorites.PageIsRowsOfList | backend/src/favorites/favorites.service.ts:102-150 | a served page has a non-negative skip and lists the query's rows of the user's marks |
| Favorites.ListPage | backend/src/favorites/favorites.service.ts:102-150 | one page of a list of marks: refused exactly for a negative skip; otherwise the listings of the page's rows, with metadata over the whole list |
| Favorites.FavouritePageHoldsOwnMarks | backend/src/favorites/favorites.service.ts:102-150 | every listing on a page is one the user marked |
| Favorites.FavouritePageIsBounded | backend/src/favorites/favorites.service.ts:129-130 | a page holds no more listings than the limit's size |
| Favorites.ZeroQueriesAreNotDefaults | backend/src/favorites/favorites.controller.ts:159-160 | `?page=0` is refused, and `?limit=0` gives an empty page with limit 0 |
| Favorites.FavouritePagesCoverList | backend/src/favorites/favorites.service.ts:102-150 | walking pages 1 to `totalPages` lists every one of the user's marks |
| Favorites.ComplementCounts | backend/src/favorites/favorites.service.ts:132-134 | the user's entries and everyone else's together count the whole table |
| Accounts.UserByEmail | backend/src/users/users.service.ts:65-69 | the one account with the address, active or not, or none when no account has it |
| Accounts.ProjectionsHideThePassword | backend/src/users/users.service.ts:34-63 | two accounts that differ only in the password hash produce identical responses |
| Accounts.ValidRegisterBody | backend/src/auth/dto/register.dto.ts:10-42 | an address the validator accepts, a user name of 2–20 characters, a password of at least 8 and a location of at most 100 |
| Accounts.ValidLoginBody | backend/src/auth/dto/login.dto.ts:1-20 | an address the validator accepts and a non-empty password |
| Accounts.Register | backend/src/auth/auth.service.ts:22-69 | BadRequest for a bad body, Conflict for a taken address, then for a taken name; otherwise one new active account with the hashed password, and its profile and token |
| Accounts.ValidateUser | backend/src/auth/auth.service.ts:103-120 | nothing for an unknown address or a wrong password; BadRequest for an inactive account whose password matched; the account otherwise |
| Accounts.Login | backend/src/auth/auth.service.ts:71-101 | Unauthorized exactly when `validateUser` gives nothing; otherwise the profile and a token for the account |
| Accounts.RegisterThenLogin | backend/src/auth/auth.service.ts:22-101 | a fresh registration can sign in at once with the same credentials, getting the same profile and token |
| Accounts.WrongPasswordHidesInactivity | backend/src/auth/auth.service.ts:106-117 | a wrong password on an inactive account gives Unauthorized, not the inactive-account error |
| Accounts.ValidateJwtPayload | backend/src/auth/auth.service.ts:122-130 | NotFound for an unknown subject, Unauthorized for an inactive account, the account otherwise |
| Accounts.RefreshToken | backend/src/auth/auth.service.ts:132-150 | a token for the payload of an active account; NotFound or Unauthorized otherwise |
| Accounts.FindById | backend/src/users/users.service.ts:34-63 | NotFound iff no such account; otherwise its public view |
| Accounts.ViewsAt | backend/src/users/users.service.ts:16-32 | the views of the accounts under the keys, position by position |
| Accounts.FindAll | backend/src/users/users.service.ts:16-32 | every account, active or not, once each, in id order |
| Accounts.FindAllIsComplete | backend/src/users/users.service.ts:16-32 | each listed view belongs to a stored account, and each stored account is listed |
| Accounts.Update | backend/src/users/users.service.ts:77-98 | BadRequest for a bad body; NotFound for a missing account; the store's refusal for a stray key or an address another account has; otherwise only the fields the body gives change, including address, password hash, location, phone, profile image, verified flag, rating and creation time |
| Accounts.ValidUpdateUserBody | backend/src/users/dto/update-user.dto.ts:12-38 | a given user name has 2–20 characters, a location at most 100 and a phone number at most 20 |
| Accounts.UpdateRefused | backend/src/users/users.service.ts:77-82 | the store refuses an update with a key the table lacks or a wrong-typed value, or with an address another account has |
| Accounts.PasswordInBodyIsStoredRaw | backend/src/users/users.service.ts:77-82 | a `password` in the body is stored as the hash column verbatim, so afterwards a sign-in succeeds only with a password whose hash equals that text |
| Accounts.BodyRewritesRating | backend/src/users/users.service.ts:77-82 | a body giving `ratingTenths` and `ratingCount` sets both on the account |
| Accounts.Remove | backend/src/users/users.service.ts:100-114 | NotFound, or only `isActive` is cleared |
| Accounts.DeactivatedAccountIsLockedOut | backend/src/users/users.service.ts:100-114 | after removal the address and name stay taken, the token no longer validates or refreshes, and signing in is refused |
| Accounts.RoundHalfUp | backend/src/users/users.service.ts:126 | the result `r` satisfies `r - 1/2 <= n/d < r + 1/2`, which is `Math.round` |
| Accounts.RoundHalfUpBounds | backend/src/users/users.service.ts:119-126 | rounding a quotient between two integers stays between them |
| Accounts.UpdateRating | backend/src/users/users.service.ts:116-130 | the count grows by one and the stored rating becomes the new average rounded half up to a tenth |
| Accounts.RatingStaysOnScale | backend/src/users/users.service.ts:119-126 | with the stored average and the new rating in 0–5, the new average is in 0–5 |
| SharedUtils.IntText | shared/src/utils/index.ts:8-10 | the decimal text of a count: at least one character, digits only, at most two below 100 |
| SharedUtils.IntTextRoundTrip | shared/src/utils/index.ts:8-10 | reading the digits back gives the count |
| SharedUtils.FormatDate | shared/src/utils/index.ts:2-13 | "just now" exactly under a minute (a future date included); a locale date exactly from thirty days on; minutes, hours and days stay within 1–59, 1–23 and 1–29 |
| SharedUtils.FormatDateCountsWholeUnits | shared/src/utils/index.ts:8-10 | the number in each label is the elapsed time in its unit, rounded down |
| SharedUtils.IndexOf | shared/src/utils/index.ts:22 | -1 iff the character is absent; otherwise the position of its first occurrence |
| SharedUtils.IsValidEmail | shared/src/utils/index.ts:21-24 | true exactly when the text is non-blank characters, an `@`, then non-blank text holding a `.` with characters on both sides, and no other `@` |
| SharedUtils.FirstLine | shared/src/utils/index.ts:27 | the longest prefix without a line terminator |
| SharedUtils.IsValidPassword | shared/src/utils/index.ts:26-28 | true exactly when the text has at least 8 characters and its first line holds an ASCII letter and a digit |
| SharedUtils.PasswordCheckStopsAtLineBreak | shared/src/utils/index.ts:27 | "\nabc12345" is refused although it holds letters and digits; "a1bcdefg" is accepted |
| SharedUtils.GetImageUrl | shared/src/utils/index.ts:31-34 | text starting with `http` passes through; otherwise the API base (or the local default when unset or empty) + `/uploads/` + the path |
| SharedUtils.GetImageUrlIsStable | shared/src/utils/index.ts:31-34 | the path is always the URL's tail, and with an `http` base applying the function twice equals applying it once |
| SharedUtils.Lookup | shared/src/utils/index.ts:48 | the name of the first matching key when that name is non-empty; the key itself when no key matches |
| SharedUtils.CategoryDisplayName | shared/src/utils/index.ts:37-49 | the Korean name for each of the eight lower-case keys, and the input itself for anything else |
| SharedUtils.ConditionDisplayName | shared/src/utils/index.ts:51-60 | the Korean name for each of the five lower-case keys, and the input itself for anything else |
| SharedUtils.StoredCategoryPassesThrough | shared/src/utils/index.ts:37-49 | an upper-case enum name as stored, such as ELECTRONICS, passes through untranslated |
| SharedUtils.LowerCaseKeysTranslate | shared/src/utils/index.ts:37-60 | the lower-case keys translate: `electronics` and `like_new` |
| JwtClient.FromBase64Url | frontend/src/utils/jwt.ts:25 | same length; `-` becomes `+`, `_` becomes `/`, and every other character is kept |
| JwtClient.Logged | frontend/src/utils/jwt.ts:27-39 | the parsed claims come back exactly when the debug log can print a truthy `iat` and `exp` as dates; otherwise the `catch` gives none |
| JwtClient.DecodeJwt | frontend/src/utils/jwt.ts:16-40 | none unless the token has exactly two dots; a decoded payload comes from one of the parts, and its truthy `iat` and `exp` are within the `Date` range |
| JwtClient.DecodeReadsPayload | frontend/src/utils/jwt.ts:18-39 | `header.payload.signature` with dot-free parts decodes exactly the middle part, subject to the log printing its times |
| JwtClient.ExpiryOf | frontend/src/utils/jwt.ts:46-47 | present exactly when the token decodes and carries a non-zero `exp`, and then equal to it and within the `Date` range |
| JwtClient.UnprintableExpiryIsExpired | frontend/src/utils/jwt.ts:27-47 | a well-formed token whose `exp` lies beyond the `Date` range has no expiry and counts as expired at every moment |
| JwtClient.IsTokenExpired | frontend/src/utils/jwt.ts:45-63 | true without an expiry; otherwise true exactly when `1000 * exp <= now` in milliseconds |
| JwtClient.ExpiresAtExactSecond | frontend/src/utils/jwt.ts:52-53 | expired at the first millisecond of the `exp` second and not one millisecond earlier |
| JwtClient.ExpiryIsPermanent | frontend/src/utils/jwt.ts:52-53 | expired at one time means expired at every later time |
| JwtClient.RemainingMinutes | frontend/src/utils/jwt.ts:89-99 | never negative; zero without an expiry; otherwise the whole minutes left, so `60m <= seconds left < 60(m+1)` |
| JwtClient.ExpiredHasNoMinutes | frontend/src/utils/jwt.ts:89-99 | an expired token has zero minutes left |
| JwtClient.MinutesLeftMeansValid | frontend/src/utils/jwt.ts:89-99 | a token with a minute left is not expired |
| JwtClient.GetValidToken | frontend/src/utils/jwt.ts:68-84 | a token is returned exactly when one is stored, non-empty and unexpired; the entry is removed exactly when it is expired |
| JwtClient.StorageHoldsNoExpiredToken | frontend/src/utils/jwt.ts:76-79 | afterwards the entry holds nothing, the empty string, or an unexpired token |
| JwtClient.GetValidTokenIsIdempotent | frontend/src/utils/jwt.ts:68-84 | asking twice at the same moment gives the same answer and entry |
| JwtClient.NoTokenStaysNoToken | frontend/src/utils/jwt.ts:68-84 | once no valid token is returned, none is returned at any later time |
| ImageUpload.Verdict | frontend/src/components/common/ImageUpload.tsx:47-62 | accepted exactly with one of the five image types and at most 5 MB; an unsupported type is reported whatever the size |
| ImageUpload.ValidFiles | frontend/src/components/common/ImageUpload.tsx:47-62 | exactly the acceptable files, in order; all files when all pass, none when none pass |
| ImageUpload.Rejections | frontend/src/components/common/ImageUpload.tsx:51-58 | one notice per refused file, with its reason; together with the valid files they account for every file |
| ImageUpload.HandleFileSelect | frontend/src/components/common/ImageUpload.tsx:26-94 | each outcome holds exactly under its condition (nothing selected, over the cap, nothing valid, upload failed); the list grows by the uploaded URLs only on success |
| ImageUpload.UploadRespectsCap | frontend/src/components/common/ImageUpload.tsx:41-44 | with one URL per uploaded file the list never exceeds the cap |
| ImageUpload.CapCountsRejectedFiles | frontend/src/components/common/ImageUpload.tsx:41-44 | one good picture selected with ten unsupported ones is refused as too many |
| ImageUpload.RemoveImage | frontend/src/components/common/ImageUpload.tsx:96-106 | the list loses exactly position `index`; the main index becomes 0, moves down by one, or stays, as `index` is equal, below or above it |
| ImageUpload.RemovalKeepsMainPicture | frontend/src/components/common/ImageUpload.tsx:100-105 | removing another picture keeps the main index on the same URL; removing the main one makes the first remaining picture main |
| ImageUpload.RemovalDropsOne | frontend/src/components/common/ImageUpload.tsx:97 | the multiset of pictures loses exactly the one at `index` |
| SearchPage.PageWindow | frontend/src/app/search/page.tsx:440-442 | at most five buttons, numbered consecutively from `max(1, current - 2)`, and none beyond the last page |
| SearchPage.PagerOf | frontend/src/app/search/page.tsx:428-466 | hidden iff there is at most one page; previous iff current > 1, next iff current < total, then the window |
| SearchPage.PagerStaysInRange | frontend/src/app/search/page.tsx:428-466 | the current page has its own button, and every button leads to a page between 1 and the last |
| SearchPage.WindowIsCentred | frontend/src/app/search/page.tsx:440-442 | away from both ends the window is `current - 2 .. current + 2` |
| SearchPage.WindowShrinksAtTheEnd | frontend/src/app/search/page.tsx:440-442 | on the last page of five or more, only three buttons are drawn |
| SearchPage.TimeAgo | frontend/src/app/search/page.tsx:154-171 | each bucket holds exactly in its range, and its number is the elapsed whole minutes, hours or days |
| SearchPage.TimeAgoAgreesWithFormatDate | frontend/src/app/search/page.tsx:154-171 | within a week the label equals the shared `formatDate` label |
| SearchPage.UpdateURL | frontend/src/app/search/page.tsx:104-115 | at most seven parameters, one per field and the sort |
| SearchPage.UpdateURLHoldsTheForm | frontend/src/app/search/page.tsx:104-115 | each non-empty field can be read back under its key, and the key of an empty field is absent |
| SearchPage.FormFromParams | frontend/src/app/search/page.tsx:55-63 | the sort is never empty; a present `q` becomes the query; a present, non-empty `sort` becomes the sort |
| SearchPage.URLRestoresForm | frontend/src/app/search/page.tsx:55-115 | reopening the URL written for a form restores that form, given a sort is chosen |
| SearchPage.BlankFormHasNoParams | frontend/src/app/search/page.tsx:131-141 | the reset form writes no parameter at all |
| SearchPage.BuildQuery | frontend/src/app/search/page.tsx:70-83 | each empty field is absent and each filled one is sent as its text (the prices as their numbers); no status is sent; the sort value is split at `:`; the page is passed; 12 listings per page |
| SearchPage.ReloadRepeatsQuery | frontend/src/app/search/page.tsx:55-115 | reloading at the URL the page wrote sends the same listing query as before, given a sort is chosen |
| SearchPage.PriceSearchFails | frontend/src/app/search/page.tsx:76-77 | a search with a minimum or maximum price filled in gets an error from the listing endpoint (backend/src/products/products.service.ts:78-82) |
| SearchPage.SortValueIsSplit | frontend/src/app/search/page.tsx:70 | `column:order` reaches the listing endpoint as that column and direction |
| SearchPage.SortOptionsAreAccepted | frontend/src/app/search/page.tsx:11-17 | every drop-down choice names an ordering the listing endpoint accepts, namely the one it describes |
| SearchPage.CardImage | frontend/src/app/search/page.tsx:152 | never empty, and always one of the images or the placeholder; the main image when it exists and is non-empty; the placeholder when every image is empty |
| SearchPage.CardImageSurvivesRemoval | frontend/src/app/search/page.tsx:152 | removing a picture other than the main one leaves the card picture unchanged |
| ChatListPage.FilterRooms | frontend/src/app/chat/page.tsx:117-126 | exactly the rooms whose other user, listing title or last message contains the query ignoring case; all of them for an empty query |
| ChatListPage.LongerQueryNarrows | frontend/src/app/chat/page.tsx:117-126 | extending the query never adds a room |
| ChatListPage.Badge | frontend/src/app/chat/page.tsx:252-256 | hidden iff the count is at most 0; "99+" above 99; otherwise one or two digits reading back as the count |
| ChatListPage.LocalDelete | frontend/src/app/chat/page.tsx:108 | exactly the rooms with another id stay; the length drops by the occurrences of the id |
| ChatListPage.DeleteRemovesOne | frontend/src/app/chat/page.tsx:108 | with unique ids exactly one entry goes when the room is listed, none otherwise |
| ChatListPage.StatusLabel | frontend/src/app/chat/page.tsx:301-302 | "판매중" iff AVAILABLE, "예약중" iff RESERVED, "판매완료" for every other status |
| ChatListPage.DeletedListingReadsAsSold | frontend/src/app/chat/page.tsx:301-302 | a DELETED listing reads the same as a SOLD one, while available, reserved and sold read differently |

## Left out

- Toasts, Swagger decorators, `router.replace`, `window.scrollTo` and the loading flags are left out. They decide nothing.
- Logging is left out except where it decides a result: in `decodeJwt` the debug log turns `iat` and `exp` into dates inside the `try`, and the RangeError it throws for a time out of range becomes `null` (JwtClient.Logged).
- Database concurrency is left out: each request runs atomically against one store value.
  - Two concurrent `findOrCreateChatRoom` calls could each miss the other's room; the model is sequential.
- Prisma ids (cuid) and socket ids are counters in the store.
- `createdAt`/`updatedAt` come from a clock parameter.
- Newest-first orderings by `createdAt` are taken as the reverse of insertion order. This assumes the clock never runs backwards.
- Ties in an `orderBy` are broken by the stable sort, in id order. The database leaves such ties unspecified.
- The joined rows `findMany` returns (seller profile, `_count`, product images) are reduced to the ids and fields a contract mentions.
- Query-string typing: the global `ValidationPipe` has no `transform` option (backend/src/app.module.ts:36-40). The `@Type(() => Number)` conversions only feed the validators; the service receives the query text.
  - page and limit are numbers in the model. In the source JavaScript arithmetic and `Number(limit)` coerce them, so the skip and take agree.
  - The pagination block echoes page and limit as given, so a client sees the text `"2"` where the model has the number 2.
  - Price bounds reach the numeric `price` column as text, and the store refuses them. This is modelled: Products.FindAll refuses every price bound.
  - `Number(...)` of form text is a parameter, and a value that converts to NaN is not modelled.
- ChatApi.GetMessages and Favorites.GetFavorites: a query parameter is `None` when absent or empty and otherwise its number. Text that is not a whole number (`abc` giving NaN, `1.5`) is not modelled.
- Paging.SkipTakeAny: a negative `take` is taken to read backwards from the end of the ordering and keep the asked order, as Prisma's backwards pagination does.
- Products.FindAll: page, limit, minPrice and maxPrice are whole numbers. The DTO checks `@IsNumber` and `@Min`/`@Max` but not `@IsInt`, so a fractional value such as `page=1.5` passes validation in the source and yields a fractional skip.
- Products.Create: the price is a whole number. The DTO's `@IsNumber` also admits a fractional price.
- JwtClient.DecodeJwt: a non-numeric truthy `iat` or `exp` also makes the log throw and the result `null`. Claims are whole numbers here, so only the out-of-range case is modelled.
- ChatStore.KindFromWire: the four accepted names are the message types of the data model. The storage enum itself (the Prisma schema) is not part of this model.
- ChatStore.FindOrCreate: the user and listing rows are given as sets of existing ids. A failed insert (a foreign-key or missing-field error) is `StoreRejected`.
- Password hashing (bcrypt) and token signing/verification are parameters. Their cryptography is not modelled.
- JwtClient.DecodeJwt: `atob` and `JSON.parse` are one parameter. A throw is `None`, and payload field types are not checked.
- Accounts.UpdateRating: the rating is stored in tenths of a star as an integer. Floating-point rounding of `Math.round(x * 10) / 10` is not modelled.
- Accounts.ValidateJwtPayload: the `!user` branch is unreachable, because `findById` throws NotFound first.
  - A missing user is NotFound, not Unauthorized.
  - The same holds for `refreshToken`.
- Accounts.Update: the source does not check that a new user name is free, and the model does not refuse a clash on it. A clash on the address is refused as the store's unique index on `email` would refuse it. The Prisma schema itself is not part of this model.
- Accounts.Update: a fractional rating (the column holds tenths here) and a negative `ratingCount` in the body are not modelled. Any other undeclared or wrong-typed key is folded into one "stray key" flag that the store refuses.
- Accounts.Update and Accounts.Remove: `PATCH /users/:id` and `DELETE /users/:id` have only the sign-in guard and no owner check, although their documentation lists a 403 for someone else's account (backend/src/users/users.controller.ts:200-313). The model follows the code: neither operation takes a caller, so any signed-in user can rewrite or deactivate any account.
- Accounts.FindAll: `findMany` has no `orderBy`, so the database leaves the order open. Listing in id order is a choice of the model; only the set of accounts listed is promised by the source.
- Products.Create and Products.Update: the request body is not whitelisted, so undeclared keys reach the store. The model gives `sellerId`, `status`, `viewCount`, `likeCount` and `createdAt` their own fields. The body keys `id` and `updatedAt`, relation keys, and negative or fractional counters are not modelled; any other undeclared or wrong-typed key is one "stray key" flag that the store refuses.
- Products.FindPopular and Products.FindRecent: the limit is the raw query value passed through `Number`. Text that is not a number (NaN) is not modelled.
- ChatStore.FirstWithTriple: `findFirst` (backend/src/chat/chat.service.ts:11-16) has no `orderBy`. When several rooms match, as for a request without a seller or listing, returning the one with the lowest id is a choice of the model.
- ChatGateway.Connect is one atomic step. In the source the token check is synchronous and sets the user at once, but `handleConnection` then awaits the room list before joining the rooms (backend/src/chat/chat.gateway.ts:50-65). An event handled during that wait is not modelled. The handlers' "unauthenticated" error acknowledgement for a socket without a user (backend/src/chat/chat.gateway.ts:89-91, 133-135, 193-195) is not modelled either; such a socket is disconnected during the handshake.
- ChatGateway.Disconnect removes presence unconditionally, as the code does: closing an older socket also evicts a newer connection of the same user.
- ChatStore.DeleteRoom is a hard delete, as the code does. The comment above it mentions a soft delete.
- ChatApi.SelfChatIsAllowed: a room with the caller on both sides is allowed, because nothing in the code refuses it.
- ChatStore.HundredTwentyMessagesPageTwo: page 2 of 120 messages holds messages 21–70, as the code computes. It does not hold 51–100.
- Products.Update: the exact Korean message for the SOLD rule is not modelled, only the BadRequest.
- Products.SortColumn: only the four documented sort columns are modelled.
  - Any other column is refused like an unknown one.
  - In the source, Prisma would accept any other real column name.
- Text.Lower: lower-casing is ASCII only. Full Unicode case mapping is not modelled.
- Strings are sequences of Unicode scalar values rather than UTF-16 code units. Lengths of text outside the basic plane therefore differ.
- SharedUtils.Lookup: an object-key lookup is a search in parallel key and name lists. Prototype keys such as `constructor` are not modelled.
- SharedUtils.FormatDate and SearchPage.TimeAgo: `toLocaleDateString` past the last bucket is the constant outcome `Date`. Locale formatting is not modelled.
- `formatPrice` (shared utils) is left out. It is pure locale formatting through `Intl.NumberFormat`.
- The chat list's `formatTime` (`frontend/src/app/chat/page.tsx:83-100`) is the same computation as the search page's `getTimeAgo`, so it is modelled by SearchPage.TimeAgo. The two differ only in the month style of the locale date.
- The chat list's image fallback (`frontend/src/app/chat/page.tsx:285`) is SearchPage.CardImage with another placeholder.
- ImageUpload.HandleFileSelect:
  - the upload request is a parameter;
  - its 401 and other failure paths are collapsed into `UploadFailed`, since both leave the list unchanged.
- SearchPage.URLRestoresForm needs a non-empty sort value. The drop-down offers no empty choice, and an empty sort would be read back as the default.
- SearchPage.WindowShrinksAtTheEnd records that on the last page of five or more only three page buttons are drawn. That is how the window is computed.
- The socket gateway applies no guard to its later events. They rely only on the identity set at the handshake, which ChatGateway.Connect models.
- CORS and the HTTP upload controller are not part of this model.

=== FILE: accounts.dfy ===
/** Accounts: registration with unique e-mail and user name, the sign-in check and its
    order of refusals, token payloads, the profile projections that never carry the
    password hash, profile update, soft deactivation and the running seller rating.
    Password hashing, token signing and the e-mail format check are functions the model
    receives as parameters. */
module Accounts {
  import opened Common
  import Tables
  import Paging

  datatype User = User(
    id: UserId,
    email: string,
    username: string,
    passwordHash: string,
    profileImage: Option<string>,
    location: Option<string>,
    phone: Option<string>,
    ratingTenths: int,
    ratingCount: nat,
    isVerified: bool,
    isActive: bool,
    createdAt: int)

  datatype Directory = Directory(users: map<UserId, User>, nextId: UserId)

  /** Rows sit under their own id, below the counter, and e-mail is a unique index. */
  ghost predicate Valid(dir: Directory) {
    && (forall id :: id in dir.users ==> id < dir.nextId && dir.users[id].id == id)
    && (forall a, b :: a in dir.users && b in dir.users && dir.users[a].email == dir.users[b].email ==> a == b)
  }

  predicate EmailTaken(dir: Directory, email: string) {
    exists id :: id in dir.users && dir.users[id].email == email
  }

  predicate UsernameTaken(dir: Directory, username: string) {
    exists id :: id in dir.users && dir.users[id].username == username
  }

  /** `findByEmail`: the one account with that address, active or not. */
  function UserByEmail(dir: Directory, email: string): (u: Option<User>)
    requires Valid(dir)
    ensures u.Some? <==> EmailTaken(dir, email)
    ensures u.Some? ==> u.value.id in dir.users && dir.users[u.value.id] == u.value && u.value.email == email
  {
    var ks := Tables.KeysWhere(dir.users, (v: User) => v.email == email, dir.nextId);
    if |ks| == 0 then None else Some(dir.users[ks[0]])
  }

  // ---------------------------------------------------------------------------------
  // Projections

  /** The token payload. */
  datatype Payload = Payload(sub: UserId, email: string, username: string)

  /** The user block of the register and login responses. */
  datatype Profile = Profile(
    id: UserId, email: string, username: string, profileImage: Option<string>,
    location: Option<string>, ratingTenths: int, createdAt: int)

  /** The columns `findById` and `findAll` select. */
  datatype UserView = UserView(
    id: UserId, email: string, username: string, profileImage: Option<string>,
    location: Option<string>, ratingTenths: int, ratingCount: nat, isVerified: bool,
    isActive: bool, createdAt: int)

  datatype AuthResponse = AuthResponse(user: Profile, accessToken: string)

  function PayloadOf(u: User): Payload {
    Payload(u.id, u.email, u.username)
  }

  function ProfileOf(u: User): Profile {
    Profile(u.id, u.email, u.username, u.profileImage, u.location, u.ratingTenths, u.createdAt)
  }

  function ViewOf(u: User): UserView {
    UserView(u.id, u.email, u.username, u.profileImage, u.location, u.ratingTenths, u.ratingCount,
             u.isVerified, u.isActive, u.createdAt)
  }

  /** No projection depends on the password hash: two accounts differing only there
      look the same in every response. */
  lemma ProjectionsHideThePassword(u: User, otherHash: string)
    ensures ProfileOf(u.(passwordHash := otherHash)) == ProfileOf(u)
    ensures ViewOf(u.(passwordHash := otherHash)) == ViewOf(u)
    ensures PayloadOf(u.(passwordHash := otherHash)) == PayloadOf(u)
    ensures ProfileOf(u).id == u.id && ViewOf(u).id == u.id && PayloadOf(u).sub == u.id
  {
  }

  // ---------------------------------------------------------------------------------
  // Registration and sign-in

  datatype RegisterBody = RegisterBody(email: string, username: string, password: string, location: Option<string>)

  /** The registration body's constraints; `isEmail` is the validator's address check. */
  predicate ValidRegisterBody(b: RegisterBody, isEmail: string -> bool) {
    && isEmail(b.email)
    && 2 <= |b.username| <= 20
    && |b.password| >= 8
    && (b.location.Some? ==> |b.location.value| <= 100)
  }

  /** `register`: the body is validated, then the e-mail and only then the user name
      must be free; the new active account stores the hash of the password, and the
      caller gets its profile and a token for its payload. */
  function Register(dir: Directory, b: RegisterBody, isEmail: string -> bool, hash: string -> string,
                    sign: Payload -> string, now: int): (r: Result<(Directory, AuthResponse)>)
    requires Valid(dir)
    ensures !ValidRegisterBody(b, isEmail) ==> r == Err(BadRequest)
    ensures ValidRegisterBody(b, isEmail) && EmailTaken(dir, b.email) ==> r == Err(Conflict(EmailInUse))
    ensures ValidRegisterBody(b, isEmail) && !EmailTaken(dir, b.email) && UsernameTaken(dir, b.username) ==>
              r == Err(Conflict(UsernameInUse))
    ensures r.Ok? <==> ValidRegisterBody(b, isEmail) && !EmailTaken(dir, b.email) && !UsernameTaken(dir, b.username)
    ensures r.Ok? ==> dir.nextId !in dir.users && dir.nextId in r.value.0.users
    ensures r.Ok? ==>
              var (dir', resp) := r.value;
              var u := dir'.users[dir.nextId];
              && Valid(dir')
              && dir'.users == dir.users[dir.nextId := u]
              && u.email == b.email && u.username == b.username && u.location == b.location
              && u.passwordHash == hash(b.password)
              && u.isActive && !u.isVerified && u.ratingCount == 0
              && resp.user == ProfileOf(u)
              && resp.accessToken == sign(Payload(dir.nextId, b.email, b.username))
  {
    if !ValidRegisterBody(b, isEmail) then Err(BadRequest)
    else if UserByEmail(dir, b.email).Some? then Err(Conflict(EmailInUse))
    else if UsernameTaken(dir, b.username) then Err(Conflict(UsernameInUse))
    else
      var u := User(dir.nextId, b.email, b.username, hash(b.password), None, b.location, None, 0, 0, false, true, now);
      var dir' := Directory(dir.users[u.id := u], dir.nextId + 1);
      Ok((dir', AuthResponse(ProfileOf(u), sign(PayloadOf(u)))))
  }

  datatype LoginBody = LoginBody(email: string, password: string)

  predicate ValidLoginBody(b: LoginBody, isEmail: string -> bool) {
    isEmail(b.email) && |b.password| >= 1
  }

  /** `validateUser`: no account for the address and a wrong password both give
      nothing; an inactive account is refused, but only once its password matched. */
  function ValidateUser(dir: Directory, email: string, password: string, hash: string -> string): (r: Result<Option<User>>)
    requires Valid(dir)
    ensures r.Ok? && r.value.None? <==> !EmailTaken(dir, email) || UserByEmail(dir, email).value.passwordHash != hash(password)
    ensures r.Err? <==> && EmailTaken(dir, email) && UserByEmail(dir, email).value.passwordHash == hash(password)
                        && !UserByEmail(dir, email).value.isActive
    ensures r.Err? ==> r.error == BadRequest
    ensures r.Ok? && r.value.Some? ==>
              && r.value.value.id in dir.users && dir.users[r.value.value.id] == r.value.value
              && r.value.value.email == email && r.value.value.passwordHash == hash(password)
              && r.value.value.isActive
  {
    match UserByEmail(dir, email)
    case None => Ok(None)
    case Some(u) =>
      if u.passwordHash != hash(password) then Ok(None)
      else if !u.isActive then Err(BadRequest)
      else Ok(Some(u))
  }

  /** `login`: Unauthorized exactly when `validateUser` gives nothing. */
  function Login(dir: Directory, b: LoginBody, isEmail: string -> bool, hash: string -> string,
                 sign: Payload -> string): (r: Result<AuthResponse>)
    requires Valid(dir)
    ensures !ValidLoginBody(b, isEmail) ==> r == Err(BadRequest)
    ensures ValidLoginBody(b, isEmail) ==>
              var v := ValidateUser(dir, b.email, b.password, hash);
              && (r == Err(Unauthorized) <==> v == Ok(None))
              && (v.Err? ==> r == Err(v.error))
              && (r.Ok? <==> v.Ok? && v.value.Some?)
              && (r.Ok? ==> r.value == AuthResponse(ProfileOf(v.value.value), sign(PayloadOf(v.value.value))))
  {
    if !ValidLoginBody(b, isEmail) then Err(BadRequest)
    else
      var found :- ValidateUser(dir, b.email, b.password, hash);
      match found
      case None => Err(Unauthorized)
      case Some(u) => Ok(AuthResponse(ProfileOf(u), sign(PayloadOf(u))))
  }

  /** Whoever registers can sign in straight away with the same address and password,
      and gets the same profile and token back. */
  lemma RegisterThenLogin(dir: Directory, b: RegisterBody, isEmail: string -> bool, hash: string -> string,
                          sign: Payload -> string, now: int)
    requires Valid(dir)
    requires Register(dir, b, isEmail, hash, sign, now).Ok?
    ensures var (dir', resp) := Register(dir, b, isEmail, hash, sign, now).value;
            Login(dir', LoginBody(b.email, b.password), isEmail, hash, sign) == Ok(resp)
  {
    var (dir', resp) := Register(dir, b, isEmail, hash, sign, now).value;
    var u := dir'.users[dir.nextId];
    assert UserByEmail(dir', b.email) == Some(u) by {
      var found := UserByEmail(dir', b.email);
      assert EmailTaken(dir', b.email) by {
        assert dir'.users[dir.nextId].email == b.email;
      }
      assert found.value.id == dir.nextId;
    }
  }

  /** `AuthService.login` checks the password before the active flag: a wrong password on an inactive account
      is Unauthorized, not the inactive-account BadRequest. */
  lemma WrongPasswordHidesInactivity(dir: Directory, b: LoginBody, isEmail: string -> bool, hash: string -> string,
                                     sign: Payload -> string, id: UserId)
    requires Valid(dir) && ValidLoginBody(b, isEmail)
    requires id in dir.users && dir.users[id].email == b.email && !dir.users[id].isActive
    ensures dir.users[id].passwordHash != hash(b.password) ==> Login(dir, b, isEmail, hash, sign) == Err(Unauthorized)
    ensures dir.users[id].passwordHash == hash(b.password) ==> Login(dir, b, isEmail, hash, sign) == Err(BadRequest)
  {
    assert UserByEmail(dir, b.email).value.id == id;
  }

  // ---------------------------------------------------------------------------------
  // Token checks

  /** `validateJwtPayload`: the lookup by id throws NotFound for an unknown subject;
      an inactive account is Unauthorized. */
  function ValidateJwtPayload(dir: Directory, p: Payload): (r: Result<UserView>)
    ensures r.Ok? <==> p.sub in dir.users && dir.users[p.sub].isActive
    ensures r.Err? ==> r.error == (if p.sub in dir.users then Unauthorized else NotFound)
    ensures r.Ok? ==> r.value == ViewOf(dir.users[p.sub]) && r.value.isActive
  {
    var v :- FindById(dir, p.sub);
    if !v.isActive then Err(Unauthorized) else Ok(v)
  }

  /** `refreshToken`: a fresh token for an active account's payload. */
  function RefreshToken(dir: Directory, userId: UserId, sign: Payload -> string): (r: Result<string>)
    requires Valid(dir)
    ensures r.Ok? <==> userId in dir.users && dir.users[userId].isActive
    ensures r.Err? ==> r.error == (if userId in dir.users then Unauthorized else NotFound)
    ensures r.Ok? ==> r.value == sign(Payload(userId, dir.users[userId].email, dir.users[userId].username))
  {
    var v :- FindById(dir, userId);
    if !v.isActive then Err(Unauthorized) else Ok(sign(Payload(v.id, v.email, v.username)))
  }

  // ---------------------------------------------------------------------------------
  // Users service

  /** `findById`: NotFound, or the selected columns. */
  function FindById(dir: Directory, id: UserId): (r: Result<UserView>)
    ensures r.Ok? <==> id in dir.users
    ensures r.Err? ==> r.error == NotFound
    ensures r.Ok? ==> r.value == ViewOf(dir.users[id])
  {
    if id in dir.users then Ok(ViewOf(dir.users[id])) else Err(NotFound)
  }

  /** The views of the accounts under `ks`, in the same order. */
  function ViewsAt(dir: Directory, ks: seq<UserId>): (vs: seq<UserView>)
    requires forall i :: 0 <= i < |ks| ==> ks[i] in dir.users
    ensures |vs| == |ks|
    ensures forall i :: 0 <= i < |ks| ==> vs[i] == ViewOf(dir.users[ks[i]])
  {
    seq(|ks|, i requires 0 <= i < |ks| => ViewOf(dir.users[ks[i]]))
  }

  /** `findAll`: every account, active or not, once each, in id order. */
  function FindAll(dir: Directory): (vs: seq<UserView>)
    requires Valid(dir)
    ensures forall i :: 0 <= i < |vs| ==> vs[i].id in dir.users && vs[i] == ViewOf(dir.users[vs[i].id])
    ensures forall id :: id in dir.users ==> ViewOf(dir.users[id]) in vs
    ensures forall i, j :: 0 <= i < j < |vs| ==> vs[i].id < vs[j].id
  {
    var ks := Tables.KeysWhere(dir.users, (u: User) => true, dir.nextId);
    var vs := ViewsAt(dir, ks);
    FindAllIsComplete(dir, ks, vs);
    vs
  }

  lemma FindAllIsComplete(dir: Directory, ks: seq<UserId>, vs: seq<UserView>)
    requires Valid(dir)
    requires ks == Tables.KeysWhere(dir.users, (u: User) => true, dir.nextId)
    requires vs == ViewsAt(dir, ks)
    ensures forall i :: 0 <= i < |vs| ==> vs[i].id in dir.users && vs[i] == ViewOf(dir.users[vs[i].id])
    ensures forall id :: id in dir.users ==> ViewOf(dir.users[id]) in vs
    ensures forall i, j :: 0 <= i < j < |vs| ==> vs[i].id < vs[j].id
  {
    forall id | id in dir.users ensures ViewOf(dir.users[id]) in vs {
      assert id < dir.nextId;
      var i :| 0 <= i < |ks| && ks[i] == id;
      assert vs[i] == ViewOf(dir.users[id]);
    }
  }

  /** The profile update body. The validation pipe has no whitelist, so keys outside
      the DTO reach the update: `email` to `createdAt` are the account columns such a
      key can name (`password` is the column that holds the hash, written as given),
      and `stray` marks a key that names no column or a value of the wrong type. */
  datatype UpdateUserBody = UpdateUserBody(
    username: Option<string>,
    location: Option<string>,
    phone: Option<string>,
    profileImage: Option<string>,
    isVerified: Option<bool>,
    isActive: Option<bool>,
    email: Option<string>,
    password: Option<string>,
    ratingTenths: Option<int>,
    ratingCount: Option<nat>,
    createdAt: Option<int>,
    stray: bool)

  predicate ValidUpdateUserBody(b: UpdateUserBody) {
    && (b.username.Some? ==> 2 <= |b.username.value| <= 20)
    && (b.location.Some? ==> |b.location.value| <= 100)
    && (b.phone.Some? ==> |b.phone.value| <= 20)
  }

  /** The columns `update` selects: those of `findById` plus the phone number. */
  datatype UpdatedUser = UpdatedUser(view: UserView, phone: Option<string>)

  /** The store refuses the update for a stray key, or for an address that another
      account already has (the unique index on `email`). */
  predicate UpdateRefused(dir: Directory, id: UserId, b: UpdateUserBody) {
    || b.stray
    || (b.email.Some? && exists other :: other in dir.users && other != id && dir.users[other].email == b.email.value)
  }

  /** `PATCH /users/:id`: body validation, then the lookup (NotFound writes nothing),
      then the store's refusal of undeclared keys, then the present fields are written.
      The user name is not checked for clashes. */
  function Update(dir: Directory, id: UserId, b: UpdateUserBody): (r: Result<(Directory, UpdatedUser)>)
    requires Valid(dir)
    ensures !ValidUpdateUserBody(b) ==> r == Err(BadRequest)
    ensures r.Ok? <==> ValidUpdateUserBody(b) && id in dir.users && !UpdateRefused(dir, id, b)
    ensures r.Err? && ValidUpdateUserBody(b) ==> r.error == (if id in dir.users then StoreRejected else NotFound)
    ensures r.Ok? ==> r.value.0.users.Keys == dir.users.Keys
    ensures r.Ok? ==>
              var (dir', out) := r.value;
              var old_ := dir.users[id];
              var u := dir'.users[id];
              && Valid(dir')
              && dir'.nextId == dir.nextId
              && (forall other :: other in dir.users && other != id ==> dir'.users[other] == dir.users[other])
              && u.id == id
              && u.email == b.email.GetOr(old_.email)
              && u.passwordHash == b.password.GetOr(old_.passwordHash)
              && u.ratingTenths == b.ratingTenths.GetOr(old_.ratingTenths)
              && u.ratingCount == b.ratingCount.GetOr(old_.ratingCount)
              && u.createdAt == b.createdAt.GetOr(old_.createdAt)
              && u.username == b.username.GetOr(old_.username)
              && u.isActive == b.isActive.GetOr(old_.isActive)
              && u.isVerified == b.isVerified.GetOr(old_.isVerified)
              && u.location == (if b.location.Some? then b.location else old_.location)
              && u.phone == (if b.phone.Some? then b.phone else old_.phone)
              && u.profileImage == (if b.profileImage.Some? then b.profileImage else old_.profileImage)
              && out == UpdatedUser(ViewOf(u), u.phone)
  {
    if !ValidUpdateUserBody(b) then Err(BadRequest)
    else
      var _ :- FindById(dir, id);
      if UpdateRefused(dir, id, b) then Err(StoreRejected)
      else
        var u := dir.users[id];
        var u' := u.(username := b.username.GetOr(u.username),
                     location := if b.location.Some? then b.location else u.location,
                     phone := if b.phone.Some? then b.phone else u.phone,
                     profileImage := if b.profileImage.Some? then b.profileImage else u.profileImage,
                     isVerified := b.isVerified.GetOr(u.isVerified),
                     isActive := b.isActive.GetOr(u.isActive),
                     email := b.email.GetOr(u.email),
                     passwordHash := b.password.GetOr(u.passwordHash),
                     ratingTenths := b.ratingTenths.GetOr(u.ratingTenths),
                     ratingCount := b.ratingCount.GetOr(u.ratingCount),
                     createdAt := b.createdAt.GetOr(u.createdAt));
        var dir' := dir.(users := dir.users[id := u']);
        RewriteKeepsValid(dir, id, u');
        Ok((dir', UpdatedUser(ViewOf(u'), u'.phone)))
  }

  /** Rewriting a stored account without touching its id, and with an address no other
      account has, keeps the directory well formed. */
  lemma RewriteKeepsValid(dir: Directory, id: UserId, u: User)
    requires Valid(dir) && id in dir.users
    requires u.id == id
    requires forall other :: other in dir.users && other != id ==> dir.users[other].email != u.email
    ensures Valid(dir.(users := dir.users[id := u]))
  {
  }

  /** A `password` key in the profile body is stored as it is, not hashed: afterwards a
      password signs in only if its hash is that very text, so the account's old
      password no longer works unless it hashes to it. */
  lemma PasswordInBodyIsStoredRaw(dir: Directory, id: UserId, b: UpdateUserBody, tried: string, hash: string -> string)
    requires Valid(dir) && Update(dir, id, b).Ok?
    requires b.password.Some?
    ensures var dir' := Update(dir, id, b).value.0;
            && dir'.users[id].passwordHash == b.password.value
            && (ValidateUser(dir', dir'.users[id].email, tried, hash).Ok? &&
                ValidateUser(dir', dir'.users[id].email, tried, hash).value.Some?
                ==> hash(tried) == b.password.value)
  {
    var dir' := Update(dir, id, b).value.0;
    assert UserByEmail(dir', dir'.users[id].email).value.id == id by {
      assert EmailTaken(dir', dir'.users[id].email);
    }
  }

  /** Undeclared keys rewrite the seller rating: any rating and count can be set. */
  lemma BodyRewritesRating(dir: Directory, id: UserId, b: UpdateUserBody, tenths: int, count: nat)
    requires Valid(dir) && id in dir.users
    requires ValidUpdateUserBody(b) && !b.stray && b.email.None?
    ensures var b' := b.(ratingTenths := Some(tenths), ratingCount := Some(count));
            && Update(dir, id, b').Ok?
            && Update(dir, id, b').value.0.users[id].ratingTenths == tenths
            && Update(dir, id, b').value.0.users[id].ratingCount == count
  {
  }

  /** The columns `remove` selects. */
  datatype RemovedUser = RemovedUser(id: UserId, email: string, username: string, isActive: bool)

  /** `DELETE /users/:id`: a soft delete that only clears `isActive`. */
  function Remove(dir: Directory, id: UserId): (r: Result<(Directory, RemovedUser)>)
    requires Valid(dir)
    ensures r.Ok? <==> id in dir.users
    ensures r.Err? ==> r.error == NotFound
    ensures r.Ok? ==>
              && Valid(r.value.0)
              && r.value.0.users == dir.users[id := dir.users[id].(isActive := false)]
              && r.value.0.nextId == dir.nextId
              && r.value.1 == RemovedUser(id, dir.users[id].email, dir.users[id].username, false)
  {
    var _ :- FindById(dir, id);
    var u := dir.users[id];
    Ok((dir.(users := dir.users[id := u.(isActive := false)]), RemovedUser(id, u.email, u.username, false)))
  }

  /** A deactivated account keeps its row: its address and name stay taken, its token
      no longer validates or refreshes, and signing in with the right password is
      refused as inactive. */
  lemma DeactivatedAccountIsLockedOut(dir: Directory, id: UserId, b: LoginBody, isEmail: string -> bool,
                                      hash: string -> string, sign: Payload -> string)
    requires Valid(dir) && Remove(dir, id).Ok?
    requires ValidLoginBody(b, isEmail) && b.email == dir.users[id].email && hash(b.password) == dir.users[id].passwordHash
    ensures var dir' := Remove(dir, id).value.0;
            && EmailTaken(dir', dir.users[id].email) && UsernameTaken(dir', dir.users[id].username)
            && ValidateJwtPayload(dir', PayloadOf(dir.users[id])) == Err(Unauthorized)
            && RefreshToken(dir', id, sign) == Err(Unauthorized)
            && Login(dir', b, isEmail, hash, sign) == Err(BadRequest)
            && FindById(dir', id).Ok?
  {
    var dir' := Remove(dir, id).value.0;
    assert dir'.users[id].email == dir.users[id].email;
    assert dir'.users[id].username == dir.users[id].username;
    assert UserByEmail(dir', b.email).value.id == id;
  }

  // ---------------------------------------------------------------------------------
  // Rating

  /** `Math.round(x)` for `x = n / d`: the floor of `x + 1/2`. */
  function RoundHalfUp(n: int, d: int): (q: int)
    requires d > 0
    ensures 2 * d * q <= 2 * n + d < 2 * d * (q + 1)
  {
    var q := (2 * n + d) / (2 * d);
    assert 2 * n + d == 2 * d * q + (2 * n + d) % (2 * d);
    q
  }

  lemma RoundHalfUpBounds(n: int, d: int, lo: int, hi: int)
    requires d > 0 && lo * d <= n <= hi * d
    ensures lo <= RoundHalfUp(n, d) <= hi
  {
    var q := RoundHalfUp(n, d);
    assert 2 * d * q < 2 * d * (hi + 1);
    CancelFactor(q, hi + 1, 2 * d);
    assert 2 * d * lo < 2 * d * (q + 1);
    CancelFactor(lo, q + 1, 2 * d);
  }

  /** A positive factor can be cancelled from a strict inequality. */
  lemma CancelFactor(x: int, y: int, c: int)
    requires c > 0 && c * x < c * y
    ensures x < y
  {
    assert c * (y - x) > 0;
  }

  /** `updateRating`: one more rating, and the stored average (in tenths of a star)
      becomes the new average rounded half up to one decimal. */
  function UpdateRating(dir: Directory, id: UserId, stars: int): (r: Result<Directory>)
    requires Valid(dir)
    ensures r.Ok? <==> id in dir.users
    ensures r.Err? ==> r.error == NotFound
    ensures r.Ok? ==> id in r.value.users
    ensures r.Ok? ==>
              var u := dir.users[id];
              var u' := r.value.users[id];
              && Valid(r.value)
              && r.value.users == dir.users[id := u']
              && u' == u.(ratingTenths := u'.ratingTenths, ratingCount := u'.ratingCount)
              && u'.ratingCount == u.ratingCount + 1
              && u'.ratingTenths == RoundHalfUp(u.ratingTenths * u.ratingCount + 10 * stars, u.ratingCount + 1)
  {
    var _ :- FindById(dir, id);
    var u := dir.users[id];
    var d := u.ratingCount + 1;
    var n := u.ratingTenths * u.ratingCount + 10 * stars;
    var t := RoundHalfUp(n, d);
    Ok(dir.(users := dir.users[id := u.(ratingTenths := t, ratingCount := d)]))
  }

  /** Averaging keeps the rating on the five-star scale when both the stored average
      and the new rating are on it. */
  lemma RatingStaysOnScale(dir: Directory, id: UserId, stars: int)
    requires Valid(dir) && id in dir.users
    requires 0 <= dir.users[id].ratingTenths <= 50 && 0 <= stars <= 5
    ensures 0 <= UpdateRating(dir, id, stars).value.users[id].ratingTenths <= 50
  {
    var u := dir.users[id];
    var d := u.ratingCount + 1;
    var n := u.ratingTenths * u.ratingCount + 10 * stars;
    Paging.MulMonotone(0, u.ratingTenths, u.ratingCount);
    Paging.MulMonotone(u.ratingTenths, 50, u.ratingCount);
    RoundHalfUpBounds(n, d, 0, 50);
  }
}

=== FILE: chat_api.dfy ===
/** The REST face of the chat service: the caller comes from the bearer token, query
    strings fall back to defaults only when absent or empty (the validation pipe does
    not convert them, so the text "0" is kept and becomes the number 0), and the message
    type falls back to TEXT. No body here goes through a validated DTO. */
module ChatApi {
  import opened Common
  import ChatStore
  import Paging

  /** `POST /chat/rooms`: the caller is always the buyer; the seller and product come
      from the body unchecked, so either may be missing or name no row. */
  function CreateRoom(st: ChatStore.Store, known: ChatStore.Referents, caller: UserId,
                      sellerId: Option<UserId>, productId: Option<ProductId>, now: int)
    : (r: Result<(ChatStore.Store, ChatStore.Room)>)
    requires ChatStore.Valid(st)
    ensures ChatStore.MatchExists(st, sellerId, caller, productId) ==> r.Ok? && r.value.0 == st
    ensures !ChatStore.MatchExists(st, sellerId, caller, productId) ==>
              (r.Ok? <==> ChatStore.Insertable(known, sellerId, caller, productId))
    ensures r.Err? ==> r.error == StoreRejected
    ensures r.Ok? ==>
              var (st', room) := r.value;
              && ChatStore.Valid(st')
              && room.buyerId == caller
              && (sellerId.Some? ==> room.sellerId == sellerId.value)
              && (productId.Some? ==> room.productId == productId.value)
              && room.id in st'.rooms && st'.rooms[room.id] == room
  {
    ChatStore.FindOrCreate(st, known, sellerId, caller, productId, now)
  }

  /** Nothing stops a seller from opening a room with themself: the room has the caller
      on both sides and they pass the participant check. */
  lemma SelfChatIsAllowed(st: ChatStore.Store, known: ChatStore.Referents, caller: UserId, productId: ProductId, now: int)
    requires ChatStore.Valid(st)
    requires caller in known.users && productId in known.products
    ensures var r := CreateRoom(st, known, caller, Some(caller), Some(productId), now);
            && r.Ok?
            && r.value.1.sellerId == caller && r.value.1.buyerId == caller
            && ChatStore.Authorize(r.value.0, r.value.1.id, caller) == Ok(r.value.1)
  {
  }

  /** `GET /chat/rooms/:id/messages`. A query parameter that is absent or empty is
      `None` and takes the default, page 1 and 50 per page; any other text reaches the
      service as its number, zero included. The participant check comes first. */
  function GetMessages(st: ChatStore.Store, roomId: RoomId, caller: UserId, page: Option<int>, limit: Option<int>)
    : (r: Result<ChatStore.MessagePage>)
    ensures ChatStore.Authorize(st, roomId, caller).Err? ==> r == Err(ChatStore.Authorize(st, roomId, caller).error)
    ensures ChatStore.Authorize(st, roomId, caller).Ok? ==>
              var p := page.GetOr(1);
              var l := limit.GetOr(50);
              && (r.Ok? <==> (p - 1) * l >= 0)
              && (r.Err? ==> r.error == StoreRejected)
              && (r.Ok? ==> r.value.pagination.page == p && r.value.pagination.limit == l
                            && |r.value.data| <= if l >= 0 then l else -l)
  {
    ChatStore.GetMessages(st, roomId, caller, page.GetOr(1), limit.GetOr(50))
  }

  /** Without query parameters the newest 50 messages come back, oldest first. */
  lemma DefaultPageIsNewestFifty(st: ChatStore.Store, roomId: RoomId, caller: UserId)
    requires ChatStore.Authorize(st, roomId, caller).Ok?
    ensures var log := st.rooms[roomId].messages;
            var r := GetMessages(st, roomId, caller, None, None);
            && r.Ok? && r.value.data == log[Max(0, |log| - 50)..]
            && r.value.pagination.totalPages == Paging.Whole(Paging.CeilDiv(|log|, 50))
  {
  }

  /** `?page=0` is not a default: the skip of minus one page is refused by the query. */
  lemma ZeroPageIsRefused(st: ChatStore.Store, roomId: RoomId, caller: UserId, limit: Option<int>)
    requires ChatStore.Authorize(st, roomId, caller).Ok?
    requires limit.GetOr(50) > 0
    ensures GetMessages(st, roomId, caller, Some(0), limit) == Err(StoreRejected)
  {
    var l := limit.GetOr(50);
    assert (Some(0).GetOr(1) - 1) * l == -l;
  }

  /** `?limit=0` is not a default either: no rows come back, and the page count is
      `Infinity` for a non-empty room and `NaN` for an empty one. */
  lemma ZeroLimitGivesNoRows(st: ChatStore.Store, roomId: RoomId, caller: UserId, page: Option<int>)
    requires ChatStore.Authorize(st, roomId, caller).Ok?
    ensures var log := st.rooms[roomId].messages;
            var r := GetMessages(st, roomId, caller, page, Some(0));
            && r.Ok? && r.value.data == []
            && r.value.pagination.totalPages == (if |log| == 0 then Paging.NaN else Paging.Infinity)
            && (r.value.pagination.hasNext <==> |log| > 0)
  {
  }

  /** A negative limit on page 1 reads the oldest messages instead of the newest. */
  lemma NegativeLimitReadsOldest(st: ChatStore.Store, roomId: RoomId, caller: UserId, k: int)
    requires ChatStore.Authorize(st, roomId, caller).Ok?
    requires k > 0
    ensures var log := st.rooms[roomId].messages;
            var r := GetMessages(st, roomId, caller, None, Some(-k));
            && r.Ok? && r.value.data == log[..Min(k, |log|)]
            && !r.value.pagination.hasNext
  {
    var log := st.rooms[roomId].messages;
    var m := Paging.Meta(1, -k, |log|);
    assert m.totalPages.n <= 0;
  }

  /** The wire type with the controller's fallback: an absent or empty type is TEXT. */
  function WireKind(kind: string): (k: string)
    ensures kind == "" ==> k == "TEXT"
    ensures kind != "" ==> k == kind
  {
    if kind == "" then "TEXT" else kind
  }

  /** `POST /chat/rooms/:id/messages`. The body is not validated: a missing `content`
      is `None` and reaches the insert, which refuses it. */
  function SendMessage(st: ChatStore.Store, roomId: RoomId, caller: UserId, content: Option<string>, kind: string, now: int)
    : (r: Result<(ChatStore.Store, ChatStore.Message)>)
    ensures r.Ok? <==> ChatStore.Authorize(st, roomId, caller).Ok?
                       && kind in {"", "TEXT", "IMAGE", "FILE", "SYSTEM"} && content.Some?
    ensures r.Err? && ChatStore.Authorize(st, roomId, caller).Ok? ==> r.error == StoreRejected
    ensures r.Ok? && kind == "" ==> r.value.1.kind == ChatStore.Text
    ensures r.Ok? ==> r.value.1.senderId == caller && Some(r.value.1.content) == content && !r.value.1.isRead
  {
    ChatStore.SendMessage(st, roomId, caller, content, WireKind(kind), now)
  }

  /** A participant can store a SYSTEM message through the endpoint, and it is
      attributed to them like any other. */
  lemma SystemMessageIsAttributedToSender(st: ChatStore.Store, roomId: RoomId, caller: UserId, content: Option<string>, now: int)
    requires ChatStore.Authorize(st, roomId, caller).Ok? && content.Some?
    ensures var r := SendMessage(st, roomId, caller, content, "SYSTEM", now);
            && r.Ok? && r.value.1.kind == ChatStore.System && r.value.1.senderId == caller
  {
  }

  /** A participant who leaves out `content` gets the insert's refusal and nothing is
      stored, whatever the type. */
  lemma MissingContentIsRefused(st: ChatStore.Store, roomId: RoomId, caller: UserId, kind: string, now: int)
    requires ChatStore.Authorize(st, roomId, caller).Ok?
    ensures SendMessage(st, roomId, caller, None, kind, now) == Err(StoreRejected)
  {
  }

  datatype Notice = ReadNotice | DeletedNotice

  /** `POST /chat/rooms/:id/read`: the acknowledgement only follows a successful update. */
  function MarkRead(st: ChatStore.Store, roomId: RoomId, caller: UserId): (r: Result<(ChatStore.Store, Notice)>)
    ensures r.Ok? <==> ChatStore.MarkRead(st, roomId, caller).Ok?
    ensures r.Ok? ==> r.value == (ChatStore.MarkRead(st, roomId, caller).value, ReadNotice)
    ensures r.Err? ==> r.error == ChatStore.Authorize(st, roomId, caller).error
  {
    var st' :- ChatStore.MarkRead(st, roomId, caller);
    Ok((st', ReadNotice))
  }

  /** `DELETE /chat/rooms/:id`. */
  function DeleteRoom(st: ChatStore.Store, roomId: RoomId, caller: UserId): (r: Result<(ChatStore.Store, Notice)>)
    ensures r.Ok? <==> ChatStore.Authorize(st, roomId, caller).Ok?
    ensures r.Ok? ==> r.value.0.rooms == st.rooms - {roomId} && r.value.1 == DeletedNotice
    ensures r.Err? ==> r.error == ChatStore.Authorize(st, roomId, caller).error
  {
    var st' :- ChatStore.DeleteRoom(st, roomId, caller);
    Ok((st', DeletedNotice))
  }
}

=== FILE: chat_gateway.dfy ===
/** The real-time chat gateway: socket connections authenticated by a bearer token, a
    presence map from user to their most recent socket, room subscriptions, and the
    events the handlers emit. Every emit is recorded in an outbox as the set of sockets
    it reaches, so who-hears-what can be stated and proved. */
module ChatGateway {
  import opened Common
  import Text
  import ChatStore
  import ChatApi

  /** A live socket: the user its token named and the rooms it is subscribed to. */
  datatype Conn = Conn(userId: UserId, rooms: set<RoomId>)

  datatype Event =
    | NewMessage(message: ChatStore.Message)
    | MessagesRead(roomId: RoomId, readerId: UserId)
    | UserTyping(typistId: UserId, isTyping: bool, roomId: RoomId)
    | ChatRoomUpdated(roomId: RoomId)
    | ProductStatusChanged(roomId: RoomId, productId: string, newStatus: string, statusMessage: string, changedBy: string)
    | Custom(name: string, payload: string)

  datatype Emit = Emit(to: set<SocketId>, event: Event)

  datatype Gateway = Gateway(
    store: ChatStore.Store,
    presence: map<UserId, SocketId>,
    conns: map<SocketId, Conn>,
    nextSocket: SocketId,
    outbox: seq<Emit>)

  /** The acknowledgement a handler returns to the emitting socket. */
  datatype Ack = Success | Delivered(message: ChatStore.Message) | Failure(error: Error)

  /** The store is well formed, presence only points at a live socket of that very user,
      and socket ids come from the counter. */
  ghost predicate Inv(g: Gateway) {
    && ChatStore.Valid(g.store)
    && (forall u :: u in g.presence ==> g.presence[u] in g.conns && g.conns[g.presence[u]].userId == u)
    && (forall s :: s in g.conns ==> s < g.nextSocket)
  }

  /** Sockets are only subscribed to rooms their user takes part in (or to rooms since
      deleted), and never to an id the store has not handed out yet. */
  ghost predicate Private(store: ChatStore.Store, conns: map<SocketId, Conn>) {
    forall s, id :: s in conns && id in conns[s].rooms ==> SubscriptionAllowed(store, conns[s].userId, id)
  }

  /** `user` may hold a subscription to `id`. */
  predicate SubscriptionAllowed(store: ChatStore.Store, user: UserId, id: RoomId) {
    id < store.nextRoomId && (id in store.rooms ==> ChatStore.IsParticipant(store.rooms[id], user))
  }

  /** `client.to(room_id)`: every socket subscribed to the room except the emitter. */
  function Peers(conns: map<SocketId, Conn>, roomId: RoomId, except: SocketId): (r: set<SocketId>)
    ensures forall s :: s in r <==> s in conns && roomId in conns[s].rooms && s != except
  {
    set s | s in conns && roomId in conns[s].rooms && s != except
  }

  /** `server.to(room_id)`: every socket subscribed to the room. */
  function Members(conns: map<SocketId, Conn>, roomId: RoomId): (r: set<SocketId>)
    ensures forall s :: s in r <==> s in conns && roomId in conns[s].rooms
  {
    set s | s in conns && roomId in conns[s].rooms
  }

  // ---------------------------------------------------------------------------------
  // Connection

  /** The handshake: `auth.token` and the optional `Authorization` header. */
  datatype Handshake = Handshake(authToken: string, authorization: Option<string>)

  /** What a successfully verified token carries; an empty subject is `None`. */
  datatype Claims = Claims(sub: Option<UserId>)

  /** `auth.token || authorization?.replace('Bearer ', '')`; the empty string means no
      token. */
  function TokenOf(hs: Handshake): (t: string)
    ensures hs.authToken != "" ==> t == hs.authToken
    ensures hs.authToken == "" && hs.authorization.None? ==> t == ""
  {
    if hs.authToken != "" then hs.authToken
    else match hs.authorization
      case None => ""
      case Some(h) => Text.ReplaceFirst(h, "Bearer ", "")
  }

  /** A header of the form `Bearer <token>` yields the token. */
  lemma BearerHeaderYieldsToken(token: string)
    ensures TokenOf(Handshake("", Some("Bearer " + token))) == token
  {
    Text.ReplaceFirstStripsPrefix("Bearer ", token);
  }

  /** The ids of the rooms `GetChatRooms` lists for the user. */
  function ListedRoomIds(st: ChatStore.Store, user: UserId): set<RoomId>
    requires ChatStore.Valid(st)
  {
    var views := ChatStore.GetChatRooms(st, user);
    set i | 0 <= i < |views| :: views[i].room.id
  }

  /** A new socket: rejected when there is no token, the token does not verify (`verify`
      returns `None` where `JwtService.verify` throws) or names no user; otherwise it becomes
      the user's presence and is subscribed to every room the user takes part in. The
      socket id is consumed either way. */
  function Connect(g: Gateway, hs: Handshake, verify: string -> Option<Claims>): (r: (Gateway, Option<SocketId>))
    requires Inv(g)
    ensures Inv(r.0)
    ensures r.0.store == g.store && r.0.outbox == g.outbox && r.0.nextSocket == g.nextSocket + 1
    ensures r.1.Some? <==> TokenOf(hs) != "" && verify(TokenOf(hs)).Some? && verify(TokenOf(hs)).value.sub.Some?
    ensures r.1.None? ==> r.0.conns == g.conns && r.0.presence == g.presence
    ensures r.1.Some? ==>
              var s := r.1.value;
              var u := verify(TokenOf(hs)).value.sub.value;
              && s == g.nextSocket && s !in g.conns
              && r.0.presence == g.presence[u := s]
              && r.0.conns == g.conns[s := Conn(u, ListedRoomIds(g.store, u))]
  {
    var s := g.nextSocket;
    var g1 := g.(nextSocket := s + 1);
    var token := TokenOf(hs);
    if token == "" then (g1, None)
    else match verify(token)
      case None => (g1, None)
      case Some(claims) =>
        match claims.sub
        case None => (g1, None)
        case Some(u) =>
          (g1.(presence := g.presence[u := s], conns := g.conns[s := Conn(u, ListedRoomIds(g.store, u))]), Some(s))
  }

  /** A fresh socket is subscribed to exactly the rooms its user takes part in. */
  lemma ConnectSubscribesOwnRooms(g: Gateway, hs: Handshake, verify: string -> Option<Claims>)
    requires Inv(g)
    requires Connect(g, hs, verify).1.Some?
    ensures var (g', s) := Connect(g, hs, verify);
            var c := g'.conns[s.value];
            forall id :: id in c.rooms <==> id in g.store.rooms && ChatStore.IsParticipant(g.store.rooms[id], c.userId)
  {
    var (g', s) := Connect(g, hs, verify);
    var c := g'.conns[s.value];
    var views := ChatStore.GetChatRooms(g.store, c.userId);
    forall id
      ensures id in c.rooms <==> id in g.store.rooms && ChatStore.IsParticipant(g.store.rooms[id], c.userId)
    {
      if id in g.store.rooms && ChatStore.IsParticipant(g.store.rooms[id], c.userId) {
        var i :| 0 <= i < |views| && views[i].room.id == id;
        assert id in ListedRoomIds(g.store, c.userId);
      }
    }
  }

  /** The socket closes. Its user's presence entry is removed whichever socket it points
      at, so closing an older tab takes a newer tab offline. */
  function Disconnect(g: Gateway, s: SocketId): (r: Gateway)
    requires Inv(g)
    ensures Inv(r)
    ensures s !in r.conns && r.store == g.store && r.outbox == g.outbox
    ensures s in g.conns ==> r.conns == g.conns - {s} && r.presence == g.presence - {g.conns[s].userId}
    ensures s !in g.conns ==> r == g
  {
    if s !in g.conns then g
    else g.(presence := g.presence - {g.conns[s].userId}, conns := g.conns - {s})
  }

  /** A user with two sockets who closes the older one is no longer present, although
      the newer socket is still connected. */
  lemma StaleDisconnectEvictsNewerSocket(g: Gateway, hs: Handshake, verify: string -> Option<Claims>)
    requires Inv(g)
    requires Connect(g, hs, verify).1.Some?
    ensures var (g1, s1) := Connect(g, hs, verify);
            var (g2, s2) := Connect(g1, hs, verify);
            var u := g1.conns[s1.value].userId;
            var g3 := Disconnect(g2, s1.value);
            && s2.Some? && s2.value in g3.conns && g3.conns[s2.value].userId == u
            && u !in g3.presence
  {
  }

  // ---------------------------------------------------------------------------------
  // Room-scoped handlers. Each one is stated for a connected socket, whose user the
  // handshake has set. The handshake is one step here; an event handled while it
  // still awaits the room list is not modelled.

  /** `joinRoom`: after the participant check the socket subscribes, the user's unread
      messages in the room become read, and the room's other sockets hear about it. */
  function JoinRoom(g: Gateway, s: SocketId, roomId: RoomId): (r: (Gateway, Ack))
    requires s in g.conns
    ensures var u := g.conns[s].userId;
            && (r.1 == Success <==> ChatStore.Authorize(g.store, roomId, u).Ok?)
            && (r.1 != Success ==> r.0 == g && r.1 == Failure(ChatStore.Authorize(g.store, roomId, u).error))
            && (r.1 == Success ==>
                  && r.0.store == ChatStore.MarkRead(g.store, roomId, u).value
                  && r.0.conns == g.conns[s := g.conns[s].(rooms := g.conns[s].rooms + {roomId})]
                  && r.0.presence == g.presence
                  && r.0.outbox == g.outbox + [Emit(Peers(r.0.conns, roomId, s), MessagesRead(roomId, u))])
  {
    var u := g.conns[s].userId;
    match ChatStore.GetChatRoom(g.store, roomId, u)
    case Err(e) => (g, Failure(e))
    case Ok(_) =>
      var conns := g.conns[s := g.conns[s].(rooms := g.conns[s].rooms + {roomId})];
      var store := ChatStore.MarkRead(g.store, roomId, u).value;
      (g.(store := store, conns := conns, outbox := g.outbox + [Emit(Peers(conns, roomId, s), MessagesRead(roomId, u))]), Success)
  }

  /** `leaveRoom`: unsubscribes without any check. */
  function LeaveRoom(g: Gateway, s: SocketId, roomId: RoomId): (r: (Gateway, Ack))
    requires s in g.conns
    ensures r.1 == Success
    ensures r.0.conns == g.conns[s := g.conns[s].(rooms := g.conns[s].rooms - {roomId})]
    ensures r.0.store == g.store && r.0.presence == g.presence && r.0.outbox == g.outbox
  {
    (g.(conns := g.conns[s := g.conns[s].(rooms := g.conns[s].rooms - {roomId})]), Success)
  }

  /** `sendMessage`: persists the message, broadcasts it to the room's other sockets,
      then tells the other participant's presence socket, if any, that the room changed.
      A payload without `content` is refused by the insert and acknowledged as a failure. */
  function SendMessage(g: Gateway, s: SocketId, roomId: RoomId, content: Option<string>, kind: string, now: int): (r: (Gateway, Ack))
    requires s in g.conns
    ensures var u := g.conns[s].userId;
            var sent := ChatStore.SendMessage(g.store, roomId, u, content, ChatApi.WireKind(kind), now);
            && (r.1.Delivered? <==> sent.Ok?)
            && (sent.Err? ==> r == (g, Failure(sent.error)))
            && (sent.Ok? ==>
                  var (store, m) := sent.value;
                  var other := ChatStore.OtherUser(g.store.rooms[roomId], u);
                  var notice := if other in g.presence then [Emit({g.presence[other]}, ChatRoomUpdated(roomId))] else [];
                  && r.1 == Delivered(m)
                  && r.0 == g.(store := store, outbox := g.outbox + [Emit(Peers(g.conns, roomId, s), NewMessage(m))] + notice))
  {
    var u := g.conns[s].userId;
    match ChatStore.SendMessage(g.store, roomId, u, content, ChatApi.WireKind(kind), now)
    case Err(e) => (g, Failure(e))
    case Ok((store, m)) =>
      var broadcast := Emit(Peers(g.conns, roomId, s), NewMessage(m));
      var room := store.rooms[roomId];
      var other := if room.sellerId == u then room.buyerId else room.sellerId;
      var notice := if other in g.presence then [Emit({g.presence[other]}, ChatRoomUpdated(roomId))] else [];
      (g.(store := store, outbox := g.outbox + [broadcast] + notice), Delivered(m))
  }

  /** `typing`: relayed to the room's other sockets with no check at all and no
      acknowledgement. */
  function Typing(g: Gateway, s: SocketId, roomId: RoomId, isTyping: bool): (r: Gateway)
    requires s in g.conns
    ensures r == g.(outbox := g.outbox + [Emit(Peers(g.conns, roomId, s), UserTyping(g.conns[s].userId, isTyping, roomId))])
  {
    g.(outbox := g.outbox + [Emit(Peers(g.conns, roomId, s), UserTyping(g.conns[s].userId, isTyping, roomId))])
  }

  /** `markAsRead`: marks the room read and tells the room's other sockets. */
  function MarkAsRead(g: Gateway, s: SocketId, roomId: RoomId): (r: (Gateway, Ack))
    requires s in g.conns
    ensures var u := g.conns[s].userId;
            var marked := ChatStore.MarkRead(g.store, roomId, u);
            && (r.1 == Success <==> marked.Ok?)
            && (marked.Err? ==> r == (g, Failure(marked.error)))
            && (marked.Ok? ==>
                  r.0 == g.(store := marked.value, outbox := g.outbox + [Emit(Peers(g.conns, roomId, s), MessagesRead(roomId, u))]))
  {
    var u := g.conns[s].userId;
    match ChatStore.MarkRead(g.store, roomId, u)
    case Err(e) => (g, Failure(e))
    case Ok(store) => (g.(store := store, outbox := g.outbox + [Emit(Peers(g.conns, roomId, s), MessagesRead(roomId, u))]), Success)
  }

  /** `productStatusChanged`: the client-supplied payload is relayed verbatim to the
      room's other sockets, with no check of who sent it. */
  function RelayProductStatus(g: Gateway, s: SocketId, roomId: RoomId, productId: string, newStatus: string,
                              statusMessage: string, changedBy: string): (r: (Gateway, Ack))
    requires s in g.conns
    ensures r.1 == Success
    ensures r.0 == g.(outbox := g.outbox + [Emit(Peers(g.conns, roomId, s),
                                                 ProductStatusChanged(roomId, productId, newStatus, statusMessage, changedBy))])
  {
    var e := ProductStatusChanged(roomId, productId, newStatus, statusMessage, changedBy);
    (g.(outbox := g.outbox + [Emit(Peers(g.conns, roomId, s), e)]), Success)
  }

  /** Server-side push to a user's presence socket; nothing happens when they are offline. */
  function NotifyUser(g: Gateway, u: UserId, name: string, payload: string): (r: Gateway)
    requires Inv(g)
    ensures Inv(r)
    ensures u !in g.presence ==> r == g
    ensures u in g.presence ==> r == g.(outbox := g.outbox + [Emit({g.presence[u]}, Custom(name, payload))])
    ensures forall t :: t in r.outbox[|g.outbox|..] ==> forall x :: x in t.to ==> g.conns[x].userId == u
  {
    if u in g.presence then g.(outbox := g.outbox + [Emit({g.presence[u]}, Custom(name, payload))]) else g
  }

  /** Server-side push to every socket subscribed to a room. */
  function NotifyRoom(g: Gateway, roomId: RoomId, name: string, payload: string): (r: Gateway)
    ensures r == g.(outbox := g.outbox + [Emit(Members(g.conns, roomId), Custom(name, payload))])
  {
    g.(outbox := g.outbox + [Emit(Members(g.conns, roomId), Custom(name, payload))])
  }

  // ---------------------------------------------------------------------------------
  // Properties across handlers

  /** A refused join, send or mark-read leaves the whole gateway as it was. */
  lemma FailuresChangeNothing(g: Gateway, s: SocketId, roomId: RoomId, content: Option<string>, kind: string, now: int)
    requires s in g.conns
    ensures JoinRoom(g, s, roomId).1.Failure? ==> JoinRoom(g, s, roomId).0 == g
    ensures SendMessage(g, s, roomId, content, kind, now).1.Failure? ==> SendMessage(g, s, roomId, content, kind, now).0 == g
    ensures MarkAsRead(g, s, roomId).1.Failure? ==> MarkAsRead(g, s, roomId).0 == g
  {
  }

  /** A participant's `sendMessage` without `content` is acknowledged with the insert's
      refusal; nothing is stored and nobody is told. */
  lemma MissingContentIsAcknowledgedAsFailure(g: Gateway, s: SocketId, roomId: RoomId, kind: string, now: int)
    requires s in g.conns && ChatStore.Authorize(g.store, roomId, g.conns[s].userId).Ok?
    ensures SendMessage(g, s, roomId, None, kind, now) == (g, Failure(StoreRejected))
  {
  }

  /** A room broadcast never reaches the socket that caused it. */
  lemma EmitterIsNotEchoed(g: Gateway, s: SocketId, roomId: RoomId, content: Option<string>, kind: string, now: int)
    requires s in g.conns
    ensures var (g', ack) := SendMessage(g, s, roomId, content, kind, now);
            ack.Delivered? ==> s !in g'.outbox[|g.outbox|].to
    ensures var (g', ack) := JoinRoom(g, s, roomId);
            ack == Success ==> s !in g'.outbox[|g.outbox|].to
    ensures s !in Typing(g, s, roomId, true).outbox[|g.outbox|].to
  {
  }

  /** A delivered message is already in the room's log, as its newest entry, when the
      broadcast goes out. */
  lemma PersistedBeforeBroadcast(g: Gateway, s: SocketId, roomId: RoomId, content: Option<string>, kind: string, now: int)
    requires s in g.conns
    requires SendMessage(g, s, roomId, content, kind, now).1.Delivered?
    ensures var (g', ack) := SendMessage(g, s, roomId, content, kind, now);
            && g'.outbox[|g.outbox|].event == NewMessage(ack.message)
            && ChatStore.LastMessage(g'.store.rooms[roomId]) == Some(ack.message)
  {
    var u := g.conns[s].userId;
    ChatStore.SendMessageEffects(g.store, roomId, u, content, ChatApi.WireKind(kind), now, u);
  }

  /** The room-updated notice goes to the other participant's presence socket exactly
      when that participant is present. */
  lemma RoomUpdatedReachesOtherParticipant(g: Gateway, s: SocketId, roomId: RoomId, content: Option<string>, kind: string, now: int)
    requires Inv(g) && s in g.conns
    requires SendMessage(g, s, roomId, content, kind, now).1.Delivered?
    ensures var (g', _) := SendMessage(g, s, roomId, content, kind, now);
            var other := ChatStore.OtherUser(g.store.rooms[roomId], g.conns[s].userId);
            && (|g'.outbox| == |g.outbox| + 2 <==> other in g.presence)
            && (other in g.presence ==>
                  && g'.outbox[|g.outbox| + 1] == Emit({g.presence[other]}, ChatRoomUpdated(roomId))
                  && g.conns[g.presence[other]].userId == other)
  {
  }

  /** Under `Private`, a new message reaches only sockets of the room's participants. */
  lemma MessagesStayInTheRoom(g: Gateway, s: SocketId, roomId: RoomId, content: Option<string>, kind: string, now: int)
    requires Inv(g) && Private(g.store, g.conns) && s in g.conns
    requires SendMessage(g, s, roomId, content, kind, now).1.Delivered?
    ensures var (g', _) := SendMessage(g, s, roomId, content, kind, now);
            forall x :: x in g'.outbox[|g.outbox|].to ==>
              ChatStore.IsParticipant(g.store.rooms[roomId], g.conns[x].userId)
  {
  }

  /** `typing` needs no membership: any connected socket can reach a room's sockets. */
  lemma TypingReachesRoomFromOutside(g: Gateway, s: SocketId, listener: SocketId, roomId: RoomId)
    requires s in g.conns && listener in g.conns && listener != s
    requires roomId in g.conns[listener].rooms && roomId !in g.conns[s].rooms
    ensures listener in Typing(g, s, roomId, true).outbox[|g.outbox|].to
  {
  }

  /** Every handler and every server push keeps `Inv`. */
  lemma HandlersKeepInv(g: Gateway, s: SocketId, roomId: RoomId, content: Option<string>, kind: string, now: int)
    requires Inv(g) && s in g.conns
    ensures Inv(JoinRoom(g, s, roomId).0)
    ensures Inv(LeaveRoom(g, s, roomId).0)
    ensures Inv(SendMessage(g, s, roomId, content, kind, now).0)
    ensures Inv(Typing(g, s, roomId, true))
    ensures Inv(MarkAsRead(g, s, roomId).0)
    ensures Inv(NotifyRoom(g, roomId, kind, kind))
  {
    var u := g.conns[s].userId;
    if ChatStore.MarkRead(g.store, roomId, u).Ok? {
      var st' := ChatStore.MarkRead(g.store, roomId, u).value;
      assert ChatStore.Valid(st') by {
        forall id | id in st'.rooms ensures id < st'.nextRoomId && st'.rooms[id].id == id {
          assert id in g.store.rooms;
        }
      }
    }
    var sent := ChatStore.SendMessage(g.store, roomId, u, content, ChatApi.WireKind(kind), now);
    if sent.Ok? {
      ChatStore.SendMessageKeepsValid(g.store, roomId, u, content, ChatApi.WireKind(kind), now);
    }
  }

  /** Store changes that keep every existing room's participants (or drop the room) and
      socket changes that only drop subscriptions or sockets keep `Private`. */
  lemma PrivateCarriesOver(st: ChatStore.Store, conns: map<SocketId, Conn>, st': ChatStore.Store, conns': map<SocketId, Conn>)
    requires Private(st, conns)
    requires st.nextRoomId <= st'.nextRoomId
    requires forall id :: id in st'.rooms && id < st.nextRoomId ==>
               id in st.rooms && st'.rooms[id].sellerId == st.rooms[id].sellerId
               && st'.rooms[id].buyerId == st.rooms[id].buyerId
    requires forall x :: x in conns' ==>
               x in conns && conns'[x].userId == conns[x].userId && conns'[x].rooms <= conns[x].rooms
    ensures Private(st', conns')
  {
    forall x, id | x in conns' && id in conns'[x].rooms
      ensures SubscriptionAllowed(st', conns'[x].userId, id)
    {
      assert id in conns[x].rooms;
    }
  }

  /** Joining, leaving, disconnecting, sending and marking keep sockets subscribed only
      to their own rooms. */
  lemma HandlersKeepPrivate(g: Gateway, s: SocketId, roomId: RoomId, content: Option<string>, kind: string, now: int)
    requires Inv(g) && Private(g.store, g.conns) && s in g.conns
    ensures var g' := JoinRoom(g, s, roomId).0; Private(g'.store, g'.conns)
    ensures var g' := LeaveRoom(g, s, roomId).0; Private(g'.store, g'.conns)
    ensures var g' := SendMessage(g, s, roomId, content, kind, now).0; Private(g'.store, g'.conns)
    ensures var g' := MarkAsRead(g, s, roomId).0; Private(g'.store, g'.conns)
    ensures var g' := Disconnect(g, s); Private(g'.store, g'.conns)
  {
    var u := g.conns[s].userId;
    var (gj, ack) := JoinRoom(g, s, roomId);
    if ack == Success {
      forall x, id | x in gj.conns && id in gj.conns[x].rooms
        ensures SubscriptionAllowed(gj.store, gj.conns[x].userId, id)
      {
        assert gj.conns[x].userId == g.conns[x].userId;
        assert id in gj.store.rooms ==>
          (gj.store.rooms[id].sellerId == g.store.rooms[id].sellerId && gj.store.rooms[id].buyerId == g.store.rooms[id].buyerId);
      }
    }
    var gl := LeaveRoom(g, s, roomId).0;
    PrivateCarriesOver(g.store, g.conns, gl.store, gl.conns);
    var gs := SendMessage(g, s, roomId, content, kind, now).0;
    PrivateCarriesOver(g.store, g.conns, gs.store, gs.conns);
    var gm := MarkAsRead(g, s, roomId).0;
    PrivateCarriesOver(g.store, g.conns, gm.store, gm.conns);
    var gd := Disconnect(g, s);
    PrivateCarriesOver(g.store, g.conns, gd.store, gd.conns);
  }

  /** A connection keeps `Private`, since it subscribes only to the user's own rooms. */
  lemma ConnectKeepsPrivate(g: Gateway, hs: Handshake, verify: string -> Option<Claims>)
    requires Inv(g) && Private(g.store, g.conns)
    ensures var g' := Connect(g, hs, verify).0; Private(g'.store, g'.conns)
  {
    var (g', s) := Connect(g, hs, verify);
    if s.Some? {
      ConnectSubscribesOwnRooms(g, hs, verify);
      var c := g'.conns[s.value];
      forall x, id | x in g'.conns && id in g'.conns[x].rooms
        ensures SubscriptionAllowed(g'.store, g'.conns[x].userId, id)
      {
        if x == s.value {
          assert id in g.store.rooms;
        } else {
          assert g'.conns[x] == g.conns[x];
        }
      }
    } else {
      PrivateCarriesOver(g.store, g.conns, g'.store, g'.conns);
    }
  }

  /** Room creation and deletion through the REST endpoints keep `Private`: a new room's
      id has never been subscribed to, and a deleted room's id is never reused. */
  lemma RestChangesKeepPrivate(g: Gateway, known: ChatStore.Referents, caller: UserId, sellerId: Option<UserId>,
                               productId: Option<ProductId>, roomId: RoomId, now: int)
    requires Inv(g) && Private(g.store, g.conns)
    ensures ChatApi.CreateRoom(g.store, known, caller, sellerId, productId, now).Ok? ==>
              Private(ChatApi.CreateRoom(g.store, known, caller, sellerId, productId, now).value.0, g.conns)
    ensures ChatApi.DeleteRoom(g.store, roomId, caller).Ok? ==>
              Private(ChatApi.DeleteRoom(g.store, roomId, caller).value.0, g.conns)
  {
    if ChatApi.CreateRoom(g.store, known, caller, sellerId, productId, now).Ok? {
      PrivateCarriesOver(g.store, g.conns, ChatApi.CreateRoom(g.store, known, caller, sellerId, productId, now).value.0, g.conns);
    }
    if ChatApi.DeleteRoom(g.store, roomId, caller).Ok? {
      PrivateCarriesOver(g.store, g.conns, ChatApi.DeleteRoom(g.store, roomId, caller).value.0, g.conns);
    }
  }
}

=== FILE: chat_list_page.dfy ===
/** The chat list page: the search box that narrows the room list, the unread badge,
    the room list after a delete, and the status label of each room's listing. The
    relative time beside each room is `SearchPage.TimeAgo`. */
module ChatListPage {
  import opened Common
  import Text
  import SharedUtils
  import Products

  /** One entry of the room list as the page receives it. */
  datatype RoomSummary = RoomSummary(
    id: RoomId,
    otherUsername: string,
    productTitle: string,
    lastMessage: Option<string>,
    unreadCount: int,
    productStatus: string)

  /** A room stays in the list while `query` is typed: an empty query keeps every room,
      otherwise the query must occur, ignoring case, in the other user's name, the
      listing title or the last message. */
  predicate Kept(room: RoomSummary, query: string) {
    || query == ""
    || Text.ContainsIgnoringCase(room.otherUsername, query)
    || Text.ContainsIgnoringCase(room.productTitle, query)
    || (room.lastMessage.Some? && Text.ContainsIgnoringCase(room.lastMessage.value, query))
  }

  /** `filteredChatRooms`. */
  function FilterRooms(rooms: seq<RoomSummary>, query: string): (shown: seq<RoomSummary>)
    ensures |shown| <= |rooms|
    ensures forall r :: r in shown <==> r in rooms && Kept(r, query)
    ensures query == "" ==> shown == rooms
  {
    if |rooms| == 0 then []
    else
      var rest := FilterRooms(rooms[1..], query);
      assert rooms == [rooms[0]] + rooms[1..];
      if Kept(rooms[0], query) then [rooms[0]] + rest else rest
  }

  /** Typing more can only narrow the list. */
  lemma LongerQueryNarrows(rooms: seq<RoomSummary>, query: string, more: string)
    ensures forall r :: r in FilterRooms(rooms, query + more) ==> r in FilterRooms(rooms, query)
  {
    Text.LowerAppend(query, more);
    forall r | r in FilterRooms(rooms, query + more) ensures r in FilterRooms(rooms, query) {
      if query != "" {
        if Text.ContainsIgnoringCase(r.otherUsername, query + more) {
          Text.ContainsPrefixOf(Text.Lower(r.otherUsername), Text.Lower(query), Text.Lower(more));
        } else if Text.ContainsIgnoringCase(r.productTitle, query + more) {
          Text.ContainsPrefixOf(Text.Lower(r.productTitle), Text.Lower(query), Text.Lower(more));
        } else if r.lastMessage.Some? && Text.ContainsIgnoringCase(r.lastMessage.value, query + more) {
          Text.ContainsPrefixOf(Text.Lower(r.lastMessage.value), Text.Lower(query), Text.Lower(more));
        }
      }
    }
  }

  /** The unread badge: hidden at zero, the count itself up to 99, then "99+". */
  function Badge(unreadCount: int): (b: Option<string>)
    ensures b.None? <==> unreadCount <= 0
    ensures unreadCount > 99 ==> b == Some("99+")
    ensures 0 < unreadCount <= 99 ==>
              && b.Some? && 1 <= |b.value| <= 2
              && (forall i :: 0 <= i < |b.value| ==> '0' <= b.value[i] <= '9')
              && SharedUtils.DigitsValue(b.value) == unreadCount
  {
    if unreadCount <= 0 then None
    else if unreadCount > 99 then Some("99+")
    else
      SharedUtils.IntTextRoundTrip(unreadCount);
      Some(SharedUtils.IntText(unreadCount))
  }

  /** Occurrences of room `id` in the list. */
  function CountId(rooms: seq<RoomSummary>, id: RoomId): nat {
    if |rooms| == 0 then 0 else (if rooms[0].id == id then 1 else 0) + CountId(rooms[1..], id)
  }

  /** The local list after the server has deleted room `id`. */
  function LocalDelete(rooms: seq<RoomSummary>, id: RoomId): (left: seq<RoomSummary>)
    ensures |left| + CountId(rooms, id) == |rooms|
    ensures forall r :: r in left <==> r in rooms && r.id != id
  {
    if |rooms| == 0 then []
    else
      var rest := LocalDelete(rooms[1..], id);
      assert rooms == [rooms[0]] + rooms[1..];
      if rooms[0].id == id then rest else [rooms[0]] + rest
  }

  /** With room ids unique, a delete removes exactly one entry when the room is listed
      and nothing otherwise. */
  lemma {:induction false} DeleteRemovesOne(rooms: seq<RoomSummary>, id: RoomId)
    requires forall i, j :: 0 <= i < j < |rooms| ==> rooms[i].id != rooms[j].id
    ensures |LocalDelete(rooms, id)| == |rooms| - (if exists i :: 0 <= i < |rooms| && rooms[i].id == id then 1 else 0)
    decreases |rooms|
  {
    if |rooms| > 0 {
      DeleteRemovesOne(rooms[1..], id);
      if rooms[0].id == id {
        assert forall i :: 0 <= i < |rooms[1..]| ==> rooms[1..][i].id != id by {
          forall i | 0 <= i < |rooms[1..]| ensures rooms[1..][i].id != id {
            assert rooms[1..][i] == rooms[i + 1];
          }
        }
        assert rooms[0].id == id;
      } else {
        assert (exists i :: 0 <= i < |rooms| && rooms[i].id == id)
               <==> (exists i :: 0 <= i < |rooms[1..]| && rooms[1..][i].id == id) by {
          forall i | 0 < i < |rooms| ensures rooms[1..][i - 1] == rooms[i] {
          }
        }
      }
    }
  }

  /** The label under each room's listing. */
  function StatusLabel(status: string): (text: string)
    ensures Products.StatusNamed(status) == Some(Products.Available) <==> text == "판매중"
    ensures Products.StatusNamed(status) == Some(Products.Reserved) <==> text == "예약중"
    ensures text == "판매완료" <==>
              Products.StatusNamed(status) != Some(Products.Available) && Products.StatusNamed(status) != Some(Products.Reserved)
  {
    if status == "AVAILABLE" then "판매중"
    else if status == "RESERVED" then "예약중"
    else "판매완료"
  }

  /** The label tells the listing states apart except that a deleted listing reads as
      sold. */
  lemma DeletedListingReadsAsSold()
    ensures Products.StatusNamed("DELETED") == Some(Products.Deleted)
    ensures StatusLabel("DELETED") == StatusLabel("SOLD") == "판매완료"
    ensures StatusLabel("AVAILABLE") != StatusLabel("RESERVED")
    ensures StatusLabel("AVAILABLE") != StatusLabel("SOLD") && StatusLabel("RESERVED") != StatusLabel("SOLD")
  {
  }
}

=== FILE: chat_store.dfy ===
/** The chat service: rooms keyed by (seller, buyer, product), each with an append-only
    message log, and the participant check every room operation performs first.
    The database becomes an immutable `Store`; each service call is a pure function from
    the store before the call to its result and the store after it. */
module ChatStore {
  import opened Common
  import Paging
  import Sorting

  datatype MessageKind = Text | Image | File | System

  /** The stored name of each message type. */
  function WireName(k: MessageKind): string {
    match k
    case Text => "TEXT"
    case Image => "IMAGE"
    case File => "FILE"
    case System => "SYSTEM"
  }

  /** The message type as it arrives on the wire. The service's parameter type names
      TEXT, IMAGE and FILE, but nothing checks it at run time, so any of the four stored
      type names is inserted and anything else is refused by the insert. */
  function KindFromWire(s: string): (r: Result<MessageKind>)
    ensures r.Ok? <==> s in {"TEXT", "IMAGE", "FILE", "SYSTEM"}
    ensures r.Ok? ==> WireName(r.value) == s
    ensures r.Err? ==> r.error == StoreRejected
  {
    if s == "TEXT" then Ok(Text)
    else if s == "IMAGE" then Ok(Image)
    else if s == "FILE" then Ok(File)
    else if s == "SYSTEM" then Ok(System)
    else Err(StoreRejected)
  }

  /** Every stored type name reads back as its type. */
  lemma KindRoundTrip(k: MessageKind)
    ensures KindFromWire(WireName(k)) == Ok(k)
  {
  }

  /** `createdAt` is the clock reading when the row was inserted. The log keeps insertion
      order, which is `createdAt` order for a clock that does not run backwards. */
  datatype Message = Message(
    id: MessageId,
    roomId: RoomId,
    senderId: UserId,
    content: string,
    kind: MessageKind,
    isRead: bool,
    createdAt: int)

  datatype Room = Room(
    id: RoomId,
    sellerId: UserId,
    buyerId: UserId,
    productId: ProductId,
    createdAt: int,
    updatedAt: int,
    messages: seq<Message>)

  datatype Store = Store(rooms: map<RoomId, Room>, nextRoomId: RoomId, nextMessageId: MessageId)

  /** Every stored room sits under its own id, and ids come from the counter. */
  ghost predicate Valid(st: Store) {
    forall id :: id in st.rooms ==> id < st.nextRoomId && st.rooms[id].id == id
  }

  predicate IsParticipant(room: Room, user: UserId) {
    room.sellerId == user || room.buyerId == user
  }

  predicate HasTriple(room: Room, sellerId: UserId, buyerId: UserId, productId: ProductId) {
    room.sellerId == sellerId && room.buyerId == buyerId && room.productId == productId
  }

  /** The participant as seen by `user`: the buyer for the seller, the seller otherwise. */
  function OtherUser(room: Room, user: UserId): UserId {
    if room.sellerId == user then room.buyerId else room.sellerId
  }

  /** The newest message (`orderBy createdAt desc, take 1`), or none. */
  function LastMessage(room: Room): (r: Option<Message>)
    ensures r.None? <==> |room.messages| == 0
    ensures r.Some? ==> r.value in room.messages && r.value == room.messages[|room.messages| - 1]
  {
    if |room.messages| == 0 then None else Some(room.messages[|room.messages| - 1])
  }

  /** A message counts as unread for `user` when someone else sent it and it is unread. */
  predicate UnreadFor(m: Message, user: UserId) {
    m.senderId != user && !m.isRead
  }

  function CountUnread(ms: seq<Message>, user: UserId): (n: nat)
    ensures n <= |ms|
  {
    if |ms| == 0 then 0
    else CountUnread(ms[..|ms| - 1], user) + (if UnreadFor(ms[|ms| - 1], user) then 1 else 0)
  }

  /** A zero unread count means no message in the log is unread for the user. */
  lemma {:induction false} NoUnreadIffCountZero(ms: seq<Message>, user: UserId)
    ensures CountUnread(ms, user) == 0 <==> forall i :: 0 <= i < |ms| ==> !UnreadFor(ms[i], user)
  {
    if |ms| > 0 {
      var init := ms[..|ms| - 1];
      NoUnreadIffCountZero(init, user);
      assert forall i :: 0 <= i < |init| ==> init[i] == ms[i];
    }
  }

  // ---------------------------------------------------------------------------------
  // Participant check

  /** The lookup-then-check that opens every room-scoped operation: NotFound for a
      missing room, Forbidden for a user who is neither seller nor buyer. */
  function Authorize(st: Store, roomId: RoomId, user: UserId): (r: Result<Room>)
    ensures r.Ok? <==> roomId in st.rooms && IsParticipant(st.rooms[roomId], user)
    ensures r.Ok? ==> r.value == st.rooms[roomId]
    ensures r.Err? && roomId !in st.rooms ==> r.error == NotFound
    ensures r.Err? && roomId in st.rooms ==> r.error == Forbidden
  {
    if roomId !in st.rooms then Err(NotFound)
    else if !IsParticipant(st.rooms[roomId], user) then Err(Forbidden)
    else Ok(st.rooms[roomId])
  }

  // ---------------------------------------------------------------------------------
  // findOrCreateChatRoom

  /** The `where` of the lookup: a filter field the request leaves undefined is dropped
      by the ORM and matches every room. */
  predicate Matches(room: Room, sellerId: Option<UserId>, buyerId: UserId, productId: Option<ProductId>) {
    && (sellerId.None? || room.sellerId == sellerId.value)
    && room.buyerId == buyerId
    && (productId.None? || room.productId == productId.value)
  }

  /** `findFirst` over the filter: the lowest id at or above `from` whose room matches. */
  function FirstWithTriple(st: Store, sellerId: Option<UserId>, buyerId: UserId, productId: Option<ProductId>, from: nat)
    : (r: Option<RoomId>)
    ensures r.Some? ==> from <= r.value && r.value in st.rooms
                        && Matches(st.rooms[r.value], sellerId, buyerId, productId)
    ensures r.Some? ==> forall id :: from <= id < r.value && id in st.rooms
                                     ==> !Matches(st.rooms[id], sellerId, buyerId, productId)
    ensures r.None? ==> forall id :: from <= id < st.nextRoomId && id in st.rooms
                                     ==> !Matches(st.rooms[id], sellerId, buyerId, productId)
    decreases st.nextRoomId - from
  {
    if from >= st.nextRoomId then None
    else if from in st.rooms && Matches(st.rooms[from], sellerId, buyerId, productId) then Some(from)
    else FirstWithTriple(st, sellerId, buyerId, productId, from + 1)
  }

  ghost predicate MatchExists(st: Store, sellerId: Option<UserId>, buyerId: UserId, productId: Option<ProductId>) {
    exists id :: id in st.rooms && Matches(st.rooms[id], sellerId, buyerId, productId)
  }

  ghost predicate TripleExists(st: Store, sellerId: UserId, buyerId: UserId, productId: ProductId) {
    MatchExists(st, Some(sellerId), buyerId, Some(productId))
  }

  /** The user and listing rows that exist outside the chat tables: a room's seller,
      buyer and listing are foreign keys into them. */
  datatype Referents = Referents(users: set<UserId>, products: set<ProductId>)

  /** The create succeeds only with every field given and every key naming a row. */
  predicate Insertable(known: Referents, sellerId: Option<UserId>, buyerId: UserId, productId: Option<ProductId>) {
    && sellerId.Some? && productId.Some?
    && sellerId.value in known.users && buyerId in known.users
    && productId.value in known.products
  }

  /** Returns the first room the lookup matches, or creates one; a lookup followed by a
      create, with no conflict handling of its own. The create fails when a field is
      missing or a key names no row. */
  function FindOrCreate(st: Store, known: Referents, sellerId: Option<UserId>, buyerId: UserId,
                        productId: Option<ProductId>, now: int)
    : (r: Result<(Store, Room)>)
    requires Valid(st)
    ensures MatchExists(st, sellerId, buyerId, productId) ==> r.Ok? && r.value.0 == st
    ensures !MatchExists(st, sellerId, buyerId, productId) ==>
              (r.Ok? <==> Insertable(known, sellerId, buyerId, productId))
    ensures r.Err? ==> r.error == StoreRejected
    ensures r.Ok? ==>
              var (st', room) := r.value;
              && Valid(st')
              && Matches(room, sellerId, buyerId, productId)
              && room.id in st'.rooms && st'.rooms[room.id] == room
    ensures r.Ok? && !MatchExists(st, sellerId, buyerId, productId) ==>
              var (st', room) := r.value;
              && room.id == st.nextRoomId && st.nextRoomId !in st.rooms
              && st'.rooms == st.rooms[room.id := room]
              && st'.nextRoomId == st.nextRoomId + 1
              && st'.nextMessageId == st.nextMessageId
              && room.messages == [] && room.createdAt == now && room.updatedAt == now
  {
    match FirstWithTriple(st, sellerId, buyerId, productId, 0)
    case Some(id) => Ok((st, st.rooms[id]))
    case None =>
      if !Insertable(known, sellerId, buyerId, productId) then Err(StoreRejected)
      else
        var room := Room(st.nextRoomId, sellerId.value, buyerId, productId.value, now, now, []);
        Ok((Store(st.rooms[st.nextRoomId := room], st.nextRoomId + 1, st.nextMessageId), room))
  }

  /** Two sequential calls with the same request yield the same room, and the second
      call changes nothing. */
  lemma FindOrCreateTwice(st: Store, known: Referents, sellerId: Option<UserId>, buyerId: UserId,
                          productId: Option<ProductId>, now1: int, now2: int)
    requires Valid(st)
    requires FindOrCreate(st, known, sellerId, buyerId, productId, now1).Ok?
    ensures var (st1, room1) := FindOrCreate(st, known, sellerId, buyerId, productId, now1).value;
            FindOrCreate(st1, known, sellerId, buyerId, productId, now2) == Ok((st1, room1))
  {
    var (st1, room1) := FindOrCreate(st, known, sellerId, buyerId, productId, now1).value;
    assert MatchExists(st1, sellerId, buyerId, productId) by {
      assert room1.id in st1.rooms;
    }
    match FirstWithTriple(st, sellerId, buyerId, productId, 0)
    case Some(id) =>
    case None =>
      assert !MatchExists(st, sellerId, buyerId, productId);
      var found := FirstWithTriple(st1, sellerId, buyerId, productId, 0);
      assert found.Some? by {
        assert room1.id < st1.nextRoomId && room1.id in st1.rooms;
      }
      assert found.value !in st.rooms;
  }

  /** No two rooms share a triple. */
  ghost predicate UniqueTriples(st: Store) {
    forall a, b :: a in st.rooms && b in st.rooms
                   && HasTriple(st.rooms[b], st.rooms[a].sellerId, st.rooms[a].buyerId, st.rooms[a].productId)
                   ==> a == b
  }

  /** Sequential find-or-create never introduces a second room for a triple. */
  lemma FindOrCreateKeepsTriplesUnique(st: Store, known: Referents, sellerId: Option<UserId>, buyerId: UserId,
                                       productId: Option<ProductId>, now: int)
    requires Valid(st) && UniqueTriples(st)
    requires FindOrCreate(st, known, sellerId, buyerId, productId, now).Ok?
    ensures UniqueTriples(FindOrCreate(st, known, sellerId, buyerId, productId, now).value.0)
  {
    var (st1, room) := FindOrCreate(st, known, sellerId, buyerId, productId, now).value;
    if !MatchExists(st, sellerId, buyerId, productId) {
      forall a, b | a in st1.rooms && b in st1.rooms
                    && HasTriple(st1.rooms[b], st1.rooms[a].sellerId, st1.rooms[a].buyerId, st1.rooms[a].productId)
        ensures a == b
      {
        assert a != room.id ==> a in st.rooms && st1.rooms[a] == st.rooms[a];
        assert b != room.id ==> b in st.rooms && st1.rooms[b] == st.rooms[b];
        assert Matches(room, Some(room.sellerId), room.buyerId, Some(room.productId));
      }
    }
  }

  /** A create that names a missing seller or listing fails when no room matches, and
      leaves nothing behind. */
  lemma UnknownReferenceIsRejected(st: Store, known: Referents, sellerId: UserId, buyerId: UserId,
                                   productId: ProductId, now: int)
    requires Valid(st)
    requires !TripleExists(st, sellerId, buyerId, productId)
    requires sellerId !in known.users || productId !in known.products
    ensures FindOrCreate(st, known, Some(sellerId), buyerId, Some(productId), now) == Err(StoreRejected)
  {
  }

  /** A request without a seller matches the caller's first room for the listing with
      any seller, and fails when there is none. */
  lemma MissingSellerDropsFilter(st: Store, known: Referents, buyerId: UserId, productId: ProductId, now: int)
    requires Valid(st)
    ensures var r := FindOrCreate(st, known, None, buyerId, Some(productId), now);
            && (r.Ok? <==> exists id :: id in st.rooms && st.rooms[id].buyerId == buyerId
                                                      && st.rooms[id].productId == productId)
            && (r.Ok? ==> r.value.0 == st && r.value.1.buyerId == buyerId && r.value.1.productId == productId)
  {
    var r := FindOrCreate(st, known, None, buyerId, Some(productId), now);
    if r.Ok? {
      assert r.value.1.id in st.rooms;
    }
  }

  // ---------------------------------------------------------------------------------
  // getChatRooms

  /** A room as listed for one user. */
  datatype RoomView = RoomView(room: Room, unreadCount: nat, otherUserId: UserId, lastMessage: Option<Message>)

  function ViewFor(room: Room, user: UserId): RoomView {
    RoomView(room, CountUnread(room.messages, user), OtherUser(room, user), LastMessage(room))
  }

  /** The user's rooms with id below `n`, in id order. */
  function Participating(st: Store, user: UserId, n: nat): (rs: seq<Room>)
    requires Valid(st)
    ensures forall i :: 0 <= i < |rs| ==>
              rs[i].id < n && rs[i].id in st.rooms && st.rooms[rs[i].id] == rs[i] && IsParticipant(rs[i], user)
    ensures forall id :: id < n && id in st.rooms && IsParticipant(st.rooms[id], user) ==> st.rooms[id] in rs
    ensures forall i, j :: 0 <= i < j < |rs| ==> rs[i].id < rs[j].id
  {
    if n == 0 then []
    else
      var prev := Participating(st, user, n - 1);
      if n - 1 in st.rooms && IsParticipant(st.rooms[n - 1], user) then prev + [st.rooms[n - 1]] else prev
  }

  function RoomRank(room: Room): Sorting.Rank {
    Sorting.Rank(room.updatedAt, 0, 0)
  }

  /** The user's rooms, most recently updated first, each exactly once. */
  function RoomsByRecency(st: Store, user: UserId): (rs: seq<Room>)
    requires Valid(st)
    ensures forall i :: 0 <= i < |rs| ==>
              rs[i].id in st.rooms && st.rooms[rs[i].id] == rs[i] && IsParticipant(rs[i], user)
    ensures forall id :: id in st.rooms && IsParticipant(st.rooms[id], user) ==> st.rooms[id] in rs
    ensures forall i, j :: 0 <= i < j < |rs| ==> rs[i].id != rs[j].id
    ensures Sorting.Descending(rs, RoomRank)
  {
    var found := Participating(st, user, st.nextRoomId);
    var sorted := Sorting.SortDescending(found, RoomRank);
    Sorting.PermutationKeepsDistinct(found, sorted);
    assert forall x :: x in sorted <==> x in found by {
      forall x ensures x in sorted <==> x in found {
        assert x in sorted <==> x in multiset(sorted);
        assert x in found <==> x in multiset(found);
      }
    }
    forall i | 0 <= i < |sorted|
      ensures sorted[i].id in st.rooms && st.rooms[sorted[i].id] == sorted[i] && IsParticipant(sorted[i], user)
    {
      assert sorted[i] in found;
    }
    forall i, j | 0 <= i < j < |sorted|
      ensures sorted[i].id != sorted[j].id
    {
      assert sorted[i] != sorted[j];
      assert sorted[i] in found && sorted[j] in found;
    }
    sorted
  }

  function ViewsFor(rooms: seq<Room>, user: UserId): (r: seq<RoomView>)
    ensures |r| == |rooms|
    ensures forall i :: 0 <= i < |rooms| ==> r[i] == ViewFor(rooms[i], user)
  {
    seq(|rooms|, i requires 0 <= i < |rooms| => ViewFor(rooms[i], user))
  }

  lemma ListedRoomsAreStored(st: Store, user: UserId)
    requires Valid(st)
    ensures var r := ViewsFor(RoomsByRecency(st, user), user);
            forall i :: 0 <= i < |r| ==>
              r[i].room.id in st.rooms && st.rooms[r[i].room.id] == r[i].room && IsParticipant(r[i].room, user)
  {
    var rooms := RoomsByRecency(st, user);
    var views := ViewsFor(rooms, user);
    forall i | 0 <= i < |views|
      ensures views[i].room.id in st.rooms && st.rooms[views[i].room.id] == views[i].room
              && IsParticipant(views[i].room, user)
    {
      assert views[i].room == rooms[i];
    }
  }

  lemma ListedRoomsAreComplete(st: Store, user: UserId)
    requires Valid(st)
    ensures var r := ViewsFor(RoomsByRecency(st, user), user);
            forall id :: id in st.rooms && IsParticipant(st.rooms[id], user) ==>
              exists i :: 0 <= i < |r| && r[i].room.id == id
  {
    var rooms := RoomsByRecency(st, user);
    var views := ViewsFor(rooms, user);
    forall id | id in st.rooms && IsParticipant(st.rooms[id], user)
      ensures exists i :: 0 <= i < |views| && views[i].room.id == id
    {
      var i :| 0 <= i < |rooms| && rooms[i] == st.rooms[id];
      assert views[i].room.id == id;
    }
  }

  lemma ListedRoomsAreOrdered(st: Store, user: UserId)
    requires Valid(st)
    ensures var r := ViewsFor(RoomsByRecency(st, user), user);
            && (forall i, j :: 0 <= i < j < |r| ==> r[i].room.id != r[j].room.id)
            && (forall i, j :: 0 <= i < j < |r| ==> r[i].room.updatedAt >= r[j].room.updatedAt)
  {
    var rooms := RoomsByRecency(st, user);
    var views := ViewsFor(rooms, user);
    forall i, j | 0 <= i < j < |views|
      ensures views[i].room.id != views[j].room.id
      ensures views[i].room.updatedAt >= views[j].room.updatedAt
    {
      assert views[i].room == rooms[i] && views[j].room == rooms[j];
      assert Sorting.AtLeast(RoomRank(rooms[i]), RoomRank(rooms[j]));
    }
  }

  /** Every room the user takes part in, most recently updated first, each decorated
      with the unread count, the other participant and the newest message. */
  function GetChatRooms(st: Store, user: UserId): (r: seq<RoomView>)
    requires Valid(st)
    ensures forall i :: 0 <= i < |r| ==>
              r[i].room.id in st.rooms && st.rooms[r[i].room.id] == r[i].room && IsParticipant(r[i].room, user)
    ensures forall id :: id in st.rooms && IsParticipant(st.rooms[id], user) ==>
              exists i :: 0 <= i < |r| && r[i].room.id == id
    ensures forall i, j :: 0 <= i < j < |r| ==> r[i].room.id != r[j].room.id
    ensures forall i, j :: 0 <= i < j < |r| ==> r[i].room.updatedAt >= r[j].room.updatedAt
    ensures forall i :: 0 <= i < |r| ==>
              && r[i].unreadCount == CountUnread(r[i].room.messages, user)
              && r[i].otherUserId == (if r[i].room.sellerId == user then r[i].room.buyerId else r[i].room.sellerId)
              && r[i].lastMessage == LastMessage(r[i].room)
  {
    ListedRoomsAreStored(st, user);
    ListedRoomsAreComplete(st, user);
    ListedRoomsAreOrdered(st, user);
    ViewsFor(RoomsByRecency(st, user), user)
  }

  // ---------------------------------------------------------------------------------
  // getChatRoom

  datatype RoomDetail = RoomDetail(room: Room, otherUserId: UserId)

  /** One room, for a participant, decorated with the other participant. */
  function GetChatRoom(st: Store, roomId: RoomId, user: UserId): (r: Result<RoomDetail>)
    ensures r.Ok? <==> Authorize(st, roomId, user).Ok?
    ensures r.Err? ==> r.error == Authorize(st, roomId, user).error
    ensures r.Ok? ==> r.value.room == st.rooms[roomId]
                      && IsParticipant(r.value.room, r.value.otherUserId)
                      && (r.value.room.sellerId != r.value.room.buyerId ==> r.value.otherUserId != user)
  {
    var room :- Authorize(st, roomId, user);
    Ok(RoomDetail(room, OtherUser(room, user)))
  }

  // ---------------------------------------------------------------------------------
  // getMessages

  datatype MessagePage = MessagePage(data: seq<Message>, pagination: Paging.PageInfo)

  /** One page of the log: newest-first `skip`/`take` with `skip = (page - 1) * limit`,
      then reversed so the page reads oldest-first. The service takes the numbers as it
      is handed them: a negative skip is refused by the query, a zero limit takes no
      rows, and a negative limit takes rows from the oldest end. */
  function GetMessages(st: Store, roomId: RoomId, user: UserId, page: int, limit: int): (r: Result<MessagePage>)
    ensures Authorize(st, roomId, user).Err? ==> r == Err(Authorize(st, roomId, user).error)
    ensures Authorize(st, roomId, user).Ok? ==> (r.Ok? <==> (page - 1) * limit >= 0)
    ensures Authorize(st, roomId, user).Ok? && r.Err? ==> r.error == StoreRejected
    ensures r.Ok? ==>
              var log := st.rooms[roomId].messages;
              && r.value.pagination == Paging.Meta(page, limit, |log|)
              && (limit >= 1 ==> r.value.data == log[Max(0, |log| - page * limit)..Max(0, |log| - (page - 1) * limit)])
              && (limit == 0 ==> r.value.data == [])
              && (limit < 0 ==> r.value.data == log[Min((page - 1) * limit, |log|)..Min((page - 1) * limit - limit, |log|)])
  {
    var room :- Authorize(st, roomId, user);
    var rows :- Paging.NewestFirstQuery(room.messages, page, limit);
    Ok(MessagePage(rows, Paging.Meta(page, limit, |room.messages|)))
  }

  /** Reading the pages from the last back to the first gives the whole log, oldest
      first: no message is skipped or repeated across pages. */
  lemma MessagePagesCoverLog(st: Store, roomId: RoomId, user: UserId, limit: int)
    requires limit >= 1
    requires Authorize(st, roomId, user).Ok?
    ensures var log := st.rooms[roomId].messages;
            Paging.ChronologicalPages(log, limit, Paging.Meta(1, limit, |log|).totalPages.n) == log
  {
    Paging.ChronologicalPagesCoverAll(st.rooms[roomId].messages, limit);
  }

  /** With 120 messages and 50 per page, page 2 holds the 21st to the 70th message in
      chronological order, and there are 3 pages. */
  lemma HundredTwentyMessagesPageTwo(st: Store, roomId: RoomId, user: UserId)
    requires Authorize(st, roomId, user).Ok?
    requires |st.rooms[roomId].messages| == 120
    ensures var r := GetMessages(st, roomId, user, 2, 50);
            && r.Ok?
            && r.value.data == st.rooms[roomId].messages[20..70]
            && r.value.pagination.totalPages == Paging.Whole(3)
            && r.value.pagination.hasNext && r.value.pagination.hasPrev
  {
    var m := Paging.Meta(2, 50, 120);
    assert m.totalPages == Paging.Whole(3) by {
      assert m.totalPages.n * 50 >= 120;
      assert m.totalPages.n == 0 || (m.totalPages.n - 1) * 50 < 120;
    }
  }

  // ---------------------------------------------------------------------------------
  // sendMessage

  /** Appends one message from a participant and refreshes the room's `updatedAt`. The
      participant check comes first; an unknown type or a missing content (`None`, as
      an unchecked body allows) is refused by the insert itself. */
  function SendMessage(st: Store, roomId: RoomId, senderId: UserId, content: Option<string>, kind: string, now: int)
    : (r: Result<(Store, Message)>)
    ensures r.Ok? <==> Authorize(st, roomId, senderId).Ok? && KindFromWire(kind).Ok? && content.Some?
    ensures r.Err? && Authorize(st, roomId, senderId).Err? ==> r.error == Authorize(st, roomId, senderId).error
    ensures r.Err? && Authorize(st, roomId, senderId).Ok? ==> r.error == StoreRejected
    ensures r.Ok? ==>
              var (st', m) := r.value;
              var room := st.rooms[roomId];
              && m == Message(st.nextMessageId, roomId, senderId, content.value, KindFromWire(kind).value, false, now)
              && st'.rooms.Keys == st.rooms.Keys
              && st'.rooms[roomId] == room.(messages := room.messages + [m], updatedAt := now)
              && (forall id :: id in st.rooms && id != roomId ==> st'.rooms[id] == st.rooms[id])
              && st'.nextRoomId == st.nextRoomId
              && st'.nextMessageId == st.nextMessageId + 1
  {
    var room :- Authorize(st, roomId, senderId);
    var k :- KindFromWire(kind);
    var text :- if content.Some? then Ok(content.value) else Err(StoreRejected);
    var m := Message(st.nextMessageId, roomId, senderId, text, k, false, now);
    var room' := room.(messages := room.messages + [m], updatedAt := now);
    Ok((Store(st.rooms[roomId := room'], st.nextRoomId, st.nextMessageId + 1), m))
  }

  /** After a send, the message is the room's newest, the other participant has one more
      unread message and the sender's own unread count is unchanged. */
  lemma SendMessageEffects(st: Store, roomId: RoomId, senderId: UserId, content: Option<string>, kind: string, now: int, reader: UserId)
    requires SendMessage(st, roomId, senderId, content, kind, now).Ok?
    ensures var (st', m) := SendMessage(st, roomId, senderId, content, kind, now).value;
            && LastMessage(st'.rooms[roomId]) == Some(m)
            && CountUnread(st'.rooms[roomId].messages, reader)
               == CountUnread(st.rooms[roomId].messages, reader) + (if reader != senderId then 1 else 0)
  {
    var (st', m) := SendMessage(st, roomId, senderId, content, kind, now).value;
    var log := st.rooms[roomId].messages;
    var log' := st'.rooms[roomId].messages;
    assert log' == log + [m];
    assert log'[..|log'| - 1] == log;
  }

  /** Sending keeps the store well formed. */
  lemma SendMessageKeepsValid(st: Store, roomId: RoomId, senderId: UserId, content: Option<string>, kind: string, now: int)
    requires Valid(st)
    requires SendMessage(st, roomId, senderId, content, kind, now).Ok?
    ensures Valid(SendMessage(st, roomId, senderId, content, kind, now).value.0)
  {
  }

  // ---------------------------------------------------------------------------------
  // markMessagesAsRead

  /** `updateMany` over one log: unread messages not sent by `user` become read. */
  function MarkedFor(ms: seq<Message>, user: UserId): (r: seq<Message>)
    ensures |r| == |ms|
    ensures forall i :: 0 <= i < |ms| ==>
              r[i] == (if UnreadFor(ms[i], user) then ms[i].(isRead := true) else ms[i])
  {
    if |ms| == 0 then [] else [if UnreadFor(ms[0], user) then ms[0].(isRead := true) else ms[0]] + MarkedFor(ms[1..], user)
  }

  /** Marks the room's messages read for a participant; no other room is touched. */
  function MarkRead(st: Store, roomId: RoomId, user: UserId): (r: Result<Store>)
    ensures r.Ok? <==> Authorize(st, roomId, user).Ok?
    ensures r.Err? ==> r.error == Authorize(st, roomId, user).error
    ensures r.Ok? ==>
              && r.value.rooms.Keys == st.rooms.Keys
              && r.value.rooms[roomId] == st.rooms[roomId].(messages := MarkedFor(st.rooms[roomId].messages, user))
              && (forall id :: id in st.rooms && id != roomId ==> r.value.rooms[id] == st.rooms[id])
              && r.value.nextRoomId == st.nextRoomId && r.value.nextMessageId == st.nextMessageId
  {
    var room :- Authorize(st, roomId, user);
    Ok(st.(rooms := st.rooms[roomId := room.(messages := MarkedFor(room.messages, user))]))
  }

  /** After marking, nothing in the room is unread for the user. */
  lemma MarkReadClearsUnread(st: Store, roomId: RoomId, user: UserId)
    requires MarkRead(st, roomId, user).Ok?
    ensures CountUnread(MarkRead(st, roomId, user).value.rooms[roomId].messages, user) == 0
  {
    var ms := MarkRead(st, roomId, user).value.rooms[roomId].messages;
    NoUnreadIffCountZero(ms, user);
  }

  /** Read flags only go from false to true, and the user's own messages keep theirs:
      the other participant's unread count is untouched. */
  lemma MarkReadIsOneWay(st: Store, roomId: RoomId, user: UserId)
    requires MarkRead(st, roomId, user).Ok?
    ensures var before := st.rooms[roomId].messages;
            var after := MarkRead(st, roomId, user).value.rooms[roomId].messages;
            && |after| == |before|
            && (forall i :: 0 <= i < |before| && before[i].isRead ==> after[i].isRead)
            && (forall i :: 0 <= i < |before| && before[i].senderId == user ==> after[i] == before[i])
            && (forall i :: 0 <= i < |before| ==> after[i] == before[i].(isRead := after[i].isRead))
  {
  }

  /** Marking twice has the same effect as marking once. */
  lemma MarkReadIdempotent(st: Store, roomId: RoomId, user: UserId)
    requires MarkRead(st, roomId, user).Ok?
    ensures MarkRead(MarkRead(st, roomId, user).value, roomId, user) == MarkRead(st, roomId, user)
  {
    var st1 := MarkRead(st, roomId, user).value;
    var ms1 := st1.rooms[roomId].messages;
    assert MarkedFor(ms1, user) == ms1;
    assert st1.rooms[roomId := st1.rooms[roomId].(messages := ms1)] == st1.rooms;
  }

  // ---------------------------------------------------------------------------------
  // deleteChatRoom

  /** Removes the room and its log for good (a hard delete). */
  function DeleteRoom(st: Store, roomId: RoomId, user: UserId): (r: Result<Store>)
    ensures r.Ok? <==> Authorize(st, roomId, user).Ok?
    ensures r.Err? ==> r.error == Authorize(st, roomId, user).error
    ensures r.Ok? ==> r.value.rooms == st.rooms - {roomId}
                      && r.value.nextRoomId == st.nextRoomId && r.value.nextMessageId == st.nextMessageId
  {
    var _ :- Authorize(st, roomId, user);
    Ok(st.(rooms := st.rooms - {roomId}))
  }

  /** After a delete, every user gets NotFound for the room, it is gone from both
      participants' lists, and asking for the same triple again creates a fresh, empty
      room under a new id. */
  lemma DeletedRoomIsGone(st: Store, known: Referents, roomId: RoomId, user: UserId, anyone: UserId, now: int)
    requires Valid(st) && UniqueTriples(st)
    requires DeleteRoom(st, roomId, user).Ok?
    ensures var st' := DeleteRoom(st, roomId, user).value;
            && Valid(st')
            && GetChatRoom(st', roomId, anyone) == Err(NotFound)
            && (forall v :: v in GetChatRooms(st', anyone) ==> v.room.id != roomId)
            && var room := st.rooms[roomId];
               var again := FindOrCreate(st', known, Some(room.sellerId), room.buyerId, Some(room.productId), now);
               && (again.Ok? <==> Insertable(known, Some(room.sellerId), room.buyerId, Some(room.productId)))
               && (again.Ok? ==> again.value.1.id != roomId && again.value.1.messages == [])
  {
    var st' := DeleteRoom(st, roomId, user).value;
    var room := st.rooms[roomId];
    forall id | id in st'.rooms
      ensures !HasTriple(st'.rooms[id], room.sellerId, room.buyerId, room.productId)
    {
      assert id in st.rooms && id != roomId && st'.rooms[id] == st.rooms[id];
    }
  }
}

=== FILE: common.dfy ===
/** Identifiers, optional values and the error taxonomy shared by every service of the
    marketplace backend. Database-generated ids (cuid strings in the Prisma schema) are modelled as
    natural numbers handed out by counters in each store. */
module Common {

  type UserId = nat
  type RoomId = nat
  type MessageId = nat
  type ProductId = nat
  type SocketId = nat

  datatype Option<+T> = None | Some(value: T) {
    function GetOr(default: T): T {
      match this
      case Some(v) => v
      case None => default
    }
  }

  /** Why a request was refused with HTTP 409. */
  datatype ConflictReason = EmailInUse | UsernameInUse | OwnProduct | AlreadyFavourite

  /** The exceptions the services throw, plus `StoreRejected` for a query the ORM itself
      refuses (an unknown sort column or order, a negative skip, an insert whose keys
      are missing or name no row). */
  datatype Error =
    | NotFound
    | Forbidden
    | BadRequest
    | Unauthorized
    | Conflict(reason: ConflictReason)
    | StoreRejected

  datatype Result<+T> = Ok(value: T) | Err(error: Error) {
    predicate IsFailure() {
      Err?
    }

    function PropagateFailure<U>(): Result<U>
      requires Err?
    {
      Err(error)
    }

    function Extract(): T
      requires Ok?
    {
      value
    }
  }

  function Max(a: int, b: int): int {
    if a >= b then a else b
  }

  function Min(a: int, b: int): int {
    if a <= b then a else b
  }
}

=== FILE: favorites.dfy ===
/** Wish lists: the set of (user, listing) pairs a user has marked, with the add and
    remove rules, the status and count queries, bulk removal and the paged list. */
module Favorites {
  import opened Common
  import Paging
  import Sorting
  import Products

  datatype Favourite = Favourite(userId: UserId, productId: ProductId, createdAt: int)

  /** The table in insertion order. */
  type Table = seq<Favourite>

  predicate SamePair(f: Favourite, userId: UserId, productId: ProductId) {
    f.userId == userId && f.productId == productId
  }

  /** The (user, product) unique index: no pair is stored twice. */
  ghost predicate Unique(favs: Table) {
    forall i, j :: 0 <= i < j < |favs| ==> !SamePair(favs[j], favs[i].userId, favs[i].productId)
  }

  predicate Has(favs: Table, userId: UserId, productId: ProductId) {
    exists i :: 0 <= i < |favs| && SamePair(favs[i], userId, productId)
  }

  /** The entries `drop` does not hold for, in their order: a `deleteMany`. */
  function Without(favs: Table, drop: Favourite -> bool): (r: Table)
    ensures forall f :: f in r <==> f in favs && !drop(f)
    ensures |r| <= |favs|
    ensures Unique(favs) ==> Unique(r)
  {
    if |favs| == 0 then []
    else
      var init := favs[..|favs| - 1];
      var last := favs[|favs| - 1];
      var prev := Without(init, drop);
      assert favs == init + [last];
      if drop(last) then prev
      else
        assert Unique(favs) ==> forall i :: 0 <= i < |prev| ==> !SamePair(last, prev[i].userId, prev[i].productId) by {
          if Unique(favs) {
            forall i | 0 <= i < |prev| ensures !SamePair(last, prev[i].userId, prev[i].productId) {
              assert prev[i] in init;
              var k :| 0 <= k < |init| && init[k] == prev[i];
              assert favs[k] == prev[i];
            }
          }
        }
        prev + [last]
  }

  /** How many entries `drop` holds for. */
  function CountWhere(favs: Table, drop: Favourite -> bool): (n: nat)
    ensures n <= |favs|
  {
    if |favs| == 0 then 0
    else CountWhere(favs[..|favs| - 1], drop) + (if drop(favs[|favs| - 1]) then 1 else 0)
  }

  /** Deleting entries removes exactly as many as match. */
  lemma {:induction false} WithoutRemovesCount(favs: Table, drop: Favourite -> bool)
    ensures |Without(favs, drop)| + CountWhere(favs, drop) == |favs|
  {
    if |favs| > 0 {
      WithoutRemovesCount(favs[..|favs| - 1], drop);
    }
  }

  /** Under the unique index a stored pair is matched by exactly one entry. */
  lemma {:induction false} StoredPairCountsOnce(favs: Table, userId: UserId, productId: ProductId)
    requires Unique(favs)
    ensures CountWhere(favs, f => SamePair(f, userId, productId)) == (if Has(favs, userId, productId) then 1 else 0)
  {
    if |favs| > 0 {
      var init := favs[..|favs| - 1];
      var last := favs[|favs| - 1];
      assert Unique(init);
      StoredPairCountsOnce(init, userId, productId);
      if SamePair(last, userId, productId) {
        forall i | 0 <= i < |init| ensures !SamePair(init[i], userId, productId) {
          assert !SamePair(favs[|favs| - 1], favs[i].userId, favs[i].productId);
        }
      }
      assert Has(favs, userId, productId) <==> Has(init, userId, productId) || SamePair(last, userId, productId) by {
        if Has(favs, userId, productId) {
          var i :| 0 <= i < |favs| && SamePair(favs[i], userId, productId);
          if i < |init| {
            assert SamePair(init[i], userId, productId);
          }
        }
        if Has(init, userId, productId) {
          var i :| 0 <= i < |init| && SamePair(init[i], userId, productId);
          assert SamePair(favs[i], userId, productId);
        }
      }
    }
  }

  /** `POST /favorites/:productId`: NotFound for an unknown listing (of any status),
      Conflict for one's own listing, Conflict for a pair already stored; otherwise the
      one new pair is appended. */
  function Add(favs: Table, cat: Products.Catalogue, userId: UserId, productId: ProductId, now: int)
    : (r: Result<(Table, Favourite)>)
    requires Unique(favs)
    ensures productId !in cat.products ==> r == Err(NotFound)
    ensures productId in cat.products && cat.products[productId].sellerId == userId ==> r == Err(Conflict(OwnProduct))
    ensures r.Ok? <==> && productId in cat.products && cat.products[productId].sellerId != userId
                       && !Has(favs, userId, productId)
    ensures r.Err? && productId in cat.products && cat.products[productId].sellerId != userId ==>
              r.error == Conflict(AlreadyFavourite)
    ensures r.Ok? ==>
              && r.value.1 == Favourite(userId, productId, now)
              && r.value.0 == favs + [r.value.1]
              && Unique(r.value.0)
              && Has(r.value.0, userId, productId)
  {
    if productId !in cat.products then Err(NotFound)
    else if cat.products[productId].sellerId == userId then Err(Conflict(OwnProduct))
    else if Has(favs, userId, productId) then Err(Conflict(AlreadyFavourite))
    else
      var f := Favourite(userId, productId, now);
      var favs' := favs + [f];
      assert SamePair(favs'[|favs|], userId, productId);
      Ok((favs', f))
  }

  /** `DELETE /favorites/:productId`: NotFound unless the pair is stored; otherwise
      exactly that pair goes. */
  function Remove(favs: Table, userId: UserId, productId: ProductId): (r: Result<Table>)
    requires Unique(favs)
    ensures r.Ok? <==> Has(favs, userId, productId)
    ensures r.Err? ==> r.error == NotFound
    ensures r.Ok? ==>
              && Unique(r.value)
              && !Has(r.value, userId, productId)
              && |r.value| == |favs| - 1
              && (forall f :: f in r.value <==> f in favs && !SamePair(f, userId, productId))
  {
    if !Has(favs, userId, productId) then Err(NotFound)
    else
      var favs' := Without(favs, f => SamePair(f, userId, productId));
      WithoutRemovesCount(favs, f => SamePair(f, userId, productId));
      StoredPairCountsOnce(favs, userId, productId);
      assert !Has(favs', userId, productId) by {
        forall i | 0 <= i < |favs'| ensures !SamePair(favs'[i], userId, productId) {
          assert favs'[i] in favs';
        }
      }
      Ok(favs')
  }

  /** Removing what was just added gives back the table. */
  lemma RemoveUndoesAdd(favs: Table, cat: Products.Catalogue, userId: UserId, productId: ProductId, now: int)
    requires Unique(favs)
    requires Add(favs, cat, userId, productId, now).Ok?
    ensures Remove(Add(favs, cat, userId, productId, now).value.0, userId, productId) == Ok(favs)
  {
    var favs' := Add(favs, cat, userId, productId, now).value.0;
    NothingToDropKeepsAll(favs, f => SamePair(f, userId, productId));
    assert favs'[..|favs'| - 1] == favs;
  }

  lemma {:induction false} NothingToDropKeepsAll(favs: Table, drop: Favourite -> bool)
    requires forall i :: 0 <= i < |favs| ==> !drop(favs[i])
    ensures Without(favs, drop) == favs
  {
    if |favs| > 0 {
      NothingToDropKeepsAll(favs[..|favs| - 1], drop);
      assert favs[..|favs| - 1] + [favs[|favs| - 1]] == favs;
    }
  }

  /** `GET /favorites/:productId/status`. */
  function IsFavorite(favs: Table, userId: UserId, productId: ProductId): (b: bool)
    ensures b <==> exists f :: f in favs && f.userId == userId && f.productId == productId
  {
    if Has(favs, userId, productId) then
      var i :| 0 <= i < |favs| && SamePair(favs[i], userId, productId);
      assert favs[i] in favs;
      true
    else
      false
  }

  /** Adding makes the status true; removing makes it false. */
  lemma StatusFollowsAddAndRemove(favs: Table, cat: Products.Catalogue, userId: UserId, productId: ProductId, now: int)
    requires Unique(favs)
    ensures Add(favs, cat, userId, productId, now).Ok? ==>
              IsFavorite(Add(favs, cat, userId, productId, now).value.0, userId, productId)
    ensures Remove(favs, userId, productId).Ok? ==>
              !IsFavorite(Remove(favs, userId, productId).value, userId, productId)
    ensures Add(favs, cat, userId, productId, now) == Err(Conflict(AlreadyFavourite)) <==>
              && productId in cat.products && cat.products[productId].sellerId != userId
              && IsFavorite(favs, userId, productId)
  {
  }

  predicate OfProduct(f: Favourite, productId: ProductId) {
    f.productId == productId
  }

  /** `getFavoriteCount`: how many users have marked the listing. */
  function FavoriteCount(favs: Table, productId: ProductId): (n: nat)
    ensures n <= |favs|
    ensures n == 0 <==> forall f :: f in favs ==> f.productId != productId
  {
    CountOfProductZero(favs, productId);
    CountWhere(favs, f => OfProduct(f, productId))
  }

  lemma {:induction false} CountOfProductZero(favs: Table, productId: ProductId)
    ensures CountWhere(favs, f => OfProduct(f, productId)) == 0 <==> forall f :: f in favs ==> f.productId != productId
  {
    if |favs| > 0 {
      var init := favs[..|favs| - 1];
      CountOfProductZero(init, productId);
      assert favs == init + [favs[|favs| - 1]];
    }
  }

  /** A successful add counts one more for that listing, and a successful removal one
      fewer. */
  lemma CountFollowsAddAndRemove(favs: Table, cat: Products.Catalogue, userId: UserId, productId: ProductId, now: int)
    requires Unique(favs)
    ensures Add(favs, cat, userId, productId, now).Ok? ==>
              FavoriteCount(Add(favs, cat, userId, productId, now).value.0, productId) == FavoriteCount(favs, productId) + 1
    ensures Remove(favs, userId, productId).Ok? ==>
              FavoriteCount(Remove(favs, userId, productId).value, productId) + 1 == FavoriteCount(favs, productId)
  {
    if Add(favs, cat, userId, productId, now).Ok? {
      var favs' := Add(favs, cat, userId, productId, now).value.0;
      assert favs'[..|favs'| - 1] == favs;
    }
    if Remove(favs, userId, productId).Ok? {
      RemoveCountsOneLess(favs, userId, productId);
    }
  }

  lemma {:induction false} RemoveCountsOneLess(favs: Table, userId: UserId, productId: ProductId)
    requires Unique(favs) && Has(favs, userId, productId)
    ensures CountWhere(Without(favs, f => SamePair(f, userId, productId)), f => OfProduct(f, productId)) + 1
            == CountWhere(favs, f => OfProduct(f, productId))
  {
    var init := favs[..|favs| - 1];
    var last := favs[|favs| - 1];
    assert favs == init + [last];
    assert Unique(init);
    if SamePair(last, userId, productId) {
      forall i | 0 <= i < |init| ensures !SamePair(init[i], userId, productId) {
        assert !SamePair(favs[|favs| - 1], favs[i].userId, favs[i].productId);
      }
      NothingToDropKeepsAll(init, f => SamePair(f, userId, productId));
    } else {
      var i :| 0 <= i < |favs| && SamePair(favs[i], userId, productId);
      assert i < |init| && SamePair(init[i], userId, productId);
      RemoveCountsOneLess(init, userId, productId);
    }
  }

  /** The `deleteMany` filter. The body is not validated, so the list may be missing;
      Prisma then drops the `in` filter and only the user filter is left. */
  predicate InList(f: Favourite, userId: UserId, productIds: Option<seq<ProductId>>) {
    f.userId == userId && (productIds.None? || f.productId in productIds.value)
  }

  /** `DELETE /favorites`: drops the caller's pairs whose listing is in the list and
      reports how many went. Listings in the list the caller never marked are ignored. */
  function RemoveMany(favs: Table, userId: UserId, productIds: Option<seq<ProductId>>): (r: (Table, nat))
    requires Unique(favs)
    ensures Unique(r.0)
    ensures forall f :: f in r.0 <==> f in favs && !InList(f, userId, productIds)
    ensures r.1 == |favs| - |r.0|
    ensures r.1 == CountWhere(favs, f => InList(f, userId, productIds))
  {
    var favs' := Without(favs, f => InList(f, userId, productIds));
    WithoutRemovesCount(favs, f => InList(f, userId, productIds));
    (favs', |favs| - |favs'|)
  }

  /** Another user's wish list is never touched by a bulk removal. */
  lemma RemoveManySparesOthers(favs: Table, userId: UserId, productIds: Option<seq<ProductId>>, f: Favourite)
    requires Unique(favs)
    requires f in favs && f.userId != userId
    ensures f in RemoveMany(favs, userId, productIds).0
  {
  }

  /** A body without `productIds` empties the caller's whole wish list, and the count
      reported is the number of entries they had. */
  lemma MissingListDropsAll(favs: Table, userId: UserId)
    requires Unique(favs)
    ensures var (favs', n) := RemoveMany(favs, userId, None);
            && !(exists f :: f in favs' && f.userId == userId)
            && (forall f :: f in favs && f.userId != userId ==> f in favs')
            && n == |UserList(favs, userId)|
  {
    var (favs', n) := RemoveMany(favs, userId, None);
    assert forall f :: InList(f, userId, None) == OfUser(f, userId);
    SameFilterSameCount(favs, f => InList(f, userId, None), f => OfUser(f, userId));
  }

  lemma {:induction false} SameFilterSameCount(favs: Table, p: Favourite -> bool, q: Favourite -> bool)
    requires forall f :: p(f) == q(f)
    ensures CountWhere(favs, p) == CountWhere(favs, q)
  {
    if |favs| > 0 {
      SameFilterSameCount(favs[..|favs| - 1], p, q);
    }
  }

  predicate OfUser(f: Favourite, userId: UserId) {
    f.userId == userId
  }

  function Newest(f: Favourite): Sorting.Rank {
    Sorting.Rank(f.createdAt, 0, 0)
  }

  /** Each entry is at least as new as the next one. */
  predicate NewestFirst(fs: seq<Favourite>) {
    |fs| <= 1 || (fs[0].createdAt >= fs[1].createdAt && NewestFirst(fs[1..]))
  }

  /** A list sorted by `Newest` is newest first. */
  lemma {:induction false} SortedIsNewestFirst(fs: seq<Favourite>)
    requires Sorting.Descending(fs, Newest)
    ensures NewestFirst(fs)
    decreases |fs|
  {
    if |fs| >= 2 {
      assert Sorting.AtLeast(Newest(fs[0]), Newest(fs[1]));
      var tail := fs[1..];
      assert forall i, j :: 0 <= i < j < |tail| ==> Sorting.AtLeast(Newest(tail[i]), Newest(tail[j])) by {
        forall i, j | 0 <= i < j < |tail| ensures Sorting.AtLeast(Newest(tail[i]), Newest(tail[j])) {
          assert tail[i] == fs[i + 1] && tail[j] == fs[j + 1];
        }
      }
      SortedIsNewestFirst(tail);
    }
  }

  /** Newest first means no entry is older than any entry after it. */
  lemma {:induction false} NewestFirstIsPairwise(fs: seq<Favourite>, i: int, j: int)
    requires NewestFirst(fs)
    requires 0 <= i < j < |fs|
    ensures fs[i].createdAt >= fs[j].createdAt
    decreases j, j - i
  {
    if i + 1 < j {
      NewestFirstIsPairwise(fs, i, j - 1);
      NewestFirstIsPairwise(fs, j - 1, j);
    } else if i > 0 {
      assert fs[1..][i - 1] == fs[i] && fs[1..][j - 1] == fs[j];
      NewestFirstIsPairwise(fs[1..], i - 1, j - 1);
    }
  }

  /** The user's entries, newest first (ties in insertion order). */
  function UserList(favs: Table, userId: UserId): (r: seq<Favourite>)
    ensures forall f :: f in r <==> f in favs && f.userId == userId
    ensures |r| == CountWhere(favs, f => OfUser(f, userId))
    ensures NewestFirst(r)
  {
    var mine := Without(favs, f => !OfUser(f, userId));
    WithoutRemovesCount(favs, f => !OfUser(f, userId));
    ComplementCounts(favs, userId);
    var r := Sorting.SortDescending(mine, Newest);
    forall f ensures f in r <==> f in mine {
      Sorting.SortKeepsMembers(mine, Newest, f);
    }
    SortedIsNewestFirst(r);
    r
  }

  datatype FavouritePage = FavouritePage(data: seq<ProductId>, pagination: Paging.PageInfo)

  /** The listings of a run of entries (each entry carries its listing). */
  function ProductsOf(fs: seq<Favourite>): (ps: seq<ProductId>)
    ensures |ps| == |fs|
    ensures forall i :: 0 <= i < |fs| ==> ps[i] == fs[i].productId
  {
    seq(|fs|, i requires 0 <= i < |fs| => fs[i].productId)
  }

  /** `GET /favorites`: the caller's marked listings, newest mark first, one page at a
      time. An absent or empty query parameter takes the default, page 1 and 10 per
      page; any other text reaches the service as its number, zero included. A negative
      skip makes the query fail, a zero limit takes nothing, and a negative limit takes
      rows from the oldest end. */
  function GetFavorites(favs: Table, userId: UserId, page: Option<int>, limit: Option<int>): (r: Result<FavouritePage>)
    ensures r.Ok? <==> (page.GetOr(1) - 1) * limit.GetOr(10) >= 0
    ensures r.Err? ==> r.error == StoreRejected
    ensures r.Ok? ==> r.value.pagination == Paging.Meta(page.GetOr(1), limit.GetOr(10), |UserList(favs, userId)|)
    ensures var p, l := page.GetOr(1), limit.GetOr(10);
            (p - 1) * l >= 0 ==> r.value.data == ProductsOf(Paging.PageRows(UserList(favs, userId), p, l))
  {
    ListPage(UserList(favs, userId), page.GetOr(1), limit.GetOr(10))
  }

  /** One page of a list of entries, as the service's `findMany` and `count` give it. */
  function ListPage(all: seq<Favourite>, p: int, l: int): (r: Result<FavouritePage>)
    ensures r.Ok? <==> (p - 1) * l >= 0
    ensures r.Err? ==> r.error == StoreRejected
    ensures r.Ok? ==> r.value.pagination == Paging.Meta(p, l, |all|)
    ensures r.Ok? ==> r.value.data == ProductsOf(Paging.PageRows(all, p, l))
  {
    var rows :- Paging.SkipTakeAny(all, (p - 1) * l, l);
    Paging.PageRowsIsQuery(all, p, l);
    Ok(FavouritePage(ProductsOf(rows), Paging.Meta(p, l, |all|)))
  }

  lemma PageIsRowsOfList(favs: Table, userId: UserId, page: Option<int>, limit: Option<int>)
    requires GetFavorites(favs, userId, page, limit).Ok?
    ensures (page.GetOr(1) - 1) * limit.GetOr(10) >= 0
    ensures GetFavorites(favs, userId, page, limit).value.data
         == ProductsOf(Paging.PageRows(UserList(favs, userId), page.GetOr(1), limit.GetOr(10)))
  {
  }

  /** Every listing on a page is one the user has marked. */
  lemma FavouritePageHoldsOwnMarks(favs: Table, userId: UserId, page: Option<int>, limit: Option<int>, i: int)
    requires GetFavorites(favs, userId, page, limit).Ok?
    requires 0 <= i < |GetFavorites(favs, userId, page, limit).value.data|
    ensures IsFavorite(favs, userId, GetFavorites(favs, userId, page, limit).value.data[i])
  {
    var all := UserList(favs, userId);
    var f := ListPageFromList(all, page.GetOr(1), limit.GetOr(10), i);
    assert f in favs && f.userId == userId;
  }

  /** Each listing on a page of a list comes from an entry of that list. */
  lemma ListPageFromList(all: seq<Favourite>, p: int, l: int, i: int) returns (f: Favourite)
    requires ListPage(all, p, l).Ok?
    requires 0 <= i < |ListPage(all, p, l).value.data|
    ensures f in all && ListPage(all, p, l).value.data[i] == f.productId
  {
    var rows := Paging.PageRows(all, p, l);
    f := rows[i];
  }

  /** A page holds no more listings than the limit's size. */
  lemma FavouritePageIsBounded(favs: Table, userId: UserId, page: Option<int>, limit: Option<int>)
    requires GetFavorites(favs, userId, page, limit).Ok?
    ensures var l := limit.GetOr(10);
            |GetFavorites(favs, userId, page, limit).value.data| <= if l >= 0 then l else -l
  {
    PageIsRowsOfList(favs, userId, page, limit);
  }

  /** `?page=0` is refused and `?limit=0` gives an empty page: neither takes a default. */
  lemma ZeroQueriesAreNotDefaults(favs: Table, userId: UserId)
    ensures GetFavorites(favs, userId, Some(0), None) == Err(StoreRejected)
    ensures var r := GetFavorites(favs, userId, None, Some(0));
            r.Ok? && r.value.data == [] && r.value.pagination.limit == 0
  {
  }

  /** Walking the pages from 1 to `totalPages` lists every one of the user's marks. */
  lemma FavouritePagesCoverList(favs: Table, userId: UserId, limit: Option<int>)
    requires limit.GetOr(10) >= 1
    ensures var all := UserList(favs, userId);
            var l := limit.GetOr(10);
            && GetFavorites(favs, userId, None, limit).Ok?
            && Paging.PagesUpTo(all, l, GetFavorites(favs, userId, None, limit).value.pagination.totalPages.n) == all
  {
    Paging.PagesCoverAll(UserList(favs, userId), limit.GetOr(10));
  }

  lemma {:induction false} ComplementCounts(favs: Table, userId: UserId)
    ensures CountWhere(favs, f => OfUser(f, userId)) + CountWhere(favs, f => !OfUser(f, userId)) == |favs|
  {
    if |favs| > 0 {
      ComplementCounts(favs[..|favs| - 1], userId);
    }
  }
}

=== FILE: image_upload.dfy ===
/** The listing form's image picker: which selected files are admitted for upload, how
    the uploaded URLs join the list, and how removing a picture keeps the main-image
    pointer on the same picture. The upload request itself is a parameter. */
module ImageUpload {
  import opened Common

  /** The attributes of a selected file the picker looks at. */
  datatype FileInfo = FileInfo(name: string, mimeType: string, size: nat)

  /** Why a single file is turned away (each raises its own notice). */
  datatype Reason = UnsupportedType | TooLarge

  /** What a selection leads to. */
  datatype Outcome =
    | NothingSelected
    | TooMany(maxImages: nat)
    | NothingValid
    | UploadFailed
    | Uploaded(urls: seq<string>)

  /** The default cap on pictures per listing. */
  const DefaultMaxImages: nat := 10

  /** 5 MB, the largest accepted file. */
  const MaxFileBytes: nat := 5 * 1024 * 1024

  /** The MIME types `^image/(jpg|jpeg|png|gif|webp)$` matches. */
  const AcceptedTypes: seq<string> := ["image/jpg", "image/jpeg", "image/png", "image/gif", "image/webp"]

  /** The notice a file raises: the type is checked before the size. */
  function Verdict(f: FileInfo): (v: Option<Reason>)
    ensures v.None? <==> f.mimeType in AcceptedTypes && f.size <= MaxFileBytes
    ensures v == Some(UnsupportedType) <==> f.mimeType !in AcceptedTypes
  {
    if f.mimeType !in AcceptedTypes then Some(UnsupportedType)
    else if f.size > MaxFileBytes then Some(TooLarge)
    else None
  }

  predicate Acceptable(f: FileInfo) {
    Verdict(f).None?
  }

  /** The files that pass, in selection order. */
  function ValidFiles(files: seq<FileInfo>): (r: seq<FileInfo>)
    ensures |r| <= |files|
    ensures forall f :: f in r <==> f in files && Acceptable(f)
    ensures (forall i :: 0 <= i < |files| ==> Acceptable(files[i])) ==> r == files
    ensures (forall i :: 0 <= i < |files| ==> !Acceptable(files[i])) ==> r == []
  {
    if |files| == 0 then []
    else
      var rest := ValidFiles(files[1..]);
      assert files == [files[0]] + files[1..];
      if Acceptable(files[0]) then [files[0]] + rest else rest
  }

  /** The (name, reason) notices raised, in selection order. */
  function Rejections(files: seq<FileInfo>): (r: seq<(string, Reason)>)
    ensures |r| + |ValidFiles(files)| == |files|
    ensures forall f :: f in files && !Acceptable(f) ==> (f.name, Verdict(f).value) in r
  {
    if |files| == 0 then []
    else
      var rest := Rejections(files[1..]);
      assert files == [files[0]] + files[1..];
      match Verdict(files[0])
      case None => rest
      case Some(why) => [(files[0].name, why)] + rest
  }

  /** `handleFileSelect`: the image list afterwards and what happened. `upload` sends the
      valid files and yields their URLs, or `None` when the request fails. */
  function HandleFileSelect(images: seq<string>, files: seq<FileInfo>, maxImages: nat,
                            upload: seq<FileInfo> -> Option<seq<string>>): (r: (seq<string>, Outcome))
    ensures |files| == 0 <==> r.1 == NothingSelected
    ensures r.1 == TooMany(maxImages) <==> |files| > 0 && |images| + |files| > maxImages
    ensures r.1 == NothingValid <==>
              |files| > 0 && |images| + |files| <= maxImages && ValidFiles(files) == []
    ensures r.1 == UploadFailed <==>
              |files| > 0 && |images| + |files| <= maxImages && ValidFiles(files) != []
              && upload(ValidFiles(files)).None?
    ensures r.1.Uploaded? ==> upload(ValidFiles(files)) == Some(r.1.urls) && r.0 == images + r.1.urls
    ensures !r.1.Uploaded? ==> r.0 == images
  {
    if |files| == 0 then (images, NothingSelected)
    else if |images| + |files| > maxImages then (images, TooMany(maxImages))
    else
      var valid := ValidFiles(files);
      if valid == [] then (images, NothingValid)
      else match upload(valid)
        case None => (images, UploadFailed)
        case Some(urls) => (images + urls, Uploaded(urls))
  }

  /** With one URL back per uploaded file, the list never grows past the cap: the
      count check covers the rejected files too, so it is conservative. */
  lemma UploadRespectsCap(images: seq<string>, files: seq<FileInfo>, maxImages: nat,
                          upload: seq<FileInfo> -> Option<seq<string>>)
    requires |images| <= maxImages
    requires forall fs :: upload(fs).Some? ==> |upload(fs).value| == |fs|
    ensures |HandleFileSelect(images, files, maxImages, upload).0| <= maxImages
  {
    var r := HandleFileSelect(images, files, maxImages, upload);
    if r.1.Uploaded? {
      assert |r.1.urls| == |ValidFiles(files)| <= |files|;
    }
  }

  /** The cap counts every selected file, so one good picture selected together with
      ten unsupported ones is refused outright. */
  lemma CapCountsRejectedFiles(good: FileInfo, bad: FileInfo, upload: seq<FileInfo> -> Option<seq<string>>)
    requires Acceptable(good) && !Acceptable(bad)
    ensures HandleFileSelect([], [good] + seq(10, _ => bad), DefaultMaxImages, upload).1 == TooMany(10)
    ensures ValidFiles([good] + seq(10, _ => bad)) == [good]
  {
    var files := [good] + seq(10, _ => bad);
    assert files[1..] == seq(10, _ => bad);
  }

  /** `handleRemoveImage`: the list without position `index`, and the adjusted main index. */
  function RemoveImage(images: seq<string>, mainIndex: int, index: int): (r: (seq<string>, int))
    ensures 0 <= index < |images| ==> |r.0| == |images| - 1
    ensures 0 <= index < |images| ==>
              forall i :: 0 <= i < |r.0| ==> r.0[i] == images[if i < index then i else i + 1]
    ensures !(0 <= index < |images|) ==> r.0 == images
    ensures index == mainIndex ==> r.1 == 0
    ensures index < mainIndex ==> r.1 == mainIndex - 1
    ensures index > mainIndex ==> r.1 == mainIndex
  {
    var kept := if 0 <= index < |images| then images[..index] + images[index + 1..] else images;
    var main := if index == mainIndex then 0 else if index < mainIndex then mainIndex - 1 else mainIndex;
    (kept, main)
  }

  /** Removing any picture but the main one keeps the main index on the same URL;
      removing the main one hands the role to the first remaining picture. */
  lemma RemovalKeepsMainPicture(images: seq<string>, mainIndex: int, index: int)
    requires 0 <= index < |images| && 0 <= mainIndex < |images|
    ensures var r := RemoveImage(images, mainIndex, index);
            index != mainIndex ==> 0 <= r.1 < |r.0| && r.0[r.1] == images[mainIndex]
    ensures var r := RemoveImage(images, mainIndex, index);
            index == mainIndex ==> r.1 == 0 && (|r.0| > 0 ==> r.0[0] == images[if index == 0 then 1 else 0])
  {
  }

  /** Removal drops exactly the one occurrence at `index`. */
  lemma RemovalDropsOne(images: seq<string>, mainIndex: int, index: int)
    requires 0 <= index < |images|
    ensures multiset(RemoveImage(images, mainIndex, index).0) + multiset{images[index]} == multiset(images)
  {
    assert images == images[..index] + [images[index]] + images[index + 1..];
  }
}

=== FILE: jwt_client.dfy ===
/** The browser-side token helpers: reading the payload of an access token without
    checking its signature, deciding whether it has expired against the wall clock, and
    dropping an expired token from local storage. The clock and the base64/JSON decoder
    are parameters. */
module JwtClient {
  import opened Common
  import opened Text

  /** The payload fields the helpers read; a missing `iat` or `exp` is `None`. */
  datatype Claims = Claims(sub: string, email: string, username: string, iat: Option<int>, exp: Option<int>)

  /** `JSON.parse(atob(b64))`, with `None` standing for either call throwing. */
  type PayloadParser = string -> Option<Claims>

  /** The two character swaps that turn base64url text into base64 text. */
  function FromBase64Url(p: string): (r: string)
    ensures |r| == |p|
    ensures '-' !in r && '_' !in r
    ensures forall i :: 0 <= i < |p| && p[i] != '-' && p[i] != '_' ==> r[i] == p[i]
    ensures forall i :: 0 <= i < |p| && p[i] == '-' ==> r[i] == '+'
    ensures forall i :: 0 <= i < |p| && p[i] == '_' ==> r[i] == '/'
  {
    var r := ReplaceAllChar(ReplaceAllChar(p, '-', '+'), '_', '/');
    assert forall i :: 0 <= i < |r| ==> r[i] != '-' && r[i] != '_';
    r
  }

  /** The largest distance from the epoch, in milliseconds, that a JavaScript `Date`
      can hold (8.64e15 ms, the ECMAScript time range). */
  const MaxTimeMs := 8_640_000_000_000_000

  /** Whether `decodeJwt`'s debug log can print a time claim: a falsy claim prints as
      null, and a truthy one becomes `new Date(claim * 1000)`, whose `toISOString`
      throws a RangeError outside the time range. */
  predicate Printable(t: Option<int>) {
    t.None? || t.value == 0 || -MaxTimeMs <= 1000 * t.value <= MaxTimeMs
  }

  /** What the `try` block returns once the payload is parsed: the claims, unless the
      debug log throws on `iat` or `exp` and the `catch` turns that into `None`. */
  function Logged(c: Option<Claims>): (r: Option<Claims>)
    ensures r.Some? <==> c.Some? && Printable(c.value.iat) && Printable(c.value.exp)
    ensures r.Some? ==> r == c
  {
    if c.Some? && Printable(c.value.iat) && Printable(c.value.exp) then c else None
  }

  /** `decodeJwt`: a token must have exactly three '.'-separated parts; the middle one
      is decoded, and any decoding failure, or a time claim the log cannot print,
      yields `None`. */
  function DecodeJwt(token: string, parse: PayloadParser): (r: Option<Claims>)
    ensures CountChar(token, '.') != 2 ==> r == None
    ensures r.Some? ==> exists payload :: payload in Split(token, '.') && r == parse(FromBase64Url(payload))
    ensures r.Some? ==> Printable(r.value.iat) && Printable(r.value.exp)
  {
    var parts := Split(token, '.');
    if |parts| != 3 then None
    else Logged(parse(FromBase64Url(parts[1])))
  }

  /** A well-formed token `header.payload.signature` is decoded from its middle part. */
  lemma DecodeReadsPayload(header: string, payload: string, signature: string, parse: PayloadParser)
    requires '.' !in header && '.' !in payload && '.' !in signature
    ensures DecodeJwt(header + "." + payload + "." + signature, parse) == Logged(parse(FromBase64Url(payload)))
  {
    var parts := [header, payload, signature];
    SplitJoin(parts, '.');
    assert parts[1..][1..] == [signature];
    assert Join(parts[1..], '.') == payload + "." + signature;
    assert Join(parts, '.') == header + "." + payload + "." + signature;
  }

  /** The expiry second, when the token decodes and carries a truthy `exp`. */
  function ExpiryOf(token: string, parse: PayloadParser): (e: Option<int>)
    ensures e.Some? <==> DecodeJwt(token, parse).Some? && DecodeJwt(token, parse).value.exp.Some?
                         && DecodeJwt(token, parse).value.exp.value != 0
    ensures e.Some? ==> e.value == DecodeJwt(token, parse).value.exp.value
    ensures e.Some? ==> -MaxTimeMs <= 1000 * e.value <= MaxTimeMs
  {
    match DecodeJwt(token, parse)
    case None => None
    case Some(c) => if c.exp.None? || c.exp.value == 0 then None else c.exp
  }

  /** `isTokenExpired` at wall-clock time `nowMs` (milliseconds). */
  function IsTokenExpired(token: string, nowMs: int, parse: PayloadParser): (b: bool)
    ensures ExpiryOf(token, parse).None? ==> b
    ensures ExpiryOf(token, parse).Some? ==> (b <==> 1000 * ExpiryOf(token, parse).value <= nowMs)
  {
    match ExpiryOf(token, parse)
    case None => true
    case Some(exp) => nowMs / 1000 >= exp
  }

  /** The token is already expired at the start of its `exp` second and valid just before. */
  lemma ExpiresAtExactSecond(token: string, parse: PayloadParser)
    requires ExpiryOf(token, parse).Some?
    ensures IsTokenExpired(token, 1000 * ExpiryOf(token, parse).value, parse)
    ensures !IsTokenExpired(token, 1000 * ExpiryOf(token, parse).value - 1, parse)
  {
  }

  /** Once expired, a token stays expired. */
  lemma ExpiryIsPermanent(token: string, nowMs: int, laterMs: int, parse: PayloadParser)
    requires nowMs <= laterMs
    requires IsTokenExpired(token, nowMs, parse)
    ensures IsTokenExpired(token, laterMs, parse)
  {
  }

  /** A well-formed token whose `exp` lies beyond the `Date` range has no expiry as far
      as the helpers can tell, so it counts as expired at every moment. */
  lemma UnprintableExpiryIsExpired(header: string, payload: string, signature: string, parse: PayloadParser,
                                   nowMs: int)
    requires '.' !in header && '.' !in payload && '.' !in signature
    requires parse(FromBase64Url(payload)).Some?
    requires parse(FromBase64Url(payload)).value.exp.Some?
    requires 1000 * parse(FromBase64Url(payload)).value.exp.value > MaxTimeMs
    ensures ExpiryOf(header + "." + payload + "." + signature, parse) == None
    ensures IsTokenExpired(header + "." + payload + "." + signature, nowMs, parse)
  {
    DecodeReadsPayload(header, payload, signature, parse);
  }

  /** `getTokenRemainingMinutes`: whole minutes until expiry, never negative. */
  function RemainingMinutes(token: string, nowMs: int, parse: PayloadParser): (m: int)
    ensures m >= 0
    ensures ExpiryOf(token, parse).None? ==> m == 0
    ensures ExpiryOf(token, parse).Some? && m > 0 ==>
              60 * m <= ExpiryOf(token, parse).value - nowMs / 1000 < 60 * (m + 1)
    ensures ExpiryOf(token, parse).Some? && m == 0 ==> ExpiryOf(token, parse).value - nowMs / 1000 < 60
  {
    match ExpiryOf(token, parse)
    case None => 0
    case Some(exp) => Max(0, (exp - nowMs / 1000) / 60)
  }

  /** An expired token has no minutes left. */
  lemma ExpiredHasNoMinutes(token: string, nowMs: int, parse: PayloadParser)
    requires IsTokenExpired(token, nowMs, parse)
    ensures RemainingMinutes(token, nowMs, parse) == 0
  {
  }

  /** A token with a minute left is not expired. */
  lemma MinutesLeftMeansValid(token: string, nowMs: int, parse: PayloadParser)
    requires RemainingMinutes(token, nowMs, parse) > 0
    ensures !IsTokenExpired(token, nowMs, parse)
  {
  }

  /** `getValidToken` over the stored `accessToken` entry: the token it returns (if
      any) and the entry afterwards. A missing or empty entry is left alone; an
      expired one is removed. */
  function GetValidToken(stored: Option<string>, nowMs: int, parse: PayloadParser): (r: (Option<string>, Option<string>))
    ensures r.0.Some? <==> stored.Some? && stored.value != "" && !IsTokenExpired(stored.value, nowMs, parse)
    ensures r.0.Some? ==> r.0 == stored
    ensures r.1 == stored || r.1 == None
    ensures r.1 == None <==> stored.None? || (stored.value != "" && IsTokenExpired(stored.value, nowMs, parse))
  {
    match stored
    case None => (None, None)
    case Some(token) =>
      if token == "" then (None, stored)
      else if IsTokenExpired(token, nowMs, parse) then (None, None)
      else (Some(token), stored)
  }

  /** Whatever was stored, afterwards the entry holds nothing, the empty string, or a
      token that is still valid. */
  lemma StorageHoldsNoExpiredToken(stored: Option<string>, nowMs: int, parse: PayloadParser)
    ensures var after := GetValidToken(stored, nowMs, parse).1;
            after.None? || after.value == "" || !IsTokenExpired(after.value, nowMs, parse)
  {
  }

  /** Asking again at the same moment gives the same answer and changes nothing. */
  lemma GetValidTokenIsIdempotent(stored: Option<string>, nowMs: int, parse: PayloadParser)
    ensures var first := GetValidToken(stored, nowMs, parse);
            GetValidToken(first.1, nowMs, parse) == (first.0, first.1)
  {
  }

  /** Once no valid token is returned, none is returned later either. */
  lemma NoTokenStaysNoToken(stored: Option<string>, nowMs: int, laterMs: int, parse: PayloadParser)
    requires nowMs <= laterMs
    requires GetValidToken(stored, nowMs, parse).0.None?
    ensures GetValidToken(GetValidToken(stored, nowMs, parse).1, laterMs, parse).0.None?
  {
    if stored.Some? && stored.value != "" {
      ExpiryIsPermanent(stored.value, nowMs, laterMs, parse);
    }
  }
}

=== FILE: paging.dfy ===
/** Offset pagination as the services do it: `skip = (page - 1) * limit`, `take = limit`,
    and the metadata block `{page, limit, total, totalPages, hasNext, hasPrev}` with
    `totalPages = Math.ceil(total / limit)`. */
module Paging {
  import opened Common

  lemma MulMonotone(a: int, b: int, d: int)
    requires a <= b && d >= 0
    ensures a * d <= b * d
  {
    assert b * d - a * d == (b - a) * d;
  }

  lemma MulNonNegative(a: int, b: int)
    requires a >= 0 && b >= 0
    ensures a * b >= 0
  {
  }

  /** `Math.ceil(n / d)` on non-negative integers. */
  function CeilDiv(n: nat, d: nat): (q: nat)
    requires d > 0
    ensures q * d >= n
    ensures q == 0 || (q - 1) * d < n
    ensures n == 0 <==> q == 0
  {
    var q := (n + d - 1) / d;
    var r := (n + d - 1) % d;
    assert n + d - 1 == q * d + r && 0 <= r < d;
    assert (q - 1) * d == q * d - d;
    q
  }

  /** A JavaScript number as `Math.ceil` of a quotient can produce it: a whole number,
      `Infinity` for a positive count over zero, or `NaN` for zero over zero. */
  datatype JsNumber = Whole(n: int) | Infinity | NaN

  /** `Math.ceil(n / d)` for any whole divisor. */
  function JsCeilDiv(n: nat, d: int): (c: JsNumber)
    ensures d > 0 ==> c == Whole(CeilDiv(n, d))
    ensures d == 0 ==> (c == NaN <==> n == 0) && (c == Infinity <==> n > 0)
    ensures d < 0 ==> c.Whole? && c.n <= 0 && c.n * d <= n < (c.n - 1) * d
  {
    if d > 0 then Whole(CeilDiv(n, d))
    else if d == 0 then (if n == 0 then NaN else Infinity)
    else
      var q := n / (-d);
      var r := n % (-d);
      assert n == q * (-d) + r && 0 <= r < -d;
      assert (-q - 1) * d == q * (-d) - d;
      Whole(-q)
  }

  /** JavaScript's `x < c`: every whole number is below `Infinity`, none below `NaN`. */
  predicate JsLess(x: int, c: JsNumber) {
    match c
    case Whole(n) => x < n
    case Infinity => true
    case NaN => false
  }

  datatype PageInfo = PageInfo(page: int, limit: int, total: nat, totalPages: JsNumber, hasNext: bool, hasPrev: bool)

  /** With `pages = ceil(total / limit)`, page `page` is followed by another page exactly
      when rows remain after it. */
  lemma BeforeLastPage(page: int, pages: nat, limit: int, total: nat)
    requires limit >= 1
    requires pages * limit >= total
    requires pages == 0 || (pages - 1) * limit < total
    ensures page < pages <==> page * limit < total
  {
    if page < pages {
      MulMonotone(page, pages - 1, limit);
    } else {
      MulMonotone(pages, page, limit);
    }
  }

  /** The pagination block returned next to a page of data, for any page and limit the
      service is handed: `totalPages = Math.ceil(total / limit)`, `hasNext` is
      `page < totalPages` and `hasPrev` is `page > 1`. */
  function Meta(page: int, limit: int, total: nat): (m: PageInfo)
    ensures m.page == page && m.limit == limit && m.total == total
    ensures m.totalPages == JsCeilDiv(total, limit)
    ensures limit >= 1 ==> (m.hasNext <==> page * limit < total)
    ensures limit == 0 ==> (m.hasNext <==> total > 0)
    ensures m.hasPrev <==> page > 1
  {
    var pages := JsCeilDiv(total, limit);
    var m := PageInfo(page, limit, total, pages, JsLess(page, pages), page > 1);
    assert limit >= 1 ==> (m.hasNext <==> page * limit < total) by {
      if limit >= 1 {
        BeforeLastPage(page, pages.n, limit, total);
      }
    }
    m
  }

  /** The rows a page shows: skip `(page - 1) * limit`, take at most `limit`. */
  function Window<T>(xs: seq<T>, page: int, limit: int): (w: seq<T>)
    requires page >= 1 && limit >= 1
    ensures |w| == Min(limit, Max(0, |xs| - (page - 1) * limit))
    ensures forall i :: 0 <= i < |w| ==> w[i] == xs[(page - 1) * limit + i]
  {
    MulMonotone(0, page - 1, limit);
    SkipTake(xs, (page - 1) * limit, limit)
  }

  /** Prisma's `skip`/`take` on an ordered result. */
  function SkipTake<T>(xs: seq<T>, skip: nat, take: nat): seq<T> {
    if skip >= |xs| then [] else xs[skip..Min(skip + take, |xs|)]
  }

  /** Prisma's `skip` and `take` for any whole numbers: a negative `skip` is refused; a
      negative `take` reads `-take` rows counting back from the end, past the last `skip`
      rows, and keeps the order. */
  function SkipTakeAny<T>(xs: seq<T>, skip: int, take: int): (r: Result<seq<T>>)
    ensures r.Err? <==> skip < 0
    ensures r.Err? ==> r.error == StoreRejected
    ensures r.Ok? && take >= 0 ==> r.value == xs[Min(skip, |xs|)..Min(skip + take, |xs|)]
    ensures r.Ok? && take < 0 ==> r.value == xs[Max(0, |xs| - skip + take)..Max(0, |xs| - skip)]
  {
    if skip < 0 then Err(StoreRejected)
    else if take >= 0 then Ok(SkipTake(xs, skip, take))
    else
      var back := Reverse(SkipTake(Reverse(xs), skip, -take));
      ReversedSkipTake(xs, skip, -take);
      Ok(back)
  }

  /** `r` is what `take: limit` with no skip returns from `xs`: the first `limit` rows
      for a non-negative limit, the last `-limit` rows for a negative one, and all rows
      when there are fewer. */
  ghost predicate Taken<T>(r: seq<T>, xs: seq<T>, limit: int) {
    && |r| <= |xs| && |r| <= (if limit >= 0 then limit else -limit)
    && (limit >= 0 ==> r == xs[..|r|])
    && (limit < 0 ==> r == xs[|xs| - |r|..])
    && (|r| == (if limit >= 0 then limit else -limit) || r == xs)
  }

  /** Without a skip the query is never refused, and it returns the taken rows; each of
      them is a row of `xs`. */
  lemma TakeWithoutSkip<T>(xs: seq<T>, limit: int)
    ensures SkipTakeAny(xs, 0, limit).Ok?
    ensures Taken(SkipTakeAny(xs, 0, limit).value, xs, limit)
    ensures forall x :: x in SkipTakeAny(xs, 0, limit).value ==> x in xs
  {
  }

  /** For a positive page and limit the query is the page's window. */
  lemma SkipTakeAnyIsWindow<T>(xs: seq<T>, page: int, limit: int)
    requires page >= 1 && limit >= 1
    ensures SkipTakeAny(xs, (page - 1) * limit, limit) == Ok(Window(xs, page, limit))
  {
    MulMonotone(0, page - 1, limit);
    var w := Window(xs, page, limit);
    var v := SkipTakeAny(xs, (page - 1) * limit, limit).value;
    assert |v| == |w|;
    assert forall i :: 0 <= i < |w| ==> v[i] == w[i];
  }

  lemma SkipIsPageStart(page: int, limit: int)
    requires (page - 1) * limit >= 0 && limit >= 1
    ensures page >= 1
  {
    if page < 1 {
      MulMonotone(page - 1, -1, limit);
    }
  }

  /** The rows a query with `skip = (page - 1) * limit` and `take = limit` returns when
      the skip is not negative: the page's window for a positive limit, nothing for a
      zero limit, and for a negative limit the `-limit` rows before the last `skip`. */
  function PageRows<T>(xs: seq<T>, page: int, limit: int): (w: seq<T>)
    requires (page - 1) * limit >= 0
    ensures limit >= 1 ==> page >= 1 && w == Window(xs, page, limit)
    ensures limit == 0 ==> w == []
    ensures limit < 0 ==>
              w == xs[Max(0, |xs| - (page - 1) * limit + limit)..Max(0, |xs| - (page - 1) * limit)]
    ensures |w| <= if limit >= 0 then limit else -limit
    ensures forall x :: x in w ==> x in xs
  {
    if limit >= 1 then
      SkipIsPageStart(page, limit);
      SkipTakeAnyIsWindow(xs, page, limit);
      SkipTakeAny(xs, (page - 1) * limit, limit).value
    else
      SkipTakeAny(xs, (page - 1) * limit, limit).value
  }

  /** With a non-negative skip the query succeeds and returns the page's rows. */
  lemma PageRowsIsQuery<T>(xs: seq<T>, page: int, limit: int)
    requires (page - 1) * limit >= 0
    ensures SkipTakeAny(xs, (page - 1) * limit, limit) == Ok(PageRows(xs, page, limit))
  {
  }

  /** Pages `1..k` laid end to end. */
  function PagesUpTo<T>(xs: seq<T>, limit: int, k: nat): seq<T>
    requires limit >= 1
  {
    if k == 0 then [] else PagesUpTo(xs, limit, k - 1) + Window(xs, k, limit)
  }

  lemma {:induction false} PagesUpToIsPrefix<T>(xs: seq<T>, limit: int, k: nat)
    requires limit >= 1
    ensures PagesUpTo(xs, limit, k) == xs[..Min(k * limit, |xs|)]
  {
    if k > 0 {
      PagesUpToIsPrefix(xs, limit, k - 1);
      MulMonotone(k - 1, k, limit);
      MulMonotone(0, k - 1, limit);
      assert (k - 1) * limit + limit == k * limit;
      var w := Window(xs, k, limit);
      var lo := Min((k - 1) * limit, |xs|);
      var hi := Min(k * limit, |xs|);
      assert w == xs[lo..hi];
      assert xs[..lo] + xs[lo..hi] == xs[..hi];
    }
  }

  /** Pagination completeness: walking every page from 1 to `totalPages` yields every
      row exactly once and in order. */
  lemma PagesCoverAll<T>(xs: seq<T>, limit: int)
    requires limit >= 1
    ensures PagesUpTo(xs, limit, Meta(1, limit, |xs|).totalPages.n) == xs
  {
    var pages := Meta(1, limit, |xs|).totalPages.n;
    PagesUpToIsPrefix(xs, limit, pages);
    assert xs[..|xs|] == xs;
  }

  /** A page past the last one is empty. */
  lemma PastTheEndIsEmpty<T>(xs: seq<T>, page: int, limit: int)
    requires page >= 1 && limit >= 1
    requires page > Meta(page, limit, |xs|).totalPages.n
    ensures Window(xs, page, limit) == []
  {
    var pages := Meta(page, limit, |xs|).totalPages.n;
    MulMonotone(pages, page - 1, limit);
  }

  function Reverse<T>(xs: seq<T>): (r: seq<T>)
    ensures |r| == |xs|
    ensures forall i :: 0 <= i < |xs| ==> r[i] == xs[|xs| - 1 - i]
  {
    seq(|xs|, i requires 0 <= i < |xs| => xs[|xs| - 1 - i])
  }

  /** Reversing, skipping `skip` rows, taking `take`, and reversing back picks the
      contiguous slice that ends `skip` rows before the end. */
  lemma ReversedSkipTake<T>(xs: seq<T>, skip: nat, take: nat)
    ensures Reverse(SkipTake(Reverse(xs), skip, take))
         == xs[Max(0, |xs| - skip - take)..Max(0, |xs| - skip)]
  {
    var r := Reverse(xs);
    var lo := Max(0, |xs| - skip - take);
    var hi := Max(0, |xs| - skip);
    if skip < |r| {
      var e := Min(skip + take, |r|);
      var w := r[skip..e];
      assert SkipTake(r, skip, take) == w;
      assert |w| == hi - lo;
      forall i | 0 <= i < |w|
        ensures Reverse(w)[i] == xs[lo..hi][i]
      {
        assert Reverse(w)[i] == w[|w| - 1 - i];
        assert w[|w| - 1 - i] == r[skip + |w| - 1 - i];
      }
    }
  }

  /** A page taken newest-first from a chronological log and then reversed is the
      contiguous chronological slice that ends `(page - 1) * limit` rows before the
      newest row. */
  lemma NewestFirstPageIsSlice<T>(xs: seq<T>, page: int, limit: int)
    requires page >= 1 && limit >= 1
    ensures Reverse(Window(Reverse(xs), page, limit))
         == xs[Max(0, |xs| - page * limit)..Max(0, |xs| - (page - 1) * limit)]
  {
    MulMonotone(0, page - 1, limit);
    var skip: nat := (page - 1) * limit;
    var upto := page * limit;
    assert upto == skip + limit;
    assert Window(Reverse(xs), page, limit) == SkipTake(Reverse(xs), skip, limit);
    ReversedSkipTake(xs, skip, limit);
    assert Max(0, |xs| - skip - limit) == Max(0, |xs| - upto);
  }

  /** A slice of the reversed sequence, reversed back, is the mirrored slice. */
  lemma ReverseSlice<T>(xs: seq<T>, a: int, b: int)
    requires 0 <= a <= b <= |xs|
    ensures Reverse(Reverse(xs)[a..b]) == xs[|xs| - b..|xs| - a]
  {
    var w := Reverse(xs)[a..b];
    forall i | 0 <= i < |w|
      ensures Reverse(w)[i] == xs[|xs| - b..|xs| - a][i]
    {
      assert Reverse(w)[i] == w[|w| - 1 - i] == Reverse(xs)[a + |w| - 1 - i];
    }
  }

  /** A page of a chronological log queried newest first with any page and limit, put
      back in chronological order. A positive limit gives the slice ending
      `(page - 1) * limit` rows before the newest row; a zero limit gives nothing; a
      negative limit reads from the oldest row on. */
  function NewestFirstQuery<T>(xs: seq<T>, page: int, limit: int): (r: Result<seq<T>>)
    ensures r.Err? <==> (page - 1) * limit < 0
    ensures r.Err? ==> r.error == StoreRejected
    ensures r.Ok? && limit >= 1 ==>
              r.value == xs[Max(0, |xs| - page * limit)..Max(0, |xs| - (page - 1) * limit)]
    ensures r.Ok? && limit == 0 ==> r.value == []
    ensures r.Ok? && limit < 0 ==>
              r.value == xs[Min((page - 1) * limit, |xs|)..Min((page - 1) * limit - limit, |xs|)]
  {
    var rows :- SkipTakeAny(Reverse(xs), (page - 1) * limit, limit);
    var skip := (page - 1) * limit;
    var n := |xs|;
    assert limit >= 0 ==> rows == Reverse(xs)[Min(skip, n)..Min(skip + limit, n)];
    assert limit < 0 ==> rows == Reverse(xs)[Max(0, n - skip + limit)..Max(0, n - skip)];
    var lo := if limit >= 0 then Min(skip, n) else Max(0, n - skip + limit);
    var hi := if limit >= 0 then Min(skip + limit, n) else Max(0, n - skip);
    ReverseSlice(xs, lo, hi);
    assert page * limit == skip + limit;
    Ok(Reverse(rows))
  }

  /** Pages `k, k-1, ..., 1` of a newest-first listing, each put back in chronological
      order, laid end to end. */
  function ChronologicalPages<T>(xs: seq<T>, limit: int, k: nat): seq<T>
    requires limit >= 1
  {
    if k == 0 then [] else Reverse(Window(Reverse(xs), k, limit)) + ChronologicalPages(xs, limit, k - 1)
  }

  lemma {:induction false} ChronologicalPagesIsSuffix<T>(xs: seq<T>, limit: int, k: nat)
    requires limit >= 1
    ensures ChronologicalPages(xs, limit, k) == xs[Max(0, |xs| - k * limit)..]
  {
    if k > 0 {
      var before := (k - 1) * limit;
      var upto := k * limit;
      assert 0 <= before && upto == before + limit by {
        MulMonotone(0, k - 1, limit);
      }
      var lo := Max(0, |xs| - upto);
      var mid := Max(0, |xs| - before);
      var page := Reverse(Window(Reverse(xs), k, limit));
      var rest := ChronologicalPages(xs, limit, k - 1);
      assert page == xs[lo..mid] by {
        NewestFirstPageIsSlice(xs, k, limit);
      }
      assert rest == xs[mid..] by {
        ChronologicalPagesIsSuffix(xs, limit, k - 1);
      }
      JoinSlices(xs, lo, mid);
    }
  }

  lemma JoinSlices<T>(xs: seq<T>, lo: int, mid: int)
    requires 0 <= lo <= mid <= |xs|
    ensures xs[lo..mid] + xs[mid..] == xs[lo..]
  {
  }

  /** Reading a newest-first paginated log from the last page back to page 1 gives the
      whole log in chronological order. */
  lemma ChronologicalPagesCoverAll<T>(xs: seq<T>, limit: int)
    requires limit >= 1
    ensures ChronologicalPages(xs, limit, Meta(1, limit, |xs|).totalPages.n) == xs
  {
    ChronologicalPagesIsSuffix(xs, limit, Meta(1, limit, |xs|).totalPages.n);
  }
}

=== FILE: products.dfy ===
/** The listing catalogue: creation from a validated body, the search and filter
    listing with pagination, detail view with view counting, owner-only update and soft
    delete, per-seller listing and the popular and recent listings. */
module Products {
  import opened Common
  import Text
  import Paging
  import Sorting
  import Tables

  datatype Category = Electronics | Fashion | Home | Books | Sports | Beauty | Toys | OtherCategory
  datatype Condition = New | LikeNew | Good | Fair | Poor
  datatype Status = Available | Reserved | Sold | Deleted

  /** The enum names the database and the enum validators accept. */
  function CategoryNamed(s: string): (c: Option<Category>)
    ensures c.Some? <==> s in {"ELECTRONICS", "FASHION", "HOME", "BOOKS", "SPORTS", "BEAUTY", "TOYS", "OTHER"}
  {
    if s == "ELECTRONICS" then Some(Electronics)
    else if s == "FASHION" then Some(Fashion)
    else if s == "HOME" then Some(Home)
    else if s == "BOOKS" then Some(Books)
    else if s == "SPORTS" then Some(Sports)
    else if s == "BEAUTY" then Some(Beauty)
    else if s == "TOYS" then Some(Toys)
    else if s == "OTHER" then Some(OtherCategory)
    else None
  }

  function ConditionNamed(s: string): (c: Option<Condition>)
    ensures c.Some? <==> s in {"NEW", "LIKE_NEW", "GOOD", "FAIR", "POOR"}
  {
    if s == "NEW" then Some(New)
    else if s == "LIKE_NEW" then Some(LikeNew)
    else if s == "GOOD" then Some(Good)
    else if s == "FAIR" then Some(Fair)
    else if s == "POOR" then Some(Poor)
    else None
  }

  function StatusNamed(s: string): (c: Option<Status>)
    ensures c.Some? <==> s in {"AVAILABLE", "RESERVED", "SOLD", "DELETED"}
  {
    if s == "AVAILABLE" then Some(Available)
    else if s == "RESERVED" then Some(Reserved)
    else if s == "SOLD" then Some(Sold)
    else if s == "DELETED" then Some(Deleted)
    else None
  }

  datatype Product = Product(
    id: ProductId,
    sellerId: UserId,
    title: string,
    description: string,
    price: int,
    images: seq<string>,
    mainImageIndex: Option<int>,
    category: Category,
    condition: Condition,
    status: Status,
    location: string,
    latitude: Option<real>,
    longitude: Option<real>,
    viewCount: nat,
    likeCount: nat,
    createdAt: int)

  datatype Catalogue = Catalogue(products: map<ProductId, Product>, nextId: ProductId)

  ghost predicate Valid(cat: Catalogue) {
    forall id :: id in cat.products ==> id < cat.nextId && cat.products[id].id == id
  }

  // ---------------------------------------------------------------------------------
  // Creation

  /** The creation body as it arrives; the enum fields are still names. The validation
      pipe has no whitelist, so keys outside the DTO reach the insert too: the last
      five fields are the listing columns such a key can name, and `stray` marks a key
      that names no column or carries a value of the wrong type. */
  datatype CreateProductBody = CreateProductBody(
    title: string,
    description: string,
    price: int,
    images: seq<string>,
    mainImageIndex: Option<int>,
    category: string,
    condition: string,
    location: string,
    latitude: Option<real>,
    longitude: Option<real>,
    sellerId: Option<UserId>,
    status: Option<string>,
    viewCount: Option<nat>,
    likeCount: Option<nat>,
    createdAt: Option<int>,
    stray: bool)

  predicate LengthIn(s: string, lo: nat, hi: nat) {
    lo <= |s| <= hi
  }

  /** The creation body's constraints. The documented ten-image maximum is not one. */
  predicate ValidCreateBody(b: CreateProductBody) {
    && LengthIn(b.title, 2, 100)
    && LengthIn(b.description, 10, 2000)
    && 100 <= b.price <= 99999999
    && (forall i :: 0 <= i < |b.images| ==> LengthIn(b.images[i], 0, 500))
    && (b.mainImageIndex.Some? ==> b.mainImageIndex.value >= 0)
    && CategoryNamed(b.category).Some?
    && ConditionNamed(b.condition).Some?
    && LengthIn(b.location, 0, 100)
    && (b.latitude.Some? ==> -90.0 <= b.latitude.value <= 90.0)
    && (b.longitude.Some? ==> -180.0 <= b.longitude.value <= 180.0)
  }

  /** The keys outside the DTO that make the store refuse the insert: a stray key, or
      a status that is not one of the enum names. */
  predicate InsertRefused(b: CreateProductBody) {
    b.stray || (b.status.Some? && StatusNamed(b.status.value).None?)
  }

  /** `POST /products`: the validation pipe refuses a bad body with BadRequest; a good
      one is spread into the insert with the caller as seller. A listing is available
      with no views or likes unless the body itself names those columns. */
  function Create(cat: Catalogue, b: CreateProductBody, sellerId: UserId, now: int): (r: Result<(Catalogue, Product)>)
    requires Valid(cat)
    ensures r.Err? <==> !ValidCreateBody(b) || InsertRefused(b)
    ensures r.Err? ==> r.error == (if ValidCreateBody(b) then StoreRejected else BadRequest)
    ensures r.Ok? ==>
              var (cat', p) := r.value;
              && Valid(cat')
              && p.id == cat.nextId && p.id !in cat.products
              && cat'.products == cat.products[p.id := p]
              && p.sellerId == sellerId
              && (b.status.None? ==> p.status == Available)
              && (b.status.Some? ==> Some(p.status) == StatusNamed(b.status.value))
              && p.viewCount == b.viewCount.GetOr(0) && p.likeCount == b.likeCount.GetOr(0)
              && p.createdAt == b.createdAt.GetOr(now)
              && p.title == b.title && p.description == b.description && p.price == b.price
              && p.images == b.images && p.mainImageIndex == b.mainImageIndex
              && Some(p.category) == CategoryNamed(b.category) && Some(p.condition) == ConditionNamed(b.condition)
              && p.location == b.location && p.latitude == b.latitude && p.longitude == b.longitude
  {
    if !ValidCreateBody(b) then Err(BadRequest)
    else if InsertRefused(b) then Err(StoreRejected)
    else
      var status := if b.status.Some? then StatusNamed(b.status.value).value else Available;
      var p := Product(cat.nextId, sellerId, b.title, b.description, b.price, b.images, b.mainImageIndex,
                       CategoryNamed(b.category).value, ConditionNamed(b.condition).value, status,
                       b.location, b.latitude, b.longitude, b.viewCount.GetOr(0), b.likeCount.GetOr(0),
                       b.createdAt.GetOr(now));
      Ok((Catalogue(cat.products[p.id := p], cat.nextId + 1), p))
  }

  /** A body holding only DTO fields creates an available listing of the caller with no
      views or likes, stamped now. */
  lemma PlainBodyCreatesFreshListing(cat: Catalogue, b: CreateProductBody, sellerId: UserId, now: int)
    requires Valid(cat) && ValidCreateBody(b)
    requires b.sellerId.None? && b.status.None? && b.viewCount.None? && b.likeCount.None?
    requires b.createdAt.None? && !b.stray
    ensures var r := Create(cat, b, sellerId, now);
            && r.Ok?
            && r.value.1.status == Available && r.value.1.viewCount == 0 && r.value.1.likeCount == 0
            && r.value.1.createdAt == now && r.value.1.sellerId == sellerId
  {
  }

  /** Undeclared keys are written as given: a body can create a listing that is already
      SOLD with 999 views. Only the seller is forced, since it is set after the spread. */
  lemma BodyPresetsColumns(cat: Catalogue, b: CreateProductBody, sellerId: UserId, other: UserId, now: int)
    requires Valid(cat) && ValidCreateBody(b) && !b.stray
    ensures var b' := b.(sellerId := Some(other), status := Some("SOLD"), viewCount := Some(999));
            var r := Create(cat, b', sellerId, now);
            && r.Ok?
            && r.value.1.status == Sold && r.value.1.viewCount == 999
            && r.value.1.sellerId == sellerId
  {
  }

  /** The boundaries of the creation constraints: a one-character title, a 99-won price,
      a 501-character image URL or a latitude of 91 is refused, while eleven images and
      a main index past the end of the list are accepted. */
  lemma CreateBoundaries(b: CreateProductBody)
    requires ValidCreateBody(b)
    ensures !ValidCreateBody(b.(title := "a"))
    ensures !ValidCreateBody(b.(price := 99))
    ensures ValidCreateBody(b.(price := 99999999)) && !ValidCreateBody(b.(price := 100000000))
    ensures |b.images| > 0 ==> !ValidCreateBody(b.(images := b.images[0 := seq(501, _ => 'x')]))
    ensures !ValidCreateBody(b.(latitude := Some(91.0)))
    ensures ValidCreateBody(b.(images := seq(11, _ => "x")))
    ensures ValidCreateBody(b.(mainImageIndex := Some(|b.images| + 5)))
  {
    var bad := b.(images := if |b.images| > 0 then b.images[0 := seq(501, _ => 'x')] else b.images);
    if |b.images| > 0 {
      assert |bad.images[0]| == 501;
    }
  }

  // ---------------------------------------------------------------------------------
  // Query validation

  /** The listing query as it is validated; `None` is an absent parameter. The numeric
      fields hold the numbers the validator checks. The service itself receives the query
      text, because the global validation pipe does not transform. */
  datatype ProductQuery = ProductQuery(
    search: Option<string>,
    category: Option<string>,
    condition: Option<string>,
    status: Option<string>,
    minPrice: Option<int>,
    maxPrice: Option<int>,
    location: Option<string>,
    sortBy: Option<string>,
    sortOrder: Option<string>,
    page: Option<int>,
    limit: Option<int>)

  /** The query's constraints: enum names, non-negative prices (in either order), a
      page of at least 1 and a limit between 1 and 100. The sort fields are only
      required to be strings. */
  predicate ValidQuery(q: ProductQuery) {
    && (q.category.Some? ==> CategoryNamed(q.category.value).Some?)
    && (q.condition.Some? ==> ConditionNamed(q.condition.value).Some?)
    && (q.status.Some? ==> StatusNamed(q.status.value).Some?)
    && (q.minPrice.Some? ==> q.minPrice.value >= 0)
    && (q.maxPrice.Some? ==> q.maxPrice.value >= 0)
    && (q.page.Some? ==> q.page.value >= 1)
    && (q.limit.Some? ==> 1 <= q.limit.value <= 100)
  }

  /** An inverted price range passes validation; it is the store that refuses the
      query, as it refuses every price bound (see `FindAll`). */
  lemma InvertedPriceRangeIsAccepted(cat: Catalogue, q: ProductQuery)
    requires Valid(cat) && ValidQuery(q)
    ensures var q' := q.(minPrice := Some(500), maxPrice := Some(100));
            && ValidQuery(q')
            && FindAll(cat, q') == Err(StoreRejected)
  {
  }

  /** An unknown sort column passes validation. */
  lemma AnySortColumnIsValid(q: ProductQuery, column: string, order: string)
    requires ValidQuery(q)
    ensures ValidQuery(q.(sortBy := Some(column), sortOrder := Some(order)))
  {
  }

  /** A non-empty text parameter; the empty string is falsy and filters nothing. */
  predicate Given(s: Option<string>) {
    s.Some? && s.value != ""
  }

  /** The `where` clause of a listing query the store accepts, with `status` already
      defaulted. A price bound reaches the store as query text compared with the numeric
      `price` column, which the store refuses, so no price condition ever filters rows. */
  predicate Matches(p: Product, q: ProductQuery, status: Status) {
    && p.status == status
    && (Given(q.search) ==>
          Text.ContainsIgnoringCase(p.title, q.search.value) || Text.ContainsIgnoringCase(p.description, q.search.value))
    && (Given(q.category) ==> Some(p.category) == CategoryNamed(q.category.value))
    && (Given(q.condition) ==> Some(p.condition) == ConditionNamed(q.condition.value))
    && (Given(q.location) ==> Text.ContainsIgnoringCase(p.location, q.location.value))
  }

  /** The query carries a price bound, which the service copies as text into the
      `where` clause. */
  predicate PriceBounded(q: ProductQuery) {
    q.minPrice.Some? || q.maxPrice.Some?
  }

  // ---------------------------------------------------------------------------------
  // Ordering

  /** The column a listing is ordered by. Columns other than these four are not part
      of this model and are refused like an unknown one. */
  function SortColumn(p: Product, column: string): (k: Option<int>)
    ensures k.Some? <==> column in {"createdAt", "price", "viewCount", "likeCount"}
  {
    if column == "createdAt" then Some(p.createdAt)
    else if column == "price" then Some(p.price)
    else if column == "viewCount" then Some(p.viewCount)
    else if column == "likeCount" then Some(p.likeCount)
    else None
  }

  predicate KnownOrdering(column: string, order: string) {
    column in {"createdAt", "price", "viewCount", "likeCount"} && order in {"asc", "desc"}
  }

  /** The rank that sorts by `column` in `order` when listed highest first. */
  function OrderRank(column: string, order: string): Product -> Sorting.Rank
    requires KnownOrdering(column, order)
  {
    (p: Product) => Sorting.Rank(if order == "asc" then -SortColumn(p, column).GetOr(0) else SortColumn(p, column).GetOr(0), 0, 0)
  }

  /** Consecutive entries of a listing ordered by `column` in `order` are in that order. */
  ghost predicate OrderedBy(ps: seq<Product>, column: string, order: string)
    requires KnownOrdering(column, order)
  {
    forall i, j :: 0 <= i < j < |ps| ==>
      if order == "asc" then SortColumn(ps[i], column).value <= SortColumn(ps[j], column).value
      else SortColumn(ps[i], column).value >= SortColumn(ps[j], column).value
  }

  lemma DescendingRankIsOrderedBy(ps: seq<Product>, column: string, order: string)
    requires KnownOrdering(column, order)
    requires Sorting.Descending(ps, OrderRank(column, order))
    ensures OrderedBy(ps, column, order)
  {
    forall i, j | 0 <= i < j < |ps|
      ensures if order == "asc" then SortColumn(ps[i], column).value <= SortColumn(ps[j], column).value
              else SortColumn(ps[i], column).value >= SortColumn(ps[j], column).value
    {
      assert Sorting.AtLeast(OrderRank(column, order)(ps[i]), OrderRank(column, order)(ps[j]));
    }
  }

  /** The stored listings satisfying `keep`, each once, in id order. */
  function Select(cat: Catalogue, keep: Product -> bool): (ps: seq<Product>)
    requires Valid(cat)
    ensures forall i :: 0 <= i < |ps| ==> ps[i].id in cat.products && cat.products[ps[i].id] == ps[i] && keep(ps[i])
    ensures forall id :: id in cat.products && keep(cat.products[id]) ==> cat.products[id] in ps
    ensures forall i, j :: 0 <= i < j < |ps| ==> ps[i].id < ps[j].id
  {
    var ks := Tables.KeysWhere(cat.products, keep, cat.nextId);
    var ps := Tables.RowsAt(cat.products, ks);
    assert forall id :: id in cat.products && keep(cat.products[id]) ==> cat.products[id] in ps by {
      forall id | id in cat.products && keep(cat.products[id]) ensures cat.products[id] in ps {
        var i :| 0 <= i < |ks| && ks[i] == id;
        assert ps[i] == cat.products[id];
      }
    }
    ps
  }

  /** `ps` lists exactly the stored listings satisfying `keep`, each once. */
  ghost predicate ListsExactly(cat: Catalogue, ps: seq<Product>, keep: Product -> bool) {
    && (forall i :: 0 <= i < |ps| ==> ps[i].id in cat.products && cat.products[ps[i].id] == ps[i] && keep(ps[i]))
    && (forall id :: id in cat.products && keep(cat.products[id]) ==> cat.products[id] in ps)
    && (forall i, j :: 0 <= i < j < |ps| ==> ps[i].id != ps[j].id)
  }

  /** A rearrangement of the id-ordered selection still lists exactly the listings
      satisfying `keep`, each once. */
  lemma PermutedSelection(cat: Catalogue, keep: Product -> bool, found: seq<Product>, sorted: seq<Product>)
    requires Valid(cat)
    requires found == Select(cat, keep)
    requires multiset(sorted) == multiset(found)
    ensures ListsExactly(cat, sorted, keep)
  {
    forall i | 0 <= i < |sorted|
      ensures sorted[i].id in cat.products && cat.products[sorted[i].id] == sorted[i] && keep(sorted[i])
    {
      Sorting.PermutationKeepsMembers(found, sorted, sorted[i]);
    }
    forall id | id in cat.products && keep(cat.products[id]) ensures cat.products[id] in sorted {
      Sorting.PermutationKeepsMembers(found, sorted, cat.products[id]);
    }
    SelectIsDistinct(cat, keep);
    Sorting.PermutationKeepsDistinct(found, sorted);
    forall i, j | 0 <= i < j < |sorted| ensures sorted[i].id != sorted[j].id {
      assert sorted[i] != sorted[j];
      Sorting.PermutationKeepsMembers(found, sorted, sorted[i]);
      Sorting.PermutationKeepsMembers(found, sorted, sorted[j]);
    }
  }

  lemma SelectIsDistinct(cat: Catalogue, keep: Product -> bool)
    requires Valid(cat)
    ensures Sorting.Distinct(Select(cat, keep))
  {
    var found := Select(cat, keep);
    forall i, j | 0 <= i < j < |found| ensures found[i] != found[j] {
      assert found[i].id < found[j].id;
    }
  }

  /** The selection sorted by `rank`, highest first; it still lists exactly the
      listings satisfying `keep`. */
  function SelectSorted(cat: Catalogue, keep: Product -> bool, rank: Product -> Sorting.Rank): (ps: seq<Product>)
    requires Valid(cat)
    ensures ListsExactly(cat, ps, keep)
    ensures Sorting.Descending(ps, rank)
  {
    var found := Select(cat, keep);
    var sorted := Sorting.SortDescending(found, rank);
    PermutedSelection(cat, keep, found, sorted);
    sorted
  }

  // ---------------------------------------------------------------------------------
  // Listing

  datatype ProductPage = ProductPage(data: seq<Product>, pagination: Paging.PageInfo)

  /** `page` and `limit` after the service's defaults. */
  function PageOf(q: ProductQuery): int { q.page.GetOr(1) }
  function LimitOf(q: ProductQuery): int { q.limit.GetOr(20) }
  function ColumnOf(q: ProductQuery): string { q.sortBy.GetOr("createdAt") }
  function OrderOf(q: ProductQuery): string { q.sortOrder.GetOr("desc") }

  /** `GET /products`: the matching listings (status AVAILABLE unless one is given),
      ordered as asked, one page of them, and the metadata over all of them. The store
      refuses an unknown ordering and any price bound. */
  function FindAll(cat: Catalogue, q: ProductQuery): (r: Result<ProductPage>)
    requires Valid(cat)
    ensures !ValidQuery(q) ==> r == Err(BadRequest)
    ensures ValidQuery(q) && (!KnownOrdering(ColumnOf(q), OrderOf(q)) || PriceBounded(q)) ==> r == Err(StoreRejected)
    ensures r.Ok? <==> ValidQuery(q) && KnownOrdering(ColumnOf(q), OrderOf(q)) && !PriceBounded(q)
    ensures r.Ok? ==>
              var status := if q.status.Some? then StatusNamed(q.status.value).value else Available;
              var all := SelectSorted(cat, p => Matches(p, q, status), OrderRank(ColumnOf(q), OrderOf(q)));
              && ListsExactly(cat, all, p => Matches(p, q, status))
              && OrderedBy(all, ColumnOf(q), OrderOf(q))
              && r.value.data == Paging.Window(all, PageOf(q), LimitOf(q))
              && |r.value.data| <= LimitOf(q)
              && r.value.pagination == Paging.Meta(PageOf(q), LimitOf(q), |all|)
  {
    if !ValidQuery(q) then Err(BadRequest)
    else if !KnownOrdering(ColumnOf(q), OrderOf(q)) || PriceBounded(q) then Err(StoreRejected)
    else
      var status := if q.status.Some? then StatusNamed(q.status.value).value else Available;
      var all := SelectSorted(cat, p => Matches(p, q, status), OrderRank(ColumnOf(q), OrderOf(q)));
      DescendingRankIsOrderedBy(all, ColumnOf(q), OrderOf(q));
      Ok(ProductPage(Paging.Window(all, PageOf(q), LimitOf(q)), Paging.Meta(PageOf(q), LimitOf(q), |all|)))
  }

  /** Every listing on a page matches the query: it has the asked status (AVAILABLE by
      default), contains the search text in its title or description, has the category
      and condition asked for and contains the location text. A page is only served for
      a query without price bounds. */
  lemma FindAllReturnsOnlyMatches(cat: Catalogue, q: ProductQuery, i: int)
    requires Valid(cat)
    requires FindAll(cat, q).Ok? && 0 <= i < |FindAll(cat, q).value.data|
    ensures var p := FindAll(cat, q).value.data[i];
            && p.id in cat.products && cat.products[p.id] == p
            && (q.status.None? ==> p.status == Available)
            && (q.status.Some? ==> Some(p.status) == StatusNamed(q.status.value))
            && (Given(q.search) ==> Text.ContainsIgnoringCase(p.title, q.search.value)
                                    || Text.ContainsIgnoringCase(p.description, q.search.value))
            && (Given(q.category) ==> Some(p.category) == CategoryNamed(q.category.value))
            && (Given(q.condition) ==> Some(p.condition) == ConditionNamed(q.condition.value))
            && q.minPrice.None? && q.maxPrice.None?
            && (Given(q.location) ==> Text.ContainsIgnoringCase(p.location, q.location.value))
  {
    var status := if q.status.Some? then StatusNamed(q.status.value).value else Available;
    var all := SelectSorted(cat, p => Matches(p, q, status), OrderRank(ColumnOf(q), OrderOf(q)));
    var data := FindAll(cat, q).value.data;
    Paging.MulNonNegative(PageOf(q) - 1, LimitOf(q));
    assert data[i] == all[(PageOf(q) - 1) * LimitOf(q) + i];
  }

  /** A valid query with a price bound never yields a page: the store refuses it. */
  lemma PriceBoundIsRefused(cat: Catalogue, q: ProductQuery)
    requires Valid(cat) && ValidQuery(q) && PriceBounded(q)
    ensures FindAll(cat, q) == Err(StoreRejected)
  {
  }

  /** Walking the pages from 1 to `totalPages` visits every matching listing exactly
      once, in the asked order. */
  lemma FindAllPagesCoverMatches(cat: Catalogue, q: ProductQuery)
    requires Valid(cat)
    requires FindAll(cat, q).Ok?
    ensures var status := if q.status.Some? then StatusNamed(q.status.value).value else Available;
            var all := SelectSorted(cat, p => Matches(p, q, status), OrderRank(ColumnOf(q), OrderOf(q)));
            && Paging.PagesUpTo(all, LimitOf(q), FindAll(cat, q).value.pagination.totalPages.n) == all
            && ListsExactly(cat, all, p => Matches(p, q, status))
  {
    var status := if q.status.Some? then StatusNamed(q.status.value).value else Available;
    var all := SelectSorted(cat, p => Matches(p, q, status), OrderRank(ColumnOf(q), OrderOf(q)));
    Paging.PagesCoverAll(all, LimitOf(q));
    assert FindAll(cat, q).value.pagination.totalPages == Paging.Meta(1, LimitOf(q), |all|).totalPages;
  }

  /** `GET /products/user/:userId`: the seller's listings, filtered by status only when
      one is given, and by category and condition; search, price and location are
      ignored. */
  predicate OwnedMatch(p: Product, userId: UserId, q: ProductQuery) {
    && p.sellerId == userId
    && (Given(q.status) ==> Some(p.status) == StatusNamed(q.status.value))
    && (Given(q.category) ==> Some(p.category) == CategoryNamed(q.category.value))
    && (Given(q.condition) ==> Some(p.condition) == ConditionNamed(q.condition.value))
  }

  function FindByUser(cat: Catalogue, userId: UserId, q: ProductQuery): (r: Result<ProductPage>)
    requires Valid(cat)
    ensures r.Ok? <==> ValidQuery(q) && KnownOrdering(ColumnOf(q), OrderOf(q))
    ensures r.Err? ==> r.error == (if ValidQuery(q) then StoreRejected else BadRequest)
    ensures r.Ok? ==>
              var all := SelectSorted(cat, p => OwnedMatch(p, userId, q), OrderRank(ColumnOf(q), OrderOf(q)));
              && ListsExactly(cat, all, p => OwnedMatch(p, userId, q))
              && OrderedBy(all, ColumnOf(q), OrderOf(q))
              && r.value.data == Paging.Window(all, PageOf(q), LimitOf(q))
              && r.value.pagination == Paging.Meta(PageOf(q), LimitOf(q), |all|)
  {
    if !ValidQuery(q) then Err(BadRequest)
    else if !KnownOrdering(ColumnOf(q), OrderOf(q)) then Err(StoreRejected)
    else
      var all := SelectSorted(cat, p => OwnedMatch(p, userId, q), OrderRank(ColumnOf(q), OrderOf(q)));
      DescendingRankIsOrderedBy(all, ColumnOf(q), OrderOf(q));
      Ok(ProductPage(Paging.Window(all, PageOf(q), LimitOf(q)), Paging.Meta(PageOf(q), LimitOf(q), |all|)))
  }

  /** Without a status filter the seller's listing includes sold and deleted listings,
      unlike the public listing. */
  lemma FindByUserShowsEveryStatus(cat: Catalogue, userId: UserId, q: ProductQuery, id: ProductId)
    requires Valid(cat) && ValidQuery(q) && KnownOrdering(ColumnOf(q), OrderOf(q))
    requires q.status.None? && q.category.None? && q.condition.None?
    requires id in cat.products && cat.products[id].sellerId == userId
    ensures cat.products[id] in SelectSorted(cat, p => OwnedMatch(p, userId, q), OrderRank(ColumnOf(q), OrderOf(q)))
  {
  }

  // ---------------------------------------------------------------------------------
  // Popular and recent

  function PopularRank(p: Product): Sorting.Rank {
    Sorting.Rank(p.likeCount, p.viewCount, p.createdAt)
  }

  function RecentRank(p: Product): Sorting.Rank {
    Sorting.Rank(p.createdAt, 0, 0)
  }

  predicate IsAvailable(p: Product) {
    p.status == Available
  }

  /** `findMany` with `take: limit` over the listings satisfying `keep`, highest `rank`
      first: a non-negative limit takes that many from the top, a negative one takes
      that many from the bottom, still highest first. */
  function Top(cat: Catalogue, keep: Product -> bool, rank: Product -> Sorting.Rank, limit: int): (r: seq<Product>)
    requires Valid(cat)
    ensures Paging.Taken(r, SelectSorted(cat, keep, rank), limit)
    ensures forall i :: 0 <= i < |r| ==> r[i].id in cat.products && cat.products[r[i].id] == r[i] && keep(r[i])
    ensures Sorting.Descending(r, rank)
  {
    var all := SelectSorted(cat, keep, rank);
    Paging.TakeWithoutSkip(all, limit);
    var r := Paging.SkipTakeAny(all, 0, limit).value;
    TakenKeepsOrder(r, all, limit, rank);
    r
  }

  /** The taken rows of a descending list are rows of it and still descending. */
  lemma TakenKeepsOrder<T>(r: seq<T>, all: seq<T>, limit: int, rank: T -> Sorting.Rank)
    requires Paging.Taken(r, all, limit) && Sorting.Descending(all, rank)
    ensures forall i :: 0 <= i < |r| ==> r[i] in all
    ensures Sorting.Descending(r, rank)
  {
    var off := if limit >= 0 then 0 else |all| - |r|;
    assert forall i :: 0 <= i < |r| ==> r[i] == all[off + i];
  }

  /** A listing satisfying `keep` but missing from `Top` is missing because the list is
      full, and it ranks no higher than the listings taken from the top, or no lower than
      those taken from the bottom. */
  lemma TopIsASlice(cat: Catalogue, keep: Product -> bool, rank: Product -> Sorting.Rank, limit: int, id: ProductId)
    requires Valid(cat)
    requires id in cat.products && keep(cat.products[id])
    requires cat.products[id] !in Top(cat, keep, rank, limit)
    ensures var r := Top(cat, keep, rank, limit);
            && |r| == (if limit >= 0 then limit else -limit)
            && (limit >= 0 ==> forall i :: 0 <= i < |r| ==> Sorting.AtLeast(rank(r[i]), rank(cat.products[id])))
            && (limit < 0 ==> forall i :: 0 <= i < |r| ==> Sorting.AtLeast(rank(cat.products[id]), rank(r[i])))
  {
    var all := SelectSorted(cat, keep, rank);
    assert cat.products[id] in all;
    MissingFromTaken(Top(cat, keep, rank, limit), all, limit, rank, cat.products[id]);
  }

  /** A row of a descending list that is not among its taken rows ranks no higher than
      rows taken from the top, and no lower than rows taken from the bottom; and it is
      missing only because the take is full. */
  lemma MissingFromTaken<T>(r: seq<T>, all: seq<T>, limit: int, rank: T -> Sorting.Rank, x: T)
    requires Paging.Taken(r, all, limit) && Sorting.Descending(all, rank)
    requires x in all && x !in r
    ensures |r| == (if limit >= 0 then limit else -limit)
    ensures limit >= 0 ==> forall i :: 0 <= i < |r| ==> Sorting.AtLeast(rank(r[i]), rank(x))
    ensures limit < 0 ==> forall i :: 0 <= i < |r| ==> Sorting.AtLeast(rank(x), rank(r[i]))
  {
    var k :| 0 <= k < |all| && all[k] == x;
    var off := if limit >= 0 then 0 else |all| - |r|;
    assert forall i :: 0 <= i < |r| ==> r[i] == all[off + i];
    assert k < off || k >= off + |r|;
  }

  /** `GET /products/popular`: the limit is the query text unconverted, so only an absent
      one takes the default 10; `Number("")` is 0. A non-negative limit gives that many
      available listings from the top, most liked first, ties broken by views and then
      by recency; a negative one gives the lowest-ranked, in the same order. */
  function FindPopular(cat: Catalogue, limit: Option<int>): (r: seq<Product>)
    requires Valid(cat)
    ensures Paging.Taken(r, SelectSorted(cat, IsAvailable, PopularRank), limit.GetOr(10))
    ensures forall i :: 0 <= i < |r| ==> r[i].id in cat.products && cat.products[r[i].id] == r[i] && r[i].status == Available
    ensures forall i, j :: 0 <= i < j < |r| ==>
              || r[i].likeCount > r[j].likeCount
              || (r[i].likeCount == r[j].likeCount && r[i].viewCount > r[j].viewCount)
              || (r[i].likeCount == r[j].likeCount && r[i].viewCount == r[j].viewCount && r[i].createdAt >= r[j].createdAt)
  {
    var r := Top(cat, IsAvailable, PopularRank, limit.GetOr(10));
    forall i | 0 <= i < |r| ensures r[i].status == Available {
      assert IsAvailable(r[i]);
    }
    forall i, j | 0 <= i < j < |r|
      ensures || r[i].likeCount > r[j].likeCount
              || (r[i].likeCount == r[j].likeCount && r[i].viewCount > r[j].viewCount)
              || (r[i].likeCount == r[j].likeCount && r[i].viewCount == r[j].viewCount && r[i].createdAt >= r[j].createdAt)
    {
      assert Sorting.AtLeast(PopularRank(r[i]), PopularRank(r[j]));
    }
    r
  }

  /** An available listing left out of the popular list is left out only because the
      list is full; it ranks no higher than any listing in it for a non-negative limit,
      and no lower for a negative one. */
  lemma PopularIsATopSlice(cat: Catalogue, limit: Option<int>, id: ProductId)
    requires Valid(cat)
    requires id in cat.products && cat.products[id].status == Available
    requires cat.products[id] !in FindPopular(cat, limit)
    ensures var l := limit.GetOr(10);
            var r := FindPopular(cat, limit);
            && |r| == (if l >= 0 then l else -l)
            && (l >= 0 ==> forall i :: 0 <= i < |r| ==> Sorting.AtLeast(PopularRank(r[i]), PopularRank(cat.products[id])))
            && (l < 0 ==> forall i :: 0 <= i < |r| ==> Sorting.AtLeast(PopularRank(cat.products[id]), PopularRank(r[i])))
  {
    assert IsAvailable(cat.products[id]);
    TopIsASlice(cat, IsAvailable, PopularRank, limit.GetOr(10), id);
  }

  /** `GET /products/recent`: the limit as for the popular list; a non-negative limit
      gives that many available listings from the newest, a negative one the oldest,
      newest first. */
  function FindRecent(cat: Catalogue, limit: Option<int>): (r: seq<Product>)
    requires Valid(cat)
    ensures Paging.Taken(r, SelectSorted(cat, IsAvailable, RecentRank), limit.GetOr(10))
    ensures forall i :: 0 <= i < |r| ==> r[i].id in cat.products && cat.products[r[i].id] == r[i] && r[i].status == Available
    ensures forall i, j :: 0 <= i < j < |r| ==> r[i].createdAt >= r[j].createdAt
  {
    var r := Top(cat, IsAvailable, RecentRank, limit.GetOr(10));
    forall i | 0 <= i < |r| ensures r[i].status == Available {
      assert IsAvailable(r[i]);
    }
    forall i, j | 0 <= i < j < |r| ensures r[i].createdAt >= r[j].createdAt {
      assert Sorting.AtLeast(RecentRank(r[i]), RecentRank(r[j]));
    }
    r
  }

  /** An available listing left out of the recent list is left out only because the
      list is full; for a non-negative limit every listing in it is at least as new, for
      a negative one at most as new. */
  lemma RecentIsATopSlice(cat: Catalogue, limit: Option<int>, id: ProductId)
    requires Valid(cat)
    requires id in cat.products && cat.products[id].status == Available
    requires cat.products[id] !in FindRecent(cat, limit)
    ensures var l := limit.GetOr(10);
            var r := FindRecent(cat, limit);
            && |r| == (if l >= 0 then l else -l)
            && (l >= 0 ==> forall i :: 0 <= i < |r| ==> r[i].createdAt >= cat.products[id].createdAt)
            && (l < 0 ==> forall i :: 0 <= i < |r| ==> cat.products[id].createdAt >= r[i].createdAt)
  {
    var p := cat.products[id];
    var r := FindRecent(cat, limit);
    assert IsAvailable(p);
    TopIsASlice(cat, IsAvailable, RecentRank, limit.GetOr(10), id);
    forall i | 0 <= i < |r| ensures limit.GetOr(10) >= 0 ==> r[i].createdAt >= p.createdAt {
      if limit.GetOr(10) >= 0 {
        assert Sorting.AtLeast(RecentRank(r[i]), RecentRank(p));
      }
    }
    forall i | 0 <= i < |r| ensures limit.GetOr(10) < 0 ==> p.createdAt >= r[i].createdAt {
      if limit.GetOr(10) < 0 {
        assert Sorting.AtLeast(RecentRank(p), RecentRank(r[i]));
      }
    }
  }

  /** `?limit=` with no value is not the default: `Number("")` is 0 and nothing comes
      back, while an absent limit gives up to ten listings. */
  lemma EmptyLimitIsZero(cat: Catalogue)
    requires Valid(cat)
    ensures FindRecent(cat, Some(0)) == [] && FindPopular(cat, Some(0)) == []
    ensures |FindRecent(cat, None)| == Min(10, |SelectSorted(cat, IsAvailable, RecentRank)|)
  {
  }

  // ---------------------------------------------------------------------------------
  // Detail, update and delete

  /** The service's `findOne`: a listing of any status, including a deleted one. A
      viewer id other than the seller's adds one view, and the returned listing shows
      it. */
  function FindOne(cat: Catalogue, id: ProductId, viewerId: Option<UserId>): (r: Result<(Catalogue, Product)>)
    ensures r.Ok? <==> id in cat.products
    ensures r.Err? ==> r.error == NotFound
    ensures r.Ok? ==>
              var (cat', p) := r.value;
              var counted := viewerId.Some? && viewerId.value != cat.products[id].sellerId;
              && p == cat.products[id].(viewCount := cat.products[id].viewCount + (if counted then 1 else 0))
              && cat'.products == cat.products[id := p]
              && cat'.nextId == cat.nextId
  {
    if id !in cat.products then Err(NotFound)
    else
      var p := cat.products[id];
      if viewerId.Some? && viewerId.value != p.sellerId then
        var p' := p.(viewCount := p.viewCount + 1);
        Ok((cat.(products := cat.products[id := p']), p'))
      else Ok((cat, p))
  }

  /** The seller's own views and anonymous views never count; anyone else's always do. */
  lemma ViewCountingSkipsSeller(cat: Catalogue, id: ProductId, viewerId: Option<UserId>)
    requires id in cat.products
    ensures var (cat', p) := FindOne(cat, id, viewerId).value;
            && (p.viewCount == cat.products[id].viewCount + 1 <==> viewerId.Some? && viewerId.value != p.sellerId)
            && (p.viewCount == cat.products[id].viewCount <==> viewerId.None? || viewerId.value == p.sellerId)
            && (viewerId.None? || viewerId.value == p.sellerId ==> cat' == cat)
  {
  }

  /** `GET /products/:id`: the route has no authentication guard, so no user is
      attached to the request and the service is always called without a viewer. */
  function FindOneRoute(cat: Catalogue, id: ProductId): (r: Result<(Catalogue, Product)>)
    ensures r.Ok? <==> id in cat.products
    ensures r.Err? ==> r.error == NotFound
    ensures r.Ok? ==> r.value == (cat, cat.products[id])
  {
    FindOne(cat, id, None)
  }

  /** Over HTTP the view counter never moves: a stored listing reads back unchanged and
      the catalogue is left as it was. */
  lemma RouteNeverCountsViews(cat: Catalogue, id: ProductId)
    requires id in cat.products
    ensures FindOneRoute(cat, id).Ok?
    ensures FindOneRoute(cat, id).value.1.viewCount == cat.products[id].viewCount
    ensures FindOneRoute(cat, id).value.0 == cat
  {
    ViewCountingSkipsSeller(cat, id, None);
  }

  /** The update body: every creation field is optional, plus the status. As on
      creation, keys outside the DTO reach the update: the next four fields are the
      columns such a key can name, and `stray` marks any other key or a wrong-typed
      value. */
  datatype UpdateProductBody = UpdateProductBody(
    title: Option<string>,
    description: Option<string>,
    price: Option<int>,
    images: Option<seq<string>>,
    mainImageIndex: Option<int>,
    category: Option<string>,
    condition: Option<string>,
    location: Option<string>,
    latitude: Option<real>,
    longitude: Option<real>,
    status: Option<string>,
    sellerId: Option<UserId>,
    viewCount: Option<nat>,
    likeCount: Option<nat>,
    createdAt: Option<int>,
    stray: bool)

  /** Each field present satisfies its creation constraint; the status is an enum name. */
  predicate ValidUpdateBody(b: UpdateProductBody) {
    && (b.title.Some? ==> LengthIn(b.title.value, 2, 100))
    && (b.description.Some? ==> LengthIn(b.description.value, 10, 2000))
    && (b.price.Some? ==> 100 <= b.price.value <= 99999999)
    && (b.images.Some? ==> forall i :: 0 <= i < |b.images.value| ==> LengthIn(b.images.value[i], 0, 500))
    && (b.mainImageIndex.Some? ==> b.mainImageIndex.value >= 0)
    && (b.category.Some? ==> CategoryNamed(b.category.value).Some?)
    && (b.condition.Some? ==> ConditionNamed(b.condition.value).Some?)
    && (b.location.Some? ==> LengthIn(b.location.value, 0, 100))
    && (b.latitude.Some? ==> -90.0 <= b.latitude.value <= 90.0)
    && (b.longitude.Some? ==> -180.0 <= b.longitude.value <= 180.0)
    && (b.status.Some? ==> StatusNamed(b.status.value).Some?)
  }

  /** The enum value a present, valid name denotes, or `kept` when the name is absent. */
  function NamedOr<T>(name: Option<string>, named: string -> Option<T>, kept: T): (r: T)
    requires name.Some? ==> named(name.value).Some?
    ensures name.Some? ==> Some(r) == named(name.value)
    ensures name.None? ==> r == kept
  {
    if name.Some? then named(name.value).value else kept
  }

  /** The listing with the present fields of a valid body written over it. The id is
      never a body field, so the row keeps it. */
  function Patch(p: Product, b: UpdateProductBody): (r: Product)
    requires ValidUpdateBody(b)
    ensures r.id == p.id
    ensures r.title == b.title.GetOr(p.title) && r.description == b.description.GetOr(p.description)
    ensures r.price == b.price.GetOr(p.price) && r.images == b.images.GetOr(p.images)
    ensures b.mainImageIndex.Some? ==> r.mainImageIndex == b.mainImageIndex
    ensures b.mainImageIndex.None? ==> r.mainImageIndex == p.mainImageIndex
    ensures b.category.Some? ==> Some(r.category) == CategoryNamed(b.category.value)
    ensures b.category.None? ==> r.category == p.category
    ensures b.condition.Some? ==> Some(r.condition) == ConditionNamed(b.condition.value)
    ensures b.condition.None? ==> r.condition == p.condition
    ensures r.location == b.location.GetOr(p.location)
    ensures b.latitude.Some? ==> r.latitude == b.latitude
    ensures b.latitude.None? ==> r.latitude == p.latitude
    ensures b.longitude.Some? ==> r.longitude == b.longitude
    ensures b.longitude.None? ==> r.longitude == p.longitude
    ensures b.status.Some? ==> Some(r.status) == StatusNamed(b.status.value)
    ensures b.status.None? ==> r.status == p.status
    ensures r.sellerId == b.sellerId.GetOr(p.sellerId)
    ensures r.viewCount == b.viewCount.GetOr(p.viewCount) && r.likeCount == b.likeCount.GetOr(p.likeCount)
    ensures r.createdAt == b.createdAt.GetOr(p.createdAt)
  {
    var category := NamedOr(b.category, CategoryNamed, p.category);
    var condition := NamedOr(b.condition, ConditionNamed, p.condition);
    var status := NamedOr(b.status, StatusNamed, p.status);
    Product(p.id, b.sellerId.GetOr(p.sellerId), b.title.GetOr(p.title),
            b.description.GetOr(p.description), b.price.GetOr(p.price), b.images.GetOr(p.images),
            if b.mainImageIndex.Some? then b.mainImageIndex else p.mainImageIndex,
            category, condition, status, b.location.GetOr(p.location),
            if b.latitude.Some? then b.latitude else p.latitude,
            if b.longitude.Some? then b.longitude else p.longitude,
            b.viewCount.GetOr(p.viewCount), b.likeCount.GetOr(p.likeCount),
            b.createdAt.GetOr(p.createdAt))
  }

  /** A body with no field present writes nothing. */
  lemma EmptyBodyPatchesNothing(p: Product, b: UpdateProductBody)
    requires b == DtoOnly(None, None)
    ensures ValidUpdateBody(b) && Patch(p, b) == p
  {
  }

  /** Writing the same body twice gives the listing writing it once gives. */
  lemma PatchIsIdempotent(p: Product, b: UpdateProductBody)
    requires ValidUpdateBody(b)
    ensures Patch(Patch(p, b), b) == Patch(p, b)
  {
  }

  /** The keys outside the DTO that make the store refuse the update: a stray key, or a
      seller id that names no account (`users` holds the stored account ids). */
  predicate UpdateRefused(b: UpdateProductBody, users: set<UserId>) {
    b.stray || (b.sellerId.Some? && b.sellerId.value !in users)
  }

  /** `PATCH /products/:id`: body validation, then NotFound, then Forbidden for anyone
      but the seller, then BadRequest for a sold listing unless the body keeps it sold,
      and last the store's own refusal of undeclared keys. */
  function Update(cat: Catalogue, users: set<UserId>, id: ProductId, b: UpdateProductBody, caller: UserId)
    : (r: Result<(Catalogue, Product)>)
    requires Valid(cat)
    ensures !ValidUpdateBody(b) ==> r == Err(BadRequest)
    ensures ValidUpdateBody(b) && id !in cat.products ==> r == Err(NotFound)
    ensures ValidUpdateBody(b) && id in cat.products && cat.products[id].sellerId != caller ==> r == Err(Forbidden)
    ensures r.Ok? <==> && ValidUpdateBody(b) && id in cat.products && cat.products[id].sellerId == caller
                       && (cat.products[id].status == Sold ==> b.status == Some("SOLD"))
                       && !UpdateRefused(b, users)
    ensures && r.Err? && ValidUpdateBody(b) && id in cat.products && cat.products[id].sellerId == caller
            && (cat.products[id].status == Sold ==> b.status == Some("SOLD"))
            ==> r.error == StoreRejected
    ensures r.Ok? ==>
              var (cat', p) := r.value;
              && Valid(cat') && cat'.products == cat.products[id := p] && cat'.nextId == cat.nextId
              && p.id == id && p.sellerId == b.sellerId.GetOr(caller)
              && p.viewCount == b.viewCount.GetOr(cat.products[id].viewCount)
              && p.likeCount == b.likeCount.GetOr(cat.products[id].likeCount)
              && p.createdAt == b.createdAt.GetOr(cat.products[id].createdAt)
              && (b.status.Some? ==> Some(p.status) == StatusNamed(b.status.value))
              && (b.status.None? ==> p.status == cat.products[id].status)
              && (b.title.Some? ==> p.title == b.title.value) && (b.title.None? ==> p.title == cat.products[id].title)
              && (b.price.Some? ==> p.price == b.price.value) && (b.price.None? ==> p.price == cat.products[id].price)
    ensures r.Ok? ==> r.value.1 == Patch(cat.products[id], b)
  {
    if !ValidUpdateBody(b) then Err(BadRequest)
    else if id !in cat.products then Err(NotFound)
    else
      var p := cat.products[id];
      if p.sellerId != caller then Err(Forbidden)
      else if p.status == Sold && b.status != Some("SOLD") then Err(BadRequest)
      else if UpdateRefused(b, users) then Err(StoreRejected)
      else
        var p' := Patch(p, b);
        Ok((cat.(products := cat.products[id := p']), p'))
  }

  /** Once sold, always sold: no successful update moves a listing out of SOLD, while
      its other fields may still change when the body repeats the status. */
  lemma SoldStaysSold(cat: Catalogue, users: set<UserId>, id: ProductId, b: UpdateProductBody, caller: UserId)
    requires Valid(cat)
    requires id in cat.products && cat.products[id].status == Sold
    requires Update(cat, users, id, b, caller).Ok?
    ensures Update(cat, users, id, b, caller).value.1.status == Sold
  {
  }

  /** The body that only sets fields the DTO declares. */
  function DtoOnly(title: Option<string>, status: Option<string>): UpdateProductBody {
    UpdateProductBody(title, None, None, None, None, None, None, None, None, None, status, None, None, None, None, false)
  }

  /** A sold listing's title can change as long as the body says SOLD again. */
  lemma SoldListingTitleCanChange(cat: Catalogue, users: set<UserId>, id: ProductId, caller: UserId, title: string)
    requires Valid(cat)
    requires id in cat.products && cat.products[id].status == Sold && cat.products[id].sellerId == caller
    requires LengthIn(title, 2, 100)
    ensures var b := DtoOnly(Some(title), Some("SOLD"));
            Update(cat, users, id, b, caller).Ok? && Update(cat, users, id, b, caller).value.1.title == title
  {
  }

  /** A `sellerId` key in the update body hands the listing to another account: the
      seller who sent it can then neither update nor delete it. */
  lemma UpdateCanHandOverListing(cat: Catalogue, users: set<UserId>, id: ProductId, caller: UserId, other: UserId,
                                 b: UpdateProductBody)
    requires Valid(cat)
    requires id in cat.products && cat.products[id].sellerId == caller && cat.products[id].status != Sold
    requires ValidUpdateBody(b) && !b.stray && b.sellerId == Some(other) && other in users && other != caller
    ensures var r := Update(cat, users, id, b, caller);
            && r.Ok? && r.value.0.products[id].sellerId == other
            && Update(r.value.0, users, id, DtoOnly(None, None), caller) == Err(Forbidden)
            && Remove(r.value.0, id, caller) == Err(Forbidden)
  {
  }

  /** The fields `remove` returns. */
  datatype RemovedView = RemovedView(id: ProductId, title: string, status: Status)

  /** `DELETE /products/:id`: a soft delete by the seller; the listing stays, DELETED. */
  function Remove(cat: Catalogue, id: ProductId, caller: UserId): (r: Result<(Catalogue, RemovedView)>)
    ensures r.Ok? <==> id in cat.products && cat.products[id].sellerId == caller
    ensures r.Err? ==> r.error == (if id in cat.products then Forbidden else NotFound)
    ensures r.Ok? ==>
              && r.value.0.products == cat.products[id := cat.products[id].(status := Deleted)]
              && r.value.0.nextId == cat.nextId
              && r.value.1 == RemovedView(id, cat.products[id].title, Deleted)
  {
    if id !in cat.products then Err(NotFound)
    else if cat.products[id].sellerId != caller then Err(Forbidden)
    else
      var p := cat.products[id];
      Ok((cat.(products := cat.products[id := p.(status := Deleted)]), RemovedView(id, p.title, Deleted)))
  }

  /** A removed listing still exists: deleting it again succeeds and changes nothing,
      the detail view still finds it, and the default public listing no longer shows it. */
  lemma RemoveIsSoft(cat: Catalogue, id: ProductId, caller: UserId, q: ProductQuery)
    requires Valid(cat)
    requires Remove(cat, id, caller).Ok?
    ensures var cat' := Remove(cat, id, caller).value.0;
            && Valid(cat')
            && Remove(cat', id, caller).Ok? && Remove(cat', id, caller).value.0 == cat'
            && FindOne(cat', id, None).Ok?
            && (q.status.None? ==> !Matches(cat'.products[id], q, Available))
  {
    var cat' := Remove(cat, id, caller).value.0;
    assert cat'.products[id := cat'.products[id].(status := Deleted)] == cat'.products;
  }
}

=== FILE: search_page.dfy ===
/** The search page: the numbered pager under the results, the "time ago" label on each
    card, the URL that mirrors the search form, the listing query sent to the back end,
    and the picture chosen for each card. */
module SearchPage {
  import opened Common
  import Text
  import SharedUtils
  import Products
  import ImageUpload

  // ---------------------------------------------------------------------------------
  // Pager

  /** The page buttons `Array.from({ length: n }, (_, i) => start + i)` draws, with the
      slots past `totalPages` rendered as nothing. */
  function Slots(start: int, n: nat, totalPages: int): seq<int> {
    if n == 0 then []
    else Slots(start, n - 1, totalPages) + (if start + n - 1 <= totalPages then [start + n - 1] else [])
  }

  /** Dropping the slots past the last page leaves an unbroken run from `start`. */
  lemma {:induction false} SlotsAreARun(start: int, n: nat, totalPages: int)
    ensures Slots(start, n, totalPages) == seq(Max(0, Min(n, totalPages - start + 1)), i => start + i)
  {
    if n > 0 {
      SlotsAreARun(start, n - 1, totalPages);
    }
  }

  /** The members of a run of numbers from `start`. */
  lemma RunMembers(run: seq<int>, start: int)
    requires forall i :: 0 <= i < |run| ==> run[i] == start + i
    ensures forall p :: p in run <==> start <= p < start + |run|
  {
    forall p ensures p in run <==> start <= p < start + |run| {
      if start <= p < start + |run| {
        assert run[p - start] == p;
      }
    }
  }

  /** The numbered buttons around `currentPage`. */
  function PageWindow(currentPage: int, totalPages: nat): (ps: seq<int>)
    ensures |ps| <= 5 && |ps| <= totalPages
    ensures forall i :: 0 <= i < |ps| ==> 1 <= ps[i] <= totalPages
    ensures forall i :: 0 <= i < |ps| ==> ps[i] == Max(1, currentPage - 2) + i
    ensures forall p :: p in ps <==>
              Max(1, currentPage - 2) <= p <= totalPages && p < Max(1, currentPage - 2) + Min(5, totalPages)
  {
    var start := Max(1, currentPage - 2);
    var n := Min(5, totalPages);
    SlotsAreARun(start, n, totalPages);
    RunMembers(Slots(start, n, totalPages), start);
    Slots(start, n, totalPages)
  }

  /** What the pager shows. */
  datatype Pager = Hidden | Shown(prev: bool, pages: seq<int>, next: bool)

  function PagerOf(currentPage: int, totalPages: nat): (p: Pager)
    ensures p.Hidden? <==> totalPages <= 1
    ensures p.Shown? ==> (p.prev <==> currentPage > 1) && (p.next <==> currentPage < totalPages)
    ensures p.Shown? ==> p.pages == PageWindow(currentPage, totalPages)
  {
    if totalPages <= 1 then Hidden
    else Shown(currentPage > 1, PageWindow(currentPage, totalPages), currentPage < totalPages)
  }

  /** The current page always has its own button, and every button (previous, next or
      numbered) leads to a page that exists. */
  lemma PagerStaysInRange(currentPage: int, totalPages: nat)
    requires 1 <= currentPage <= totalPages
    requires totalPages > 1
    ensures currentPage in PagerOf(currentPage, totalPages).pages
    ensures PagerOf(currentPage, totalPages).prev ==> 1 <= currentPage - 1
    ensures PagerOf(currentPage, totalPages).next ==> currentPage + 1 <= totalPages
    ensures forall p :: p in PagerOf(currentPage, totalPages).pages ==> 1 <= p <= totalPages
  {
  }

  /** Away from both ends the window is centred on the current page. */
  lemma WindowIsCentred(currentPage: int, totalPages: nat)
    requires 3 <= currentPage <= totalPages - 2
    ensures PageWindow(currentPage, totalPages) == [currentPage - 2, currentPage - 1, currentPage, currentPage + 1, currentPage + 2]
  {
    var ps := PageWindow(currentPage, totalPages);
    assert currentPage + 2 in ps;
    var i :| 0 <= i < |ps| && ps[i] == currentPage + 2;
    assert i == 4;
  }

  /** The window starts two pages back and is not shifted left at the end, so on the
      last page of five or more only three buttons are drawn. */
  lemma WindowShrinksAtTheEnd(totalPages: nat)
    requires totalPages >= 5
    ensures PageWindow(totalPages, totalPages) == [totalPages - 2, totalPages - 1, totalPages]
  {
    var ps := PageWindow(totalPages, totalPages);
    assert totalPages in ps;
    var i :| 0 <= i < |ps| && ps[i] == totalPages;
    assert i == 2;
    assert |ps| <= 3 by {
      assert forall i :: 0 <= i < |ps| ==> ps[i] == totalPages - 2 + i;
    }
  }

  // ---------------------------------------------------------------------------------
  // Time ago

  /** `getTimeAgo` on the milliseconds elapsed since listing: whole minutes, hours
      (of whole minutes) and days (of whole hours), cut off after a week. */
  function TimeAgo(diffMs: int): (a: SharedUtils.Ago)
    ensures a.JustNow? <==> diffMs < 60000
    ensures a.MinutesAgo? <==> 60000 <= diffMs < 3600000
    ensures a.HoursAgo? <==> 3600000 <= diffMs < 86400000
    ensures a.DaysAgo? <==> 86400000 <= diffMs < 604800000
    ensures a.LocaleDate? <==> diffMs >= 604800000
    ensures a.MinutesAgo? ==> a.n == diffMs / 60000
    ensures a.HoursAgo? ==> a.n == diffMs / 3600000
    ensures a.DaysAgo? ==> a.n == diffMs / 86400000
  {
    var minutes := diffMs / 60000;
    var hours := minutes / 60;
    var days := hours / 24;
    if minutes < 1 then SharedUtils.JustNow
    else if minutes < 60 then SharedUtils.MinutesAgo(minutes)
    else if hours < 24 then SharedUtils.HoursAgo(hours)
    else if days < 7 then SharedUtils.DaysAgo(days)
    else SharedUtils.LocaleDate
  }

  /** Within a week the page's label is the shared `formatDate` label; after that the
      page shows a date where `formatDate` still counts days up to thirty. */
  lemma TimeAgoAgreesWithFormatDate(diffMs: int)
    ensures diffMs < 604800000 ==> TimeAgo(diffMs) == SharedUtils.FormatDate(diffMs)
    ensures 604800000 <= diffMs < 2592000000 ==>
              TimeAgo(diffMs).LocaleDate? && SharedUtils.FormatDate(diffMs).DaysAgo?
  {
    assert (diffMs / 1000) / 60 == diffMs / 60000;
    assert (diffMs / 1000) / 3600 == diffMs / 3600000;
    assert (diffMs / 1000) / 86400 == diffMs / 86400000;
  }

  // ---------------------------------------------------------------------------------
  // Search form, URL and listing query

  /** The search box and filter fields, all as typed. */
  datatype SearchForm = SearchForm(
    query: string,
    category: string,
    condition: string,
    minPrice: string,
    maxPrice: string,
    location: string,
    sortBy: string)

  const DefaultSort: string := "createdAt:desc"

  /** The values of the sort drop-down. */
  const SortOptions: seq<string> := ["createdAt:desc", "price:asc", "price:desc", "viewCount:desc", "likeCount:desc"]

  /** The form after "reset filters". */
  const BlankForm: SearchForm := SearchForm("", "", "", "", "", "", DefaultSort)

  /** URL parameters as the ordered (key, value) pairs `URLSearchParams` holds. */
  type Params = seq<(string, string)>

  /** `params.get(key)`: the first value under `key`. */
  function Get(params: Params, key: string): (v: Option<string>)
    ensures v.None? <==> forall i :: 0 <= i < |params| ==> params[i].0 != key
    ensures v.Some? ==> exists i :: 0 <= i < |params| && params[i] == (key, v.value)
  {
    if |params| == 0 then None
    else if params[0].0 == key then Some(params[0].1)
    else
      var v := Get(params[1..], key);
      assert forall i :: 1 <= i < |params| ==> params[1..][i - 1] == params[i];
      v
  }

  /** The candidate (key, value, present) entries of the URL, in `set` order. */
  function Candidates(form: SearchForm): seq<(string, string, bool)> {
    [("q", form.query, form.query != ""),
     ("category", form.category, form.category != ""),
     ("condition", form.condition, form.condition != ""),
     ("minPrice", form.minPrice, form.minPrice != ""),
     ("maxPrice", form.maxPrice, form.maxPrice != ""),
     ("location", form.location, form.location != ""),
     ("sort", form.sortBy, form.sortBy != DefaultSort)]
  }

  /** The pairs of the present candidates, in order. */
  function Present(cs: seq<(string, string, bool)>): (params: Params)
    ensures |params| <= |cs|
  {
    if |cs| == 0 then []
    else (if cs[0].2 then [(cs[0].0, cs[0].1)] else []) + Present(cs[1..])
  }

  /** With distinct keys, each candidate's key answers with its value exactly when the
      candidate is present. */
  lemma {:induction false} GetPresent(cs: seq<(string, string, bool)>, j: int)
    requires forall a, b :: 0 <= a < b < |cs| ==> cs[a].0 != cs[b].0
    requires 0 <= j < |cs|
    ensures Get(Present(cs), cs[j].0) == if cs[j].2 then Some(cs[j].1) else None
    decreases |cs|
  {
    var head := if cs[0].2 then [(cs[0].0, cs[0].1)] else [];
    var rest := Present(cs[1..]);
    if j == 0 {
      if !cs[0].2 {
        assert Present(cs) == rest;
        NotPresent(cs[1..], cs[0].0);
      }
    } else {
      GetPresent(cs[1..], j - 1);
      if cs[0].2 {
        assert Present(cs)[1..] == rest;
      } else {
        assert Present(cs) == rest;
      }
    }
  }

  /** A key no candidate carries is absent. */
  lemma {:induction false} NotPresent(cs: seq<(string, string, bool)>, key: string)
    requires forall a :: 0 <= a < |cs| ==> cs[a].0 != key
    ensures Get(Present(cs), key).None?
    decreases |cs|
  {
    if |cs| > 0 {
      NotPresent(cs[1..], key);
      if cs[0].2 {
        assert Present(cs)[1..] == Present(cs[1..]);
      } else {
        assert Present(cs) == Present(cs[1..]);
      }
    }
  }

  /** `updateURL`: each non-empty field under its key, and the sort only when it is
      not the default, as `params.set` calls on a fresh parameter list. */
  function UpdateURL(form: SearchForm): (params: Params)
    ensures |params| <= 7
  {
    Present(Candidates(form))
  }

  /** The URL holds each non-empty field under its own key, and the sort when it is not
      the default; a key for an empty field is absent. */
  lemma UpdateURLHoldsTheForm(form: SearchForm)
    ensures var params := UpdateURL(form);
            && Get(params, "q") == (if form.query == "" then None else Some(form.query))
            && Get(params, "category") == (if form.category == "" then None else Some(form.category))
            && Get(params, "condition") == (if form.condition == "" then None else Some(form.condition))
            && Get(params, "minPrice") == (if form.minPrice == "" then None else Some(form.minPrice))
            && Get(params, "maxPrice") == (if form.maxPrice == "" then None else Some(form.maxPrice))
            && Get(params, "location") == (if form.location == "" then None else Some(form.location))
            && Get(params, "sort") == (if form.sortBy == DefaultSort then None else Some(form.sortBy))
  {
    var cs := Candidates(form);
    var keys := ["q", "category", "condition", "minPrice", "maxPrice", "location", "sort"];
    assert forall a :: 0 <= a < 7 ==> cs[a].0 == keys[a];
    assert keys[1][1] != keys[2][1] && keys[3][1] != keys[4][1];
    GetPresent(cs, 0);
    GetPresent(cs, 1);
    GetPresent(cs, 2);
    GetPresent(cs, 3);
    GetPresent(cs, 4);
    GetPresent(cs, 5);
    GetPresent(cs, 6);
  }

  /** The form the page starts from when opened at a URL: `get(key) || ''`, and the
      default sort when `sort` is missing or empty. */
  function FormFromParams(params: Params): (form: SearchForm)
    ensures form.sortBy != ""
    ensures Get(params, "q").Some? ==> form.query == Get(params, "q").value
    ensures Get(params, "sort").Some? && Get(params, "sort").value != "" ==> form.sortBy == Get(params, "sort").value
  {
    SearchForm(
      Get(params, "q").GetOr(""),
      Get(params, "category").GetOr(""),
      Get(params, "condition").GetOr(""),
      Get(params, "minPrice").GetOr(""),
      Get(params, "maxPrice").GetOr(""),
      Get(params, "location").GetOr(""),
      var s := Get(params, "sort").GetOr(""); if s == "" then DefaultSort else s)
  }

  /** Reopening the URL `updateURL` wrote restores the form, as long as a sort is chosen
      (the drop-down has no empty choice). */
  lemma URLRestoresForm(form: SearchForm)
    requires form.sortBy != ""
    ensures FormFromParams(UpdateURL(form)) == form
  {
    UpdateURLHoldsTheForm(form);
  }

  /** The blank form leaves the URL bare. */
  lemma BlankFormHasNoParams()
    ensures UpdateURL(BlankForm) == []
  {
  }

  /** The text of a filled-in price field as a number; the fields are numeric inputs. */
  type NumberParser = string -> int

  /** `searchProducts(page)`'s query: empty fields become absent, the sort value is split
      at ':' into column and direction, and twelve listings are asked for per page. */
  function BuildQuery(form: SearchForm, page: int, toNumber: NumberParser): (q: Products.ProductQuery)
    ensures q.search == (if form.query == "" then None else Some(form.query))
    ensures q.category == (if form.category == "" then None else Some(form.category))
    ensures q.condition == (if form.condition == "" then None else Some(form.condition))
    ensures q.location == (if form.location == "" then None else Some(form.location))
    ensures q.minPrice == (if form.minPrice == "" then None else Some(toNumber(form.minPrice)))
    ensures q.maxPrice == (if form.maxPrice == "" then None else Some(toNumber(form.maxPrice)))
    ensures q.status.None?
    ensures q.sortBy.Some?
    ensures Text.CountChar(form.sortBy, ':') <= 1 ==>
              Text.Join([q.sortBy.value] + (if q.sortOrder.Some? then [q.sortOrder.value] else []), ':') == form.sortBy
    ensures q.page == Some(page) && q.limit == Some(12)
  {
    var parts := Text.Split(form.sortBy, ':');
    Text.JoinSplit(form.sortBy, ':');
    Products.ProductQuery(
      if form.query == "" then None else Some(form.query),
      if form.category == "" then None else Some(form.category),
      if form.condition == "" then None else Some(form.condition),
      None,
      if form.minPrice == "" then None else Some(toNumber(form.minPrice)),
      if form.maxPrice == "" then None else Some(toNumber(form.maxPrice)),
      if form.location == "" then None else Some(form.location),
      Some(parts[0]),
      if |parts| >= 2 then Some(parts[1]) else None,
      Some(page),
      Some(12))
  }

  /** A search with either price field filled in gets no listings: the query fails
      validation or the store refuses its price bound. */
  lemma PriceSearchFails(cat: Products.Catalogue, form: SearchForm, page: int, toNumber: NumberParser)
    requires Products.Valid(cat)
    requires form.minPrice != "" || form.maxPrice != ""
    ensures Products.FindAll(cat, BuildQuery(form, page, toNumber)).Err?
  {
  }

  /** Reloading the page at the URL it wrote asks the listing endpoint for the same
      query as before the reload. */
  lemma ReloadRepeatsQuery(form: SearchForm, page: int, toNumber: NumberParser)
    requires form.sortBy != ""
    ensures BuildQuery(FormFromParams(UpdateURL(form)), page, toNumber) == BuildQuery(form, page, toNumber)
  {
    URLRestoresForm(form);
  }

  /** A sort value `column:order` for an ordering the listing endpoint knows reaches it
      as that column and direction. */
  lemma SortValueIsSplit(form: SearchForm, page: int, toNumber: NumberParser, column: string, order: string)
    requires Products.KnownOrdering(column, order)
    requires form.sortBy == column + ":" + order
    ensures var q := BuildQuery(form, page, toNumber);
            Products.KnownOrdering(Products.ColumnOf(q), Products.OrderOf(q))
            && Products.ColumnOf(q) == column && Products.OrderOf(q) == order
  {
    assert ':' !in column && ':' !in order;
    Text.SplitJoin([column, order], ':');
    assert Text.Join([column, order], ':') == form.sortBy;
  }

  /** Every choice of the sort drop-down names an ordering the listing endpoint accepts,
      and it is the ordering the choice describes. */
  lemma SortOptionsAreAccepted(form: SearchForm, page: int, toNumber: NumberParser)
    requires form.sortBy in SortOptions
    ensures var q := BuildQuery(form, page, toNumber);
            Products.KnownOrdering(Products.ColumnOf(q), Products.OrderOf(q))
            && Products.ColumnOf(q) + ":" + Products.OrderOf(q) == form.sortBy
  {
    if form.sortBy == "createdAt:desc" {
      SortValueIsSplit(form, page, toNumber, "createdAt", "desc");
    } else if form.sortBy == "price:asc" {
      SortValueIsSplit(form, page, toNumber, "price", "asc");
    } else if form.sortBy == "price:desc" {
      SortValueIsSplit(form, page, toNumber, "price", "desc");
    } else if form.sortBy == "viewCount:desc" {
      SortValueIsSplit(form, page, toNumber, "viewCount", "desc");
    } else {
      assert form.sortBy == "likeCount:desc";
      SortValueIsSplit(form, page, toNumber, "likeCount", "desc");
    }
  }

  // ---------------------------------------------------------------------------------
  // Card picture

  const PlaceholderImage: string := "https://images.unsplash.com/photo-1560472354-b33ff0c44a43?w=400&h=400&fit=crop"

  /** `images[mainImageIndex] || images[0] || placeholder`: a missing or empty entry
      falls through to the next choice. */
  function CardImage(images: seq<string>, mainImageIndex: int): (url: string)
    ensures url != ""
    ensures url in images || url == PlaceholderImage
    ensures 0 <= mainImageIndex < |images| && images[mainImageIndex] != "" ==> url == images[mainImageIndex]
    ensures (forall i :: 0 <= i < |images| ==> images[i] == "") ==> url == PlaceholderImage
  {
    if 0 <= mainImageIndex < |images| && images[mainImageIndex] != "" then images[mainImageIndex]
    else if |images| > 0 && images[0] != "" then images[0]
    else PlaceholderImage
  }

  /** Taking a picture other than the main one off a listing leaves its card picture as
      it was. */
  lemma CardImageSurvivesRemoval(images: seq<string>, mainImageIndex: int, index: int)
    requires 0 <= index < |images| && 0 <= mainImageIndex < |images| && index != mainImageIndex
    requires images[mainImageIndex] != ""
    ensures var r := ImageUpload.RemoveImage(images, mainImageIndex, index);
            CardImage(r.0, r.1) == CardImage(images, mainImageIndex)
  {
    ImageUpload.RemovalKeepsMainPicture(images, mainImageIndex, index);
  }
}

=== FILE: shared_utils.dfy ===
/** The helpers shared by the front end and the back end: the elapsed-time label, the
    e-mail and password checks, image URLs and the category and condition display
    names. Elapsed times arrive as a difference in milliseconds, the clock read
    being left to the caller. */
module SharedUtils {
  import opened Common
  import Text

  /** An elapsed-time label: "방금 전", "n분 전", "n시간 전", "n일 전" or a calendar date
      in the Korean locale, whose formatting is not modelled. */
  datatype Ago = JustNow | MinutesAgo(n: nat) | HoursAgo(n: nat) | DaysAgo(n: nat) | LocaleDate

  /** The label text, for every bucket but the locale date. */
  function AgoText(a: Ago): Option<string> {
    match a
    case JustNow => Some("방금 전")
    case MinutesAgo(n) => Some(IntText(n) + "분 전")
    case HoursAgo(n) => Some(IntText(n) + "시간 전")
    case DaysAgo(n) => Some(IntText(n) + "일 전")
    case LocaleDate => None
  }

  /** Decimal digits of a count. */
  function IntText(n: nat): (s: string)
    ensures |s| >= 1
    ensures n < 100 ==> |s| <= 2
    ensures forall i :: 0 <= i < |s| ==> '0' <= s[i] <= '9'
  {
    if n < 10 then [(48 + n) as char]
    else IntText(n / 10) + [(48 + n % 10) as char]
  }

  /** The number a string of decimal digits denotes. */
  function DigitsValue(s: string): nat
    requires forall i :: 0 <= i < |s| ==> '0' <= s[i] <= '9'
  {
    if |s| == 0 then 0 else DigitsValue(s[..|s| - 1]) * 10 + (s[|s| - 1] as int - 48)
  }

  /** Reading the digits back gives the count. */
  lemma {:induction false} IntTextRoundTrip(n: nat)
    ensures DigitsValue(IntText(n)) == n
  {
    if n >= 10 {
      var s := IntText(n);
      IntTextRoundTrip(n / 10);
      assert s[..|s| - 1] == IntText(n / 10);
    }
  }

  /** `formatDate`: whole seconds elapsed, then buckets under a minute, an hour, a day
      and thirty days. A date in the future counts as just now. */
  function FormatDate(diffMs: int): (a: Ago)
    ensures a.JustNow? <==> diffMs < 60 * 1000
    ensures a.MinutesAgo? ==> 1 <= a.n < 60
    ensures a.HoursAgo? ==> 1 <= a.n < 24
    ensures a.DaysAgo? ==> 1 <= a.n < 30
    ensures a.LocaleDate? <==> diffMs >= 2592000 * 1000
  {
    var s := diffMs / 1000;
    if s < 60 then JustNow
    else if s < 3600 then MinutesAgo(s / 60)
    else if s < 86400 then HoursAgo(s / 3600)
    else if s < 2592000 then DaysAgo(s / 86400)
    else LocaleDate
  }

  /** The number in each label is the elapsed time in its unit, rounded down. */
  lemma FormatDateCountsWholeUnits(diffMs: int)
    ensures FormatDate(diffMs).MinutesAgo? ==>
              60000 * FormatDate(diffMs).n <= diffMs < 60000 * (FormatDate(diffMs).n + 1)
    ensures FormatDate(diffMs).HoursAgo? ==>
              3600000 * FormatDate(diffMs).n <= diffMs < 3600000 * (FormatDate(diffMs).n + 1)
    ensures FormatDate(diffMs).DaysAgo? ==>
              86400000 * FormatDate(diffMs).n <= diffMs < 86400000 * (FormatDate(diffMs).n + 1)
  {
    var s := diffMs / 1000;
    assert 1000 * s <= diffMs < 1000 * (s + 1);
    DivBounds(s, 60);
    DivBounds(s, 3600);
    DivBounds(s, 86400);
  }

  lemma DivBounds(a: int, d: int)
    requires d > 0
    ensures d * (a / d) <= a < d * (a / d + 1)
  {
  }

  // ---------------------------------------------------------------------------------
  // Validators

  /** The characters `\s` matches in a JavaScript regular expression. */
  predicate IsSpace(c: char) {
    || c == ' ' || c == '\t' || c == '\n' || c == '\r' || c == '\U{000B}' || c == '\U{000C}'
    || c == '\U{00A0}' || c == '\U{1680}' || ('\U{2000}' <= c <= '\U{200A}')
    || c == '\U{2028}' || c == '\U{2029}' || c == '\U{202F}' || c == '\U{205F}' || c == '\U{3000}'
    || c == '\U{FEFF}'
  }

  /** Every character matches `[^\s@]`. */
  predicate PlainRun(t: string) {
    forall j :: 0 <= j < |t| ==> !IsSpace(t[j]) && t[j] != '@'
  }

  /** The first position of `c`, or -1. */
  function IndexOf(s: string, c: char): (i: int)
    ensures -1 <= i < |s|
    ensures i >= 0 ==> s[i] == c && c !in s[..i]
    ensures i == -1 <==> c !in s
  {
    if |s| == 0 then -1
    else if s[0] == c then 0
    else
      var j := IndexOf(s[1..], c);
      assert s == [s[0]] + s[1..];
      if j == -1 then -1
      else
        assert s[..j + 1] == [s[0]] + s[1..][..j];
        j + 1
  }

  /** `s` splits as local part, '@' at `i`, and a domain with a '.' at `k`. */
  predicate EmailSplitAt(s: string, i: int, k: int) {
    && 0 < i && i + 1 < k < |s| - 1
    && s[i] == '@' && s[k] == '.'
    && PlainRun(s[..i]) && PlainRun(s[i + 1..])
  }

  /** The strings `/^[^\s@]+@[^\s@]+\.[^\s@]+$/` accepts: a non-empty local part, one
      '@', and a domain with a '.' that has text on both sides, neither part holding
      white space or another '@'. */
  ghost predicate EmailShape(s: string) {
    exists i, k :: EmailSplitAt(s, i, k)
  }

  /** `isValidEmail`: the regular expression's only choice is where the '.' falls, since
      the '@' can only be the first one. */
  function IsValidEmail(s: string): (b: bool)
    ensures b <==> EmailShape(s)
  {
    var i := IndexOf(s, '@');
    EmailSplitsAtFirstAt(s);
    i > 0 && exists k :: i + 1 < k < |s| - 1 && EmailSplitAt(s, i, k)
  }

  lemma EmailSplitsAtFirstAt(s: string)
    ensures EmailShape(s) ==> exists k :: EmailSplitAt(s, IndexOf(s, '@'), k)
  {
    if EmailShape(s) {
      var i, k :| EmailSplitAt(s, i, k);
      assert forall j :: 0 <= j < i ==> s[..i][j] != '@';
      FirstIndex(s, '@', i);
      assert EmailSplitAt(s, IndexOf(s, '@'), k);
    }
  }

  /** A position holding `c` with no `c` before it is the first. */
  lemma FirstIndex(s: string, c: char, i: int)
    requires 0 <= i < |s| && s[i] == c && c !in s[..i]
    ensures IndexOf(s, c) == i
  {
    assert s[i] in s;
    assert forall j :: 0 <= j < i ==> s[..i][j] == s[j];
  }

  predicate IsAsciiLetter(c: char) {
    'a' <= c <= 'z' || 'A' <= c <= 'Z'
  }

  predicate IsDigit(c: char) {
    '0' <= c <= '9'
  }

  /** The characters `.` does not match. */
  predicate IsLineTerminator(c: char) {
    c == '\n' || c == '\r' || c == '\U{2028}' || c == '\U{2029}'
  }

  /** The text before the first line terminator. */
  function FirstLine(s: string): (t: string)
    ensures |t| <= |s| && t == s[..|t|]
    ensures forall j :: 0 <= j < |t| ==> !IsLineTerminator(t[j])
    ensures |t| < |s| ==> IsLineTerminator(s[|t|])
  {
    if |s| == 0 || IsLineTerminator(s[0]) then []
    else
      var rest := FirstLine(s[1..]);
      assert s[..|rest| + 1] == [s[0]] + s[1..][..|rest|];
      [s[0]] + rest
  }

  predicate HasLetter(t: string) {
    exists j :: 0 <= j < |t| && IsAsciiLetter(t[j])
  }

  predicate HasDigit(t: string) {
    exists j :: 0 <= j < |t| && IsDigit(t[j])
  }

  /** `isValidPassword`: at least eight characters, and `/^(?=.*[a-zA-Z])(?=.*\d)/`,
      which looks for a letter and a digit on the first line only. */
  function IsValidPassword(s: string): (b: bool)
    ensures b <==> && |s| >= 8
                   && (exists j :: 0 <= j < |s| && IsAsciiLetter(s[j]) && !exists m :: 0 <= m < j && IsLineTerminator(s[m]))
                   && (exists j :: 0 <= j < |s| && IsDigit(s[j]) && !exists m :: 0 <= m < j && IsLineTerminator(s[m]))
  {
    var line := FirstLine(s);
    FirstLineWitnesses(s, IsAsciiLetter);
    FirstLineWitnesses(s, IsDigit);
    |s| >= 8 && HasLetter(line) && HasDigit(line)
  }

  lemma FirstLineWitnesses(s: string, p: char -> bool)
    requires forall c :: p(c) ==> !IsLineTerminator(c)
    ensures (exists j :: 0 <= j < |FirstLine(s)| && p(FirstLine(s)[j]))
            <==> (exists j :: 0 <= j < |s| && p(s[j]) && !exists m :: 0 <= m < j && IsLineTerminator(s[m]))
  {
    var line := FirstLine(s);
    if exists j :: 0 <= j < |s| && p(s[j]) && !exists m :: 0 <= m < j && IsLineTerminator(s[m]) {
      var j :| 0 <= j < |s| && p(s[j]) && !exists m :: 0 <= m < j && IsLineTerminator(s[m]);
      assert !IsLineTerminator(s[j]);
      assert j < |line|;
      assert line[j] == s[j];
      assert 0 <= j < |FirstLine(s)| && p(FirstLine(s)[j]);
    }
    if exists j :: 0 <= j < |line| && p(line[j]) {
      var j :| 0 <= j < |line| && p(line[j]);
      assert s[j] == line[j];
      forall m | 0 <= m < j ensures !IsLineTerminator(s[m]) {
        assert s[m] == line[m];
      }
      assert 0 <= j < |s| && p(s[j]) && !exists m :: 0 <= m < j && IsLineTerminator(s[m]);
    }
  }

  /** A line break hides a letter or digit from the password check. */
  lemma PasswordCheckStopsAtLineBreak()
    ensures !IsValidPassword("\nabc12345")
    ensures IsValidPassword("a1bcdefg")
  {
    var s := "a1bcdefg";
    assert IsAsciiLetter(s[0]) && IsDigit(s[1]) && !IsLineTerminator(s[0]);
  }

  // ---------------------------------------------------------------------------------
  // Images and display names

  const DefaultApiUrl: string := "http://localhost:3001"

  /** `getImageUrl`: absolute links pass through; anything else is served from the
      API's `/uploads/` folder, the API address falling back to the local default
      when the environment leaves it unset or empty. */
  function GetImageUrl(path: string, apiUrl: Option<string>): (url: string)
    ensures Text.StartsWith(path, "http") ==> url == path
    ensures !Text.StartsWith(path, "http") ==>
              url == (if apiUrl.None? || apiUrl.value == "" then DefaultApiUrl else apiUrl.value) + "/uploads/" + path
  {
    if Text.StartsWith(path, "http") then path
    else
      var base := if apiUrl.None? || apiUrl.value == "" then DefaultApiUrl else apiUrl.value;
      base + "/uploads/" + path
  }

  /** The path is always the tail of the URL, and with an absolute API address the
      function is idempotent. */
  lemma GetImageUrlIsStable(path: string, apiUrl: Option<string>)
    requires apiUrl.None? || apiUrl.value == "" || Text.StartsWith(apiUrl.value, "http")
    ensures var url := GetImageUrl(path, apiUrl);
            |url| >= |path| && url[|url| - |path|..] == path
    ensures Text.StartsWith(GetImageUrl(path, apiUrl), "http")
    ensures GetImageUrl(GetImageUrl(path, apiUrl), apiUrl) == GetImageUrl(path, apiUrl)
  {
    var url := GetImageUrl(path, apiUrl);
    if !Text.StartsWith(path, "http") {
      var base := if apiUrl.None? || apiUrl.value == "" then DefaultApiUrl else apiUrl.value;
      assert url == base + ("/uploads/" + path);
      assert url[..4] == base[..4];
    }
  }

  const CategoryKeys: seq<string> := ["electronics", "fashion", "home", "books", "sports", "beauty", "toys", "other"]
  const CategoryNames: seq<string> := ["전자기기", "패션/의류", "가구/생활", "도서", "스포츠", "뷰티", "완구/취미", "기타"]
  const ConditionKeys: seq<string> := ["new", "like_new", "good", "fair", "poor"]
  const ConditionNames: seq<string> := ["새상품", "거의 새상품", "상태 좋음", "사용감 있음", "상태 나쁨"]

  /** `table[key] || key` over a table given as parallel key and name lists. */
  function Lookup(keys: seq<string>, names: seq<string>, key: string): (r: string)
    requires |keys| == |names|
    ensures forall i :: 0 <= i < |keys| && keys[i] == key && names[i] != "" && key !in keys[..i] ==> r == names[i]
    ensures key !in keys ==> r == key
  {
    if |keys| == 0 then key
    else if keys[0] == key then (if names[0] != "" then names[0] else key)
    else
      var r := Lookup(keys[1..], names[1..], key);
      assert forall i :: 1 <= i < |keys| ==> keys[1..][i - 1] == keys[i] && names[1..][i - 1] == names[i];
      assert forall i :: 1 <= i < |keys| && key !in keys[..i] ==> key !in keys[1..][..i - 1] by {
        forall i | 1 <= i < |keys| && key !in keys[..i] ensures key !in keys[1..][..i - 1] {
          assert keys[1..][..i - 1] == keys[1..i];
        }
      }
      r
  }

  /** `getCategoryDisplayName`. */
  function CategoryDisplayName(key: string): (name: string)
    ensures forall i :: 0 <= i < 8 && key == CategoryKeys[i] ==> name == CategoryNames[i]
    ensures key !in CategoryKeys ==> name == key
  {
    forall i | 0 <= i < 8 && key == CategoryKeys[i] ensures key !in CategoryKeys[..i] {
    }
    Lookup(CategoryKeys, CategoryNames, key)
  }

  /** `getConditionDisplayName`. */
  function ConditionDisplayName(key: string): (name: string)
    ensures forall i :: 0 <= i < 5 && key == ConditionKeys[i] ==> name == ConditionNames[i]
    ensures key !in ConditionKeys ==> name == key
  {
    forall i | 0 <= i < 5 && key == ConditionKeys[i] ensures key !in ConditionKeys[..i] {
    }
    Lookup(ConditionKeys, ConditionNames, key)
  }

  /** The tables are keyed by lower-case names while the database enums are upper
      case, so an enum name as stored passes through untranslated. */
  lemma StoredCategoryPassesThrough()
    ensures CategoryDisplayName("ELECTRONICS") == "ELECTRONICS"
  {
    assert "ELECTRONICS"[0] == 'E';
    assert "ELECTRONICS" !in CategoryKeys by {
      forall i | 0 <= i < 8 ensures CategoryKeys[i] != "ELECTRONICS" {
        assert CategoryKeys[i][0] != 'E';
      }
    }
  }

  lemma LowerCaseKeysTranslate()
    ensures CategoryDisplayName("electronics") == "전자기기"
    ensures ConditionDisplayName("like_new") == "거의 새상품"
  {
    assert CategoryKeys[0] == "electronics";
    assert ConditionKeys[1] == "like_new";
  }
}

=== FILE: sorting.dfy ===
/** Stable descending ordering by a lexicographic rank of up to three integer keys, the
    shape of every `orderBy` the services use with a fixed key: rooms by `updatedAt desc`,
    popular listings by `likeCount desc, viewCount desc, createdAt desc`. Rows with equal
    rank keep their storage order. */
module Sorting {

  datatype Rank = Rank(major: int, middle: int, minor: int)

  /** `a` may come before `b` in a descending listing. */
  predicate AtLeast(a: Rank, b: Rank) {
    || a.major > b.major
    || (a.major == b.major && a.middle > b.middle)
    || (a.major == b.major && a.middle == b.middle && a.minor >= b.minor)
  }

  ghost predicate Descending<T>(s: seq<T>, rank: T -> Rank) {
    forall i, j :: 0 <= i < j < |s| ==> AtLeast(rank(s[i]), rank(s[j]))
  }

  /** Puts `x` before the first element it ranks at least as high as. */
  function Insert<T>(x: T, s: seq<T>, rank: T -> Rank): (r: seq<T>)
    requires Descending(s, rank)
    ensures Descending(r, rank)
    ensures multiset(r) == multiset(s) + multiset{x}
  {
    if |s| == 0 then [x]
    else if AtLeast(rank(x), rank(s[0])) then [x] + s
    else
      var tail := Insert(x, s[1..], rank);
      assert s == [s[0]] + s[1..];
      assert forall k :: 0 <= k < |tail| ==> AtLeast(rank(s[0]), rank(tail[k])) by {
        forall k | 0 <= k < |tail|
          ensures AtLeast(rank(s[0]), rank(tail[k]))
        {
          assert tail[k] in multiset(tail);
          assert tail[k] == x || tail[k] in multiset(s[1..]);
        }
      }
      [s[0]] + tail
  }

  /** Sorts by rank, highest first; a permutation of the input. */
  function SortDescending<T>(s: seq<T>, rank: T -> Rank): (r: seq<T>)
    ensures Descending(r, rank)
    ensures multiset(r) == multiset(s)
    ensures |r| == |s|
  {
    if |s| == 0 then []
    else
      var rest := SortDescending(s[1..], rank);
      assert s == [s[0]] + s[1..];
      var r := Insert(s[0], rest, rank);
      assert |r| == |multiset(r)|;
      r
  }

  /** Membership survives sorting in both directions. */
  lemma SortKeepsMembers<T>(s: seq<T>, rank: T -> Rank, x: T)
    ensures x in SortDescending(s, rank) <==> x in s
  {
    var r := SortDescending(s, rank);
    assert x in r <==> x in multiset(r);
    assert x in s <==> x in multiset(s);
  }

  ghost predicate Distinct<T>(s: seq<T>) {
    forall i, j :: 0 <= i < j < |s| ==> s[i] != s[j]
  }

  lemma {:induction false} DistinctMultiplicity<T>(s: seq<T>)
    ensures Distinct(s) <==> forall x :: multiset(s)[x] <= 1
  {
    if |s| == 0 {
    } else {
      DistinctMultiplicity(s[1..]);
      assert s == [s[0]] + s[1..];
      assert multiset(s) == multiset{s[0]} + multiset(s[1..]);
      if Distinct(s) {
        assert s[0] !in s[1..];
        assert Distinct(s[1..]);
      } else {
        var i, j :| 0 <= i < j < |s| && s[i] == s[j];
        assert s[..j] + s[j..] == s;
        assert multiset(s) == multiset(s[..j]) + multiset(s[j..]);
        assert s[i] in multiset(s[..j]);
        assert s[j] in multiset(s[j..]);
        assert multiset(s)[s[i]] >= 2;
      }
    }
  }

  /** A rearrangement has the same members. */
  lemma PermutationKeepsMembers<T>(s: seq<T>, r: seq<T>, x: T)
    requires multiset(s) == multiset(r)
    ensures x in r <==> x in s
  {
    assert x in r <==> x in multiset(r);
    assert x in s <==> x in multiset(s);
  }

  /** Sorting rearranges but never duplicates. */
  lemma PermutationKeepsDistinct<T>(s: seq<T>, r: seq<T>)
    requires multiset(s) == multiset(r) && Distinct(s)
    ensures Distinct(r)
  {
    DistinctMultiplicity(s);
    DistinctMultiplicity(r);
  }
}

=== FILE: tables.dfy ===
/** Tables keyed by counter-allocated ids, and the `findMany({ where })` scan over them:
    the keys whose row satisfies a filter, in ascending id order (storage order). */
module Tables {

  /** The keys below `n` whose row satisfies `keep`, ascending. */
  function KeysWhere<T>(m: map<nat, T>, keep: T -> bool, n: nat): (ks: seq<nat>)
    ensures forall i :: 0 <= i < |ks| ==> ks[i] < n && ks[i] in m && keep(m[ks[i]])
    ensures forall k :: k < n && k in m && keep(m[k]) ==> k in ks
    ensures forall i, j :: 0 <= i < j < |ks| ==> ks[i] < ks[j]
  {
    if n == 0 then []
    else
      var prev := KeysWhere(m, keep, n - 1);
      if n - 1 in m && keep(m[n - 1]) then prev + [n - 1] else prev
  }

  /** The rows stored under `ks`, in the same order. */
  function RowsAt<T>(m: map<nat, T>, ks: seq<nat>): (rs: seq<T>)
    requires forall i :: 0 <= i < |ks| ==> ks[i] in m
    ensures |rs| == |ks|
    ensures forall i :: 0 <= i < |ks| ==> rs[i] == m[ks[i]]
  {
    seq(|ks|, i requires 0 <= i < |ks| => m[ks[i]])
  }

  /** Every row satisfying `keep` under a key below `n`, in id order. */
  function RowsWhere<T(==)>(m: map<nat, T>, keep: T -> bool, n: nat): (rs: seq<T>)
    ensures forall i :: 0 <= i < |rs| ==> rs[i] in m.Values && keep(rs[i])
    ensures forall k :: k < n && k in m && keep(m[k]) ==> m[k] in rs
  {
    var ks := KeysWhere(m, keep, n);
    var rs := RowsAt(m, ks);
    assert forall k :: k < n && k in m && keep(m[k]) ==> m[k] in rs by {
      forall k | k < n && k in m && keep(m[k]) ensures m[k] in rs {
        var i :| 0 <= i < |ks| && ks[i] == k;
        assert rs[i] == m[k];
      }
    }
    rs
  }

}

=== FILE: text.dfy ===
/** The JavaScript string operations the services and pages rely on: ASCII lowering
    (the stand-in for `toLowerCase` and the database's case-insensitive `contains`),
    `includes`, `startsWith`, `split` on one character, and `replace` of the first
    occurrence of a literal pattern. */
module Text {

  function LowerChar(c: char): (l: char)
    ensures 'A' <= c <= 'Z' ==> l as int == c as int + 32
    ensures !('A' <= c <= 'Z') ==> l == c
    ensures !('A' <= l <= 'Z')
  {
    if 'A' <= c <= 'Z' then (c as int + 32) as char else c
  }

  function Lower(s: string): (l: string)
    ensures |l| == |s|
    ensures forall i :: 0 <= i < |s| ==> l[i] == LowerChar(s[i])
  {
    if |s| == 0 then "" else [LowerChar(s[0])] + Lower(s[1..])
  }

  /** Lowering twice is lowering once. */
  lemma LowerIdempotent(s: string)
    ensures Lower(Lower(s)) == Lower(s)
  {
    assert forall i :: 0 <= i < |s| ==> LowerChar(LowerChar(s[i])) == LowerChar(s[i]);
  }

  /** `t` occurs in `s` starting at index `i`. */
  predicate OccursAt(s: string, t: string, i: int) {
    0 <= i && i + |t| <= |s| && s[i..i + |t|] == t
  }

  /** `s.includes(t)`. */
  predicate Contains(s: string, t: string) {
    exists i :: 0 <= i <= |s| - |t| && OccursAt(s, t, i)
  }

  /** Case-insensitive containment, as `mode: 'insensitive'` and the lowered `includes`. */
  predicate ContainsIgnoringCase(s: string, t: string) {
    Contains(Lower(s), Lower(t))
  }

  lemma EmptyIsContained(s: string)
    ensures Contains(s, "")
  {
    assert OccursAt(s, "", 0);
  }

  predicate StartsWith(s: string, prefix: string) {
    |prefix| <= |s| && s[..|prefix|] == prefix
  }

  /** `s.replace(pat, rep)` with a literal pattern: only the first occurrence is replaced,
      wherever it is. */
  function ReplaceFirst(s: string, pat: string, rep: string): (r: string)
    decreases |s|
  {
    if StartsWith(s, pat) then rep + s[|pat|..]
    else if |s| == 0 then s
    else [s[0]] + ReplaceFirst(s[1..], pat, rep)
  }

  /** Without an occurrence of the pattern, `replace` changes nothing. */
  lemma {:induction false} ReplaceFirstAbsent(s: string, pat: string, rep: string)
    requires |pat| > 0
    requires !Contains(s, pat)
    ensures ReplaceFirst(s, pat, rep) == s
    decreases |s|
  {
    if StartsWith(s, pat) {
      assert OccursAt(s, pat, 0);
      assert false;
    } else if |s| > 0 {
      if Contains(s[1..], pat) {
        var i :| 0 <= i <= |s[1..]| - |pat| && OccursAt(s[1..], pat, i);
        assert s[i + 1..i + 1 + |pat|] == s[1..][i..i + |pat|];
        assert OccursAt(s, pat, i + 1);
      }
      ReplaceFirstAbsent(s[1..], pat, rep);
    }
  }

  /** Replacing a leading pattern by nothing strips it. */
  lemma ReplaceFirstStripsPrefix(pat: string, t: string)
    ensures ReplaceFirst(pat + t, pat, "") == t
  {
    assert (pat + t)[..|pat|] == pat;
    assert (pat + t)[|pat|..] == t;
  }

  /** Replaces every occurrence of one character, as `s.replace(/x/g, y)`. */
  function ReplaceAllChar(s: string, from: char, to: char): (r: string)
    ensures |r| == |s|
    ensures forall i :: 0 <= i < |s| ==> r[i] == (if s[i] == from then to else s[i])
  {
    if |s| == 0 then "" else [if s[0] == from then to else s[0]] + ReplaceAllChar(s[1..], from, to)
  }

  /** Number of occurrences of `c` in `s`. */
  function CountChar(s: string, c: char): nat {
    if |s| == 0 then 0 else (if s[0] == c then 1 else 0) + CountChar(s[1..], c)
  }

  /** `s.split(sep)` for a one-character separator. */
  function Split(s: string, sep: char): (parts: seq<string>)
    ensures |parts| == CountChar(s, sep) + 1
    ensures forall i :: 0 <= i < |parts| ==> sep !in parts[i]
  {
    if |s| == 0 then [""]
    else if s[0] == sep then [""] + Split(s[1..], sep)
    else
      var rest := Split(s[1..], sep);
      [[s[0]] + rest[0]] + rest[1..]
  }

  /** `parts.join(sep)`. */
  function Join(parts: seq<string>, sep: char): string
    requires |parts| >= 1
  {
    if |parts| == 1 then parts[0] else parts[0] + [sep] + Join(parts[1..], sep)
  }

  /** Splitting loses nothing: joining the parts back gives the original string. */
  lemma {:induction false} JoinSplit(s: string, sep: char)
    ensures Join(Split(s, sep), sep) == s
    decreases |s|
  {
    if |s| == 0 {
    } else if s[0] == sep {
      JoinSplit(s[1..], sep);
      assert s == [sep] + s[1..];
    } else {
      var rest := Split(s[1..], sep);
      JoinSplit(s[1..], sep);
      if |rest| == 1 {
        assert s == [s[0]] + rest[0];
      } else {
        assert Join(rest, sep) == rest[0] + [sep] + Join(rest[1..], sep);
        var parts := Split(s, sep);
        assert parts[1..] == rest[1..];
        assert s == [s[0]] + rest[0] + [sep] + Join(rest[1..], sep);
      }
    }
  }

  /** A separator-free string is a single part. */
  lemma {:induction false} SplitWhole(a: string, sep: char)
    requires sep !in a
    ensures Split(a, sep) == [a]
    decreases |a|
  {
    if |a| > 0 {
      SplitWhole(a[1..], sep);
      assert a == [a[0]] + a[1..];
    }
  }

  /** A separator-free part followed by the separator is split off as the first part. */
  lemma {:induction false} SplitAfterPart(a: string, rest: string, sep: char)
    requires sep !in a
    ensures Split(a + [sep] + rest, sep) == [a] + Split(rest, sep)
    decreases |a|
  {
    var s := a + [sep] + rest;
    if |a| == 0 {
      assert s[1..] == rest;
    } else {
      assert s[1..] == a[1..] + [sep] + rest;
      SplitAfterPart(a[1..], rest, sep);
      assert a == [a[0]] + a[1..];
    }
  }

  /** Joining separator-free parts and splitting again gives the parts back. */
  lemma {:induction false} SplitJoin(parts: seq<string>, sep: char)
    requires |parts| >= 1
    requires forall i :: 0 <= i < |parts| ==> sep !in parts[i]
    ensures Split(Join(parts, sep), sep) == parts
    decreases |parts|
  {
    if |parts| == 1 {
      SplitWhole(parts[0], sep);
    } else {
      SplitJoin(parts[1..], sep);
      SplitAfterPart(parts[0], Join(parts[1..], sep), sep);
      assert parts == [parts[0]] + parts[1..];
    }
  }

  /** Lower-casing works character by character, so it distributes over `+`. */
  lemma LowerAppend(a: string, b: string)
    ensures Lower(a + b) == Lower(a) + Lower(b)
  {
    assert forall i :: 0 <= i < |a + b| ==> Lower(a + b)[i] == (Lower(a) + Lower(b))[i];
  }

  /** A string containing `a + b` contains `a`. */
  lemma ContainsPrefixOf(s: string, a: string, b: string)
    requires Contains(s, a + b)
    ensures Contains(s, a)
  {
    var i :| 0 <= i <= |s| - |a + b| && OccursAt(s, a + b, i);
    assert s[i..i + |a|] == (a + b)[..|a|] == a;
    assert OccursAt(s, a, i);
  }
}
